=== FILE: README.md ===
# Adaptive Parsons-puzzle pipeline, modelled in Dafny

This project models the server side of the Ai-puzzle application. The
server asks a language model for a Parsons puzzle: code lines to put back
in order, distractor lines, and the correct order of the lines. It turns
the model's free-text reply into a bounded puzzle record, keeps a skill
estimate for each learner, and picks the difficulty of the next puzzle
from that estimate. The model covers these parts:

- **Prompt and reply parsing** (`prompt_templates.dfy`, module `PromptTemplates`):
  - the generation prompt;
  - the cascade that turns the reply into a candidate record: the whole text as JSON, then a fenced code block, then the greedy `{...}` match, then the regular-expression fallback;
  - the normalisation of the candidate.
- **Sanitizer** (`sanitization.dfy`): the bounds applied to a record before it is stored (30 lines, 10 distractors, 200 UTF-16 code units per string, 64 KiB).
- **Difficulty scheduler** (`difficulty_scheduler.dfy`):
  - the six-band table;
  - the five-value moving average;
  - the guardrails: at most one band per attempt, and absolute bounds on the counts;
  - `mapSkillToDifficulty` and `getNextDifficulty`.
- **Learner model** (`learner_model.dfy`): the skill update after an attempt, and the recommendation of the next difficulty.
- **Model client** (`llm_adapter.dfy`):
  - prompt normalisation and the request body;
  - the retry loop with exponential backoff;
  - the classification of retryable errors;
  - JSON extraction from the reply;
  - the mapping of a parsed reply onto the puzzle record.
- **Generation harness checks** (`harness.dfy`): the schema check, the ideal solver, and the error classifier.
- **Rate limiter** (`rate_limit.dfy`, with the request shape in `express_request.dfy`): a fixed 60-second window of at most 100 requests per user or client address.
- **Payload validators** (`validation.dfy`): the ordered guards that answer 400 or hand the request on.
- **Generate route** (`generate_flow.dfy`): the hand-off from the model client to the sanitizer (see Findings).

JavaScript values are one datatype in `js_values.dfy` (`JsValues.Value`), together with the coercions the code relies on:

- truthiness;
- `String(v)`: integers below 10^21 in plain decimal, larger ones in exponent form (`1e+21`);
- `Number(v)`: white space and an optional sign around decimal digits with an optional fraction and exponent, `Infinity`, and the `0x`/`0o`/`0b` integer forms; a value beyond the largest double becomes an infinity, and anything else is NaN;
- `s.length` and `s.slice(0, n)`, counted in UTF-16 code units;
- `trim` and `includes`;
- property access;
- `new Set(xs).size`.

A JavaScript `throw` is an `Err` carrying the thrown message. Numbers are `real`.

Three behaviours of the code that a reader might not expect:

- The parser does not coerce `solutionOrder` to integers. A fractional index inside the range survives parsing (`PromptTemplates.FractionalIndexKept`). Only the sanitizer keeps integers alone.
- Retry classification is a substring test on the lower-cased error message, not a test on a status code. Any message mentioning `400`, `401`, `403`, `404`, `unauthorized`, `invalid api key` or `authentication` is final. So is `http 4` without `429`.
- The rate limiter keeps its bucket map as state that each request updates. It is modelled as a class with that map as a field.

## Model

| member | source | states |
|---|---|---|
| PromptTemplates.GetLineRange | server/src/services/promptTemplates.js:216-223 | every difficulty other than easy and hard gets the medium range "7-10 lines" |
| PromptTemplates.GetDistractorCount | server/src/services/promptTemplates.js:228-235 | the count is between 2 and 4; every difficulty other than easy and hard gets 3 |
| PromptTemplates.UnknownDifficultyIsMedium | server/src/services/promptTemplates.js:216-235 | an unknown difficulty gets exactly the medium line range and distractor count |
| PromptTemplates.ExamplesSection | server/src/services/promptTemplates.js:166-172 | the examples section embeds the few-shot example text |
| PromptTemplates.RequirementsSection | server/src/services/promptTemplates.js:175-185 | the requirements always carry a line-count line (explicit count, or the range for the difficulty) and a distractor-count line |
| PromptTemplates.GeneratePuzzlePrompt | server/src/services/promptTemplates.js:149-211 | the prompt is header, optional examples, requirements and format schema, in that order |
| PromptTemplates.SkipSpace | server/src/services/promptTemplates.js:278 | the `\s*` step stops at the first non-space character, and everything skipped is white space |
| PromptTemplates.AfterOpenFence | server/src/services/promptTemplates.js:278 | the optional `json` tag and the white space after it lie after the fence |
| PromptTemplates.ClosingBraceFrom | server/src/services/promptTemplates.js:278 | the lazy group ends at a `}` at or after the search start |
| PromptTemplates.FencedObjectFrom | server/src/services/promptTemplates.js:278 | a fenced match captures a text that starts with `{` and ends with `}` |
| PromptTemplates.FirstIndexOf | server/src/services/promptTemplates.js:288 | the first occurrence of a character, or none at all |
| PromptTemplates.LastIndexOf | server/src/services/promptTemplates.js:288 | the last occurrence of a character, or none at all |
| PromptTemplates.GreedyObject | server/src/services/promptTemplates.js:288 | the match runs from the first `{` to the last `}`, with no brace matching; there is no match exactly when no `}` follows a `{` |
| PromptTemplates.ParseJsonResponse | server/src/services/promptTemplates.js:272-299 | whole-text JSON wins; otherwise a fenced object that parses wins; otherwise the greedy match is parsed, and its failure reads "JSON parse failed: " and the parser's message; with neither match the result is "No valid JSON structure found"; any success is one of the three parses |
| PromptTemplates.CloseBracketFrom | server/src/services/promptTemplates.js:312-333 | the lazy `(.*?)\]` ends at the first `]` |
| PromptTemplates.DigitRuns | server/src/services/promptTemplates.js:338-341 | no more digit runs than characters |
| PromptTemplates.MinusSignDropped | server/src/services/promptTemplates.js:338 | `[-1]` reads as the index 1: the minus sign is dropped |
| PromptTemplates.QuotedEnd | server/src/services/promptTemplates.js:373 | a quoted item closes at a matching quote after its start |
| PromptTemplates.ItemAt | server/src/services/promptTemplates.js:373-386 | an item match consumes at least one character |
| PromptTemplates.NextItem | server/src/services/promptTemplates.js:376 | each `exec` step advances, so the scan terminates |
| PromptTemplates.ExtractArrayItems | server/src/services/promptTemplates.js:356-390 | blank text gives no items; bracketed JSON is taken as is; otherwise the items are scanned out one `exec` match at a time |
| PromptTemplates.RegexFallback | server/src/services/promptTemplates.js:304-350 | the fallback fails exactly when all three extracted arrays are empty |
| PromptTemplates.ParseRegexResponse | server/src/services/promptTemplates.js:304-350 | the method fills the record field by field and returns what the fallback function specifies |
| PromptTemplates.CleanStrings | server/src/services/promptTemplates.js:404-406 | every kept line is non-empty and trimmed, and no more lines come out than went in |
| PromptTemplates.CleanStringsAppend | server/src/services/promptTemplates.js:404-406 | the cleaning keeps order: it distributes over concatenation |
| PromptTemplates.CleanStringsSingle | server/src/services/promptTemplates.js:404-406 | one element is kept, trimmed, exactly when it is neither nullish nor blank |
| PromptTemplates.NumbersOf | server/src/services/promptTemplates.js:425 | each element goes through `Number` |
| PromptTemplates.InRangeNumbers | server/src/services/promptTemplates.js:426 | every kept number lies in `[0, |lines|)` |
| PromptTemplates.InRangeNumbersAppend | server/src/services/promptTemplates.js:424-426 | the filter keeps the input order |
| PromptTemplates.ValidateParsedData | server/src/services/promptTemplates.js:395-454 | a non-object is refused; an accepted record is well formed; it holds the cleaned lines and distractors (`[]` when not an array) and the in-range order; problem and hint default to `''` |
| PromptTemplates.NoneOutOfRange | server/src/services/promptTemplates.js:433 | after the filter, the second range check finds nothing |
| PromptTemplates.ValidateParsedDataErrors | server/src/services/promptTemplates.js:396-439 | every failure is one of the five guard messages: the "Invalid indices" throw is dead code |
| PromptTemplates.FractionalIndexKept | server/src/services/promptTemplates.js:424-426 | a fractional index inside the range survives the parser |
| PromptTemplates.ParseLLMResponse | server/src/services/promptTemplates.js:245-267 | a missing, non-string or empty input is refused first; every success is well formed; when both strategies fail, the error combines their two messages and a 500-unit preview |
| PromptTemplates.ValidateAndParseLLMResponse | server/src/services/promptTemplates.js:245-267 | the method agrees with the function: the JSON strategies, then the regex fallback |
| PromptTemplates.DirectJsonWins | server/src/services/promptTemplates.js:251-253 | text that parses whole and validates is taken as it is |
| PromptTemplates.NoJsonStructure | server/src/services/promptTemplates.js:297 | text with no brace, no backtick and no whole-text JSON reports "No valid JSON structure found" |
| PromptTemplates.NoFieldNames | server/src/services/promptTemplates.js:349 | text naming none of the fields makes the fallback throw its message |
| PromptTemplates.ProseRejected | server/src/services/promptTemplates.js:245-267 | plain prose is rejected with both strategies' messages and the text preview |
| PromptTemplates.OpeningFence | server/src/services/promptTemplates.js:278 | an opening ```json fence and its line break are skipped up to the `{` |
| PromptTemplates.FencedBlockFound | server/src/services/promptTemplates.js:278 | a ```json block around an object without backticks yields exactly that object |
| PromptTemplates.FencedParsesInner | server/src/services/promptTemplates.js:278-281 | a fenced reply goes through the fenced strategy to the inner object |
| PromptTemplates.FencedSameAsPlain | server/src/services/__tests__/promptTemplates.parser.test.js:16-21 | a fenced object parses to the same candidate as the bare object |
| PromptTemplates.PaddedLineTrimmed | server/src/services/promptTemplates.js:405 | any line padded with a space on each side is kept, trimmed |
| PromptTemplates.PlainLineKept | server/src/services/promptTemplates.js:404-406 | a line without surrounding white space is kept unchanged |
| PromptTemplates.BlankLineDropped | server/src/services/promptTemplates.js:406 | any line of white space only is dropped |
| PromptTemplates.SampleLinesCleaned | server/src/services/promptTemplates.js:404-406 | in a padded line, a null, a blank line and a plain line, the null and the blank line are dropped and the rest trimmed, in order |
| PromptTemplates.SampleOrderFiltered | server/src/services/promptTemplates.js:424-426 | out-of-range indices are dropped; numeric strings and fractions inside the range are kept |
| PromptTemplates.SampleRecordNormalised | server/src/services/promptTemplates.js:413-453 | a record with those four lines, a string for `distractors` and a mixed order normalises to the two lines, `[]` distractors, the in-range order, and `''` for problem and hint |
| PromptTemplates.PlainQuotedItem | server/src/services/promptTemplates.js:373-379 | a double-quoted item without escapes is taken verbatim |
| PromptTemplates.EscapesDecoded | server/src/services/promptTemplates.js:379 | escaped quotes, escaped newlines and escaped backslashes are decoded |
| PromptTemplates.QuotedKeyAbsent | server/src/services/promptTemplates.js:312 | the quoted-key pattern cannot match where no double quote is followed by the name's first letter |
| PromptTemplates.KeyFirstAt | server/src/services/promptTemplates.js:312-333 | the key pattern matches at the first place where the key and a bracketed array follow |
| PromptTemplates.SampleLineItems | server/src/services/promptTemplates.js:356-390 | the items `"x","y"` are extracted as the strings x and y |
| PromptTemplates.SampleOrderNumbers | server/src/services/promptTemplates.js:338-341 | the order text `0,1` gives the numbers 0 and 1 |
| PromptTemplates.TwoLineRecordValidated | server/src/services/promptTemplates.js:395-454 | a fallback record of two unpadded lines, one distractor and the order 0, 1 normalises to that candidate with `''` problem and hint |
| PromptTemplates.SampleRegexRecord | server/src/services/promptTemplates.js:304-350 | on the unquoted-key sample, the fallback finds the three arrays |
| PromptTemplates.FallbackWins | server/src/services/promptTemplates.js:245-267 | when every JSON strategy fails and the fallback validates, the fallback's candidate is the result |
| PromptTemplates.RegexFallbackSample | server/src/services/__tests__/promptTemplates.parser.test.js:23-29 | `lines: ["x","y"], distractors: ["z"], solutionOrder: [0,1]`, which is not JSON, parses through the fallback to lines x and y, distractor z and order 0, 1 |
| PromptTemplates.RegexRecoversSameRecord | server/src/services/promptTemplates.js:256-258 | what the fallback extracts is validated exactly as a JSON reply carrying the same arrays would be |
| Sanitization.Clip | server/src/services/sanitization.js:14 | at most 200 UTF-16 code units, a prefix of `String(v)`, the whole string when it fits, and otherwise cut only where the next character would cross the limit |
| Sanitization.ClipAll | server/src/services/sanitization.js:16-17 | each element clipped, in place |
| Sanitization.IntegerIndices | server/src/services/sanitization.js:20-22 | every kept index is an integer in `[0, |lines|)` |
| Sanitization.IntegerIndicesAppend | server/src/services/sanitization.js:20-22 | the filter keeps order |
| Sanitization.IntegerIndicesSingle | server/src/services/sanitization.js:22 | one element survives exactly when `Number` of it is an integer in range |
| Sanitization.NoIndicesIntoNothing | server/src/services/sanitization.js:22 | nothing can index an empty list |
| Sanitization.SanitizePuzzleData | server/src/services/sanitization.js:6-34 | the size check comes first; success means 1 to 30 clipped lines, at most 10 clipped distractors, a non-empty order of integer indices into the kept lines, and clipped problem and hint |
| Sanitization.SanitizeErrors | server/src/services/sanitization.js:24-25 | the "Invalid lines" throw can never fire |
| Sanitization.MissingLinesRejected | server/src/services/sanitization.js:12-24 | a record without lines is always refused |
| Sanitization.SanitizedStringsBounded | server/src/services/sanitization.js:14-32 | every returned string has at most 200 UTF-16 code units |
| Sanitization.SanitizedIndicesInRange | server/src/services/sanitization.js:20-22 | every returned index names a kept line |
| Sanitization.SanitizeIsBounded | server/src/services/sanitization.js:6-34 | every result lies within all the bounds |
| Sanitization.IntegerIndicesOfInts | server/src/services/sanitization.js:20-22 | integer indices in range pass unchanged |
| Sanitization.ClipAllOfStrings | server/src/services/sanitization.js:14-17 | short strings pass unchanged |
| Sanitization.SanitizeIdempotent | server/src/services/sanitization.js:6-34 | a sanitized record passes through a second time unchanged |
| Sanitization.LongListsTruncated | server/src/services/sanitization.js:12-13 | 50 lines and 20 distractors are cut to 30 and 10 |
| Sanitization.ExponentIndexKept | server/src/services/sanitization.js:20-22 | an order entry written `"1e0"` goes through `Number` as 1 and is kept as the index 1 |
| Sanitization.AstralLineClipped | server/src/services/sanitization.js:14 | a line of 150 characters beyond the Basic Multilingual Plane (300 code units) is cut to its first 100 characters |
| Sanitization.IndexPastSingleLineRejected | server/src/services/sanitization.js:24 | an index past the only line is refused |
| DifficultyScheduler.GetSkillBand | server/src/services/difficultyScheduler.js:77-84 | the band is 0..5, and band ≤ k exactly when the skill is at most the k-th ceiling |
| DifficultyScheduler.GetSkillBandMonotone | server/src/services/difficultyScheduler.js:77-84 | a higher skill never lands in a lower band |
| DifficultyScheduler.SmoothingWindow | server/src/services/difficultyScheduler.js:97-98 | the window is the last min(5, n) values |
| DifficultyScheduler.WindowMeanWithin | server/src/services/difficultyScheduler.js:97-101 | the mean of values in a range lies in that range |
| DifficultyScheduler.MovingAverage | server/src/services/difficultyScheduler.js:91-102 | an empty list gives 0; the result has two decimals; skills in 0..100 average into 0..100 |
| DifficultyScheduler.OnlyLastFiveCount | server/src/services/difficultyScheduler.js:97-98 | older values are ignored |
| DifficultyScheduler.SteadySkillAverages | server/src/services/difficultyScheduler.js:91-102 | equal values average to themselves |
| DifficultyScheduler.ClampCounts | server/src/services/difficultyScheduler.js:135-162 | the optimal count ends in `[lo, hi]`; an in-range triple is unchanged; a raised or lowered one moves min or max with it |
| DifficultyScheduler.LimitedBand | server/src/services/difficultyScheduler.js:118-123 | the limited band lies in 0..5 |
| DifficultyScheduler.LimitedBandOneStep | server/src/services/difficultyScheduler.js:115-124 | a jump of more than one band moves exactly one band towards the target |
| DifficultyScheduler.TableWithinGuardrails | server/src/services/difficultyScheduler.js:9-70 | every table row already lies inside the absolute bounds |
| DifficultyScheduler.Guardrails | server/src/services/difficultyScheduler.js:111-165 | the result is within the bounds; `band`, skill and smoothed skill are untouched; a large jump takes the limited band's row and sets `bandLimited` |
| DifficultyScheduler.ApplyGuardrails | server/src/services/difficultyScheduler.js:111-165 | the field-by-field overwrite returns what `Guardrails` specifies |
| DifficultyScheduler.ClampInPlace | server/src/services/difficultyScheduler.js:135-142 | one raise-then-lower pair gives `ClampCounts` |
| DifficultyScheduler.ClampKeepsBand | server/src/services/difficultyScheduler.js:204-214 | clamping the skill to 0..100 never changes its band |
| DifficultyScheduler.ParamsFor | server/src/services/difficultyScheduler.js:203-232 | the clamped skill is reported; the band comes from the smoothed skill; `smoothedSkill` is present exactly when it differs; a small jump keeps the band's row |
| DifficultyScheduler.SkillToDifficulty | server/src/services/difficultyScheduler.js:183-233 | only null and non-objects throw; the reported skill is the clamped input; every result is within the guardrails |
| DifficultyScheduler.MapSkillToDifficulty | server/src/services/difficultyScheduler.js:183-233 | the method, which reads the argument into locals, returns what `SkillToDifficulty` specifies |
| DifficultyScheduler.NumberInputUnguarded | server/src/services/difficultyScheduler.js:187-190 | a plain number is never smoothed or limited |
| DifficultyScheduler.NumberInputDifficulty | server/src/services/difficultyScheduler.js:9-84 | for a number: easy up to 35, medium up to 70, hard above |
| DifficultyScheduler.RecentSkillsSmooth | server/src/services/difficultyScheduler.js:206-214 | with recent skills, the band comes from their average with the current skill |
| DifficultyScheduler.SmoothingExample | server/src/services/__tests__/difficultyScheduler.test.js:51-59 | recent 45, 47, 46, 48 and current 50 average to 47.2 |
| DifficultyScheduler.GuardedBandNotUpdated | server/src/services/difficultyScheduler.js:214-227 | a limited result keeps the unlimited `band` alongside the limited band's row |
| DifficultyScheduler.GetBandParameters | server/src/services/difficultyScheduler.js:240-245 | indices outside 0..5 throw; others return that row with its index |
| DifficultyScheduler.PredictedSkill | server/src/services/difficultyScheduler.js:276-283 | +2 capped at 100 after a correct answer, −1 floored at 0 after a wrong one |
| DifficultyScheduler.GetNextDifficulty | server/src/services/difficultyScheduler.js:272-290 | the reported skill is the clamped prediction, within the guardrails |
| DifficultyScheduler.CorrectPredictsNoLower | server/src/services/difficultyScheduler.js:276-283 | a correct answer never predicts a lower skill than a wrong one |
| LearnerModel.GetDifficultyLevel | server/src/services/learnerModel.js:162-164 | level 1..3: 1 exactly for easy, 3 exactly for hard, else 2 |
| LearnerModel.GetDifficultyName | server/src/services/learnerModel.js:169-171 | easy exactly for 1, hard exactly for 3, else medium |
| LearnerModel.NamesAndLevelsRoundTrip | server/src/services/learnerModel.js:6-16 | names and levels are inverse to each other |
| LearnerModel.NumericLevel | server/src/services/learnerModel.js:43-45 | a name goes through the table; a number is used as is |
| LearnerModel.StartingSkill | server/src/services/learnerModel.js:40 | the starting skill lies in 0..100, and 0 when absent |
| LearnerModel.SkillLevelRange | server/src/services/learnerModel.js:71 | `floor(skill / 33.33)` lies in 0..3 |
| LearnerModel.TimeBonus | server/src/services/learnerModel.js:58-64 | between 0.5 and 1.5, and 1 without both times |
| LearnerModel.FasterNeverLess | server/src/services/learnerModel.js:59-64 | a faster finish never earns a smaller bonus |
| LearnerModel.UpdateSkill | server/src/services/learnerModel.js:31-97 | the new skill lies in 0..100 with two decimals |
| LearnerModel.ClampMonotone | server/src/services/learnerModel.js:94 | the clamp is monotone |
| LearnerModel.WrongNeverRaises | server/src/services/learnerModel.js:76-88 | a wrong answer never raises the skill, and lowers any positive one |
| LearnerModel.NamedLevelPositive | server/src/services/learnerModel.js:43-45 | named difficulties have level 1..3 |
| LearnerModel.CorrectRaises | server/src/services/learnerModel.js:50-75 | a correct answer within five attempts raises any skill below 100 |
| LearnerModel.LateCorrectLowers | server/src/services/learnerModel.js:55 | at the seventh attempt the first-attempt bonus is negative, so a correct medium answer lowers skill 50 to 49.52 |
| LearnerModel.MediumAtFifty | server/src/services/__tests__/learnerModel.test.js:54-72 | the updated skills for a correct medium answer at skill 50, by attempt count and time |
| LearnerModel.FewerAttemptsEarnMore | server/src/services/learnerModel.js:55 | fewer attempts never earn less |
| LearnerModel.RecommendNextDifficulty | server/src/services/learnerModel.js:109-157 | always a level name; a wrong answer at skill below 33 gives easy |
| LearnerModel.WrongNeverHarder | server/src/services/learnerModel.js:140-154 | after a wrong answer the recommendation is never harder |
| LearnerModel.RepeatedWrongStepsDown | server/src/services/learnerModel.js:145-153 | a repeated wrong answer steps down one level |
| LearnerModel.CorrectFirstNeverEasier | server/src/services/learnerModel.js:124-139 | a correct first attempt never recommends an easier level |
| LlmAdapter.NormalizePrompt | server/src/services/llmAdapter.js:209-228 | a messages array is passed on; a string becomes one user message; an object with content keeps its role (default user); anything else throws |
| LlmAdapter.ClampTemperature | server/src/services/llmAdapter.js:39 | the temperature is clamped into [0, 2] |
| LlmAdapter.BuildRequestBody | server/src/services/llmAdapter.js:36-41 | the default model, the messages and the clamped temperature; `extra_body` exactly when reasoning is on |
| LlmAdapter.FenceFrom | server/src/services/llmAdapter.js:185 | the first fence at or after a position |
| LlmAdapter.FencedText | server/src/services/llmAdapter.js:185-190 | a capture exists only when there is a fence |
| LlmAdapter.ParseResponse | server/src/services/llmAdapter.js:179-204 | direct JSON wins; otherwise the fenced capture, or without a fence the greedy match, is trimmed and parsed, and its failure reads "Failed to parse JSON from LLM response: " with the parser's message; with neither match the error is "No valid JSON found in LLM response"; every failure ends with a preview of the first 200 UTF-16 code units of the reply |
| LlmAdapter.FencedReplyParsed | server/src/services/llmAdapter.js:185-191 | a reply made of one fenced block yields that block parsed |
| LlmAdapter.FourTwoNotContained | server/src/services/llmAdapter.js:243-244 | text whose every `4` is followed by `2` contains no `40x` code |
| LlmAdapter.HttpFourIsRateLimit | server/src/services/llmAdapter.js:244 | where every `4` starts `429`, an "http 4" is an "http 429" |
| LlmAdapter.NoFourNoAIsRetryable | server/src/services/llmAdapter.js:233-249 | a message with no `4` and no `a` is retried |
| LlmAdapter.ClientErrorNotRetried | server/src/services/llmAdapter.js:237-245 | a message naming 400, 401, 403 or 404 is never retried |
| LlmAdapter.RateLimitRetried | server/src/services/llmAdapter.js:139 | the thrown `OpenRouter API error: <detail>` is retried when the detail names no authentication word and each of its `4`s starts `429` |
| LlmAdapter.Http429Retried | server/src/services/llmAdapter.js:133-139 | the error thrown for a bare 429 status, `OpenRouter API error: HTTP 429`, is retried |
| LlmAdapter.IsNonRetryableError | server/src/services/llmAdapter.js:233-249 | a final error mentions, in any case, a `4` or one of `unauthorized`, `invalid api key`, `authentication` |
| LlmAdapter.Backoffs | server/src/services/llmAdapter.js:66 | the k-th delay is 1000·2^k ms |
| LlmAdapter.ExhaustedRunSleeps | server/src/services/llmAdapter.js:65-76 | an exhausted run sleeps 1 s, then 2 s, and not after the last attempt |
| LlmAdapter.RetryWithBackoff | server/src/services/llmAdapter.js:44-83 | one to three attempts; every earlier attempt failed retryably; the result is the last outcome, or the exhausted message after three retryable failures; the sleeps follow the backoff |
| LlmAdapter.CallLLM | server/src/services/llmAdapter.js:25-84 | a missing key or a bad prompt throws before any request; otherwise the retry characterisation (`RetriedOver`) holds for the attempts over the built request body, with the backoff sleeps between them |
| LlmAdapter.PuzzleRecordFor | server/src/services/llmAdapter.js:94-103 | segments, order and distractors come from the parsed record; the description falls back to the topic text; a well-formed record gives a non-empty, in-range order |
| LlmAdapter.PuzzleFromReply | server/src/services/llmAdapter.js:92-103 | a failed call fails the generation; every record has the title, category, difficulty and language, and an in-range order; a string reply succeeds exactly when it parses |
| LlmAdapter.GenerationRequest | server/src/services/llmAdapter.js:91-92 | the generation body: the default model, temperature 0.7, no `extra_body`, the system message, then the prompt with `\nTopic: ` and the topic |
| LlmAdapter.GenerationRequestSent | server/src/services/llmAdapter.js:32-41 | the generation messages pass normalisation, and the body callLLM builds from them is `GenerationRequest` |
| LlmAdapter.RecordFromReply | server/src/services/llmAdapter.js:93-103 | the statements after the call build the record `PuzzleFromReply` specifies, failing where the call or the parse failed |
| LlmAdapter.BuildAdaptivePrompt | server/src/services/llmAdapter.js:90 | the prompt is `generatePuzzlePrompt` with the few-shot examples and no explicit counts |
| LlmAdapter.RequestPuzzle | server/src/services/llmAdapter.js:91-103 | `Requested`: no request without a key; otherwise callLLM's retry characterisation over `GenerationRequest`, the backoff sleeps, and the record `PuzzleFromReply` builds from the reply |
| LlmAdapter.GenerateAdaptivePuzzle | server/src/services/llmAdapter.js:89-104 | the prompt is `AdaptivePrompt` (examples, no counts), and everything `Requested` states holds for it: no request without a key, the retries over the generation request, the record from the reply |
| Harness.ClassifyError | server/tools/harness.js:140-154 | "other" only when the message mentions neither json nor order |
| Harness.JsonMentionIsParseError | server/tools/harness.js:143-145 | any message mentioning JSON is a parse error |
| Harness.ParseFailureIsParseError | server/tools/harness.js:143-145 | the parse-failure message of the model client is a parse error |
| Harness.NoJsonFoundIsParseError | server/tools/harness.js:143-145 | the no-JSON message of the model client is a parse error |
| Harness.ParseResponseErrorsAreParseErrors | server/tools/harness.js:140-154 | every error of `parseResponse` is classified as a parse error |
| Harness.InvalidWithoutParseWords | server/tools/harness.js:143-148 | a message starting "invalid" with no `p` or `j` is a schema failure |
| Harness.SanitizedOrderErrorIsSchemaFailure | server/tools/harness.js:146-148 | the sanitizer's order error counts as a schema failure, not an order failure |
| Harness.InvalidIndex | server/tools/harness.js:182 | a non-integer is invalid; against a numeric length n, an index is invalid exactly when it names none of the n lines |
| Harness.InvalidIndices | server/tools/harness.js:181-183 | exactly the order's invalid indices |
| Harness.SchemaErrors | server/tools/harness.js:159-200 | a nullish puzzle throws |
| Harness.NoInvalidIndices | server/tools/harness.js:181-187 | no invalid indices exactly when every index is an integer naming a line |
| Harness.FieldErrors | server/tools/harness.js:163-177 | at most four messages, each one of the four field messages; none for three arrays with non-empty lines |
| Harness.IndexErrors | server/tools/harness.js:179-194 | at most two messages; an invalid index puts the "Invalid indices" message first; with no invalid index, none exactly when the distinct count equals the length |
| Harness.FieldErrorsNoneIff | server/tools/harness.js:163-177 | the field checks push nothing exactly when lines is a non-empty array and the other two fields are arrays |
| Harness.IndexErrorsNoneIff | server/tools/harness.js:179-194 | the index checks push nothing exactly when every index is an integer naming a line and the distinct count equals the line count |
| Harness.SchemaValidIff | server/tools/harness.js:159-200 | no errors exactly when lines is non-empty, the three fields are arrays, every index names a line, and the distinct count equals the line count |
| Harness.CheckFields | server/tools/harness.js:163-177 | the four field pushes give `FieldErrors` |
| Harness.CheckIndices | server/tools/harness.js:179-194 | the two index pushes give `IndexErrors` |
| Harness.ValidatePuzzleSchema | server/tools/harness.js:159-200 | the pushed errors are `SchemaErrors`, and valid holds exactly when there are none |
| Harness.Spread | server/tools/harness.js:209-210 | an array spreads into its items |
| Harness.OutOfRange | server/tools/harness.js:217 | for an integer, out of range exactly when it names no line; undefined, objects and strings that are not numbers are never out of range, since NaN compares false |
| Harness.Element | server/tools/harness.js:220 | an index into the lines gives one of the lines; undefined, null and booleans give undefined |
| Harness.ExponentIndexOutOfRange | server/tools/harness.js:216-218 | the string `1e5` is read as 100000, so it is out of range for any puzzle of at most 100000 lines and the reconstruction throws |
| Harness.Reconstruct | server/tools/harness.js:216-221 | succeeds exactly when no index is out of range, and then maps each index to its element |
| Harness.SimulateIdealSolver | server/tools/harness.js:206-260 | solvable exactly when a reconstruction is returned and no reason is given |
| Harness.AstralLinesMissIndex | server/tools/harness.js:228-238 | a string of lines is spread by character but expects `lines.length` code units of indices, so one astral character named by index 0 is reported as missing an index |
| Harness.SolverVerdict | server/tools/harness.js:206-253 | on array fields, solvable exactly when no index is out of range and the distinct count equals both the line count and the order length; the reconstruction is then returned |
| Harness.Indices | server/tools/harness.js:216 | integer indices as numbers |
| Harness.IdealSolverAcceptsPermutations | server/tools/harness.js:206-253 | with integer indices, solvable exactly when the order is a permutation of the line indices; then place i holds line order[i] |
| Harness.IndicesInRange | server/tools/harness.js:217 | no throw exactly when every index is in range |
| Harness.IndicesDistinct | server/tools/harness.js:241 | the set has full size exactly when the indices are distinct |
| Harness.DuplicatesPassSchemaButNotSolver | server/tools/harness.js:179-246 | an order that repeats an index but covers every line passes the schema check and fails the solver |
| ExpressRequest.Header | server/src/middleware/rateLimit.js:7-8 | a header is a string or undefined |
| ExpressRequest.UserId | server/src/middleware/rateLimit.js:7 | the `x-user-id` header when truthy, else `body.user_id` |
| RateLimit.ClientIp | server/src/middleware/rateLimit.js:8 | `req.ip`, or a non-empty forwarded entry without a comma that does not start with white space; `req.ip` whenever there is no header |
| RateLimit.FirstField | server/src/middleware/rateLimit.js:8 | the text before the first comma |
| RateLimit.KeyFromReq | server/src/middleware/rateLimit.js:6-10 | `user:<id>` when a user id is present, else `ip:<address>` |
| RateLimit.UserAndIpKeysDiffer | server/src/middleware/rateLimit.js:9 | user keys and address keys never collide |
| RateLimit.ForwardedClientFirst | server/src/middleware/rateLimit.js:8 | the first, trimmed `x-forwarded-for` entry names the client |
| RateLimit.FirstFieldUpTo | server/src/middleware/rateLimit.js:8 | the split stops at the first comma |
| RateLimit.Counted | server/src/middleware/rateLimit.js:15-24 | a missing or expired bucket restarts at now; the request is always counted |
| RateLimit.Verdict | server/src/middleware/rateLimit.js:26-31 | 429 exactly when the count exceeds 100, else next |
| RateLimit.RateLimiter.constructor | server/src/middleware/rateLimit.js:4 | the bucket map starts empty |
| RateLimit.RateLimiter.Handle | server/src/middleware/rateLimit.js:14-32 | only the key's bucket changes, to the counted bucket; the reply follows the new count |
| RateLimit.RateLimiter.RateLimitRequest | server/src/middleware/rateLimit.js:12-33 | the request's key, then `Handle`; every other bucket stays as it was |
| RateLimit.Replay | server/src/middleware/rateLimit.js:14-32 | one reply per request of a run |
| RateLimit.ReplayWithinWindow | server/src/middleware/rateLimit.js:16-31 | inside one window, request i is answered as the (count+i+1)-th |
| RateLimit.HundredFirstRefused | server/src/middleware/__tests__/rateLimit.test.js:16-23 | 100 requests in one window pass and the 101st gets 429 |
| RateLimit.ExpiredWindowRestarts | server/src/middleware/rateLimit.js:18-21 | a request after the window restarts the count at one and passes |
| Validation.IsNonEmptyString | server/src/middleware/validation.js:1-3 | a string with a non-blank character, exactly |
| Validation.FalsyIsBlank | server/src/middleware/validation.js:16 | a falsy value stringifies to the blank `''` |
| Validation.FirstFailure | server/src/middleware/validation.js:5-27 | next exactly when every guard passes; otherwise 400 with the first failing guard's message |
| Validation.ValidateGeneratePayload | server/src/middleware/validation.js:5-12 | passes exactly with a non-empty topic and a falsy or known difficulty; otherwise 400 with the first failure |
| Validation.TopicCheckedFirst | server/src/middleware/validation.js:7 | a bad topic is reported whatever the difficulty |
| Validation.WrappedDifficultyAccepted | server/src/middleware/validation.js:8 | `["hard"]` passes like `"hard"`, because of `String(...)` |
| Validation.ValidateAttemptStartPayload | server/src/middleware/validation.js:14-18 | passes exactly when the user id stringifies to non-blank text |
| Validation.HeaderUserIdSuffices | server/src/middleware/validation.js:15-16 | a non-blank header id is enough |
| Validation.StartedAttemptKeyedByUser | server/src/middleware/validation.js:14-18 | a validated start is rate-limited under its user id |
| Validation.ValidateSubmitPayload | server/src/middleware/validation.js:20-27 | a non-array order is refused first; every refusal is a 400 with one of the four messages |
| Validation.SubmitChecksInOrder | server/src/middleware/validation.js:20-27 | the reply is the first failing guard's, in source order |
| Validation.FirstFailureAt | server/src/middleware/validation.js:20-27 | the least failing guard decides the reply |
| Validation.SubmitPassesIff | server/src/middleware/validation.js:20-27 | passes exactly with an array order, a non-blank start time, and well-typed optional fields |
| Validation.NumericStartTimeAccepted | server/src/middleware/validation.js:22 | a numeric start time is accepted |
| JsValues.Utf16Length | server/src/services/sanitization.js:14 | a string's length in code units lies between its character count and twice that |
| JsValues.UnitPrefix | server/src/services/sanitization.js:14 | `slice(0, n)`: a prefix of at most n code units, the whole string when it fits, and otherwise cut only where the next character would cross n |
| JsValues.UnitPrefixOfBmp | server/src/services/sanitization.js:14 | on text within the Basic Multilingual Plane, code units are characters |
| JsValues.UnitPrefixOfAstral | server/src/services/sanitization.js:14 | on text beyond it, 2k code units are k characters |
| JsValues.Rounded | server/src/services/sanitization.js:21 | a value is finite exactly when it lies strictly between minus and plus the overflow bound; beyond it is an infinity, never NaN |
| JsValues.ExponentLiteral | server/src/services/sanitization.js:21 | digits, `e` and digits are read as the mantissa times ten to the exponent |
| JsValues.ExponentZero | server/src/services/sanitization.js:21 | `Number("1e0")` is 1 |
| JsValues.ExponentFive | server/tools/harness.js:217 | `Number("1e5")` is 100000 |
| JsValues.InfinityLiterals | server/src/services/sanitization.js:21 | `Infinity` and `-Infinity` are read as the infinities |
| JsValues.HexLiterals | server/src/services/sanitization.js:21 | `0x1A` is 26; a sign before a base prefix gives NaN |
| JsValues.PlainBelowExponentForm | server/src/services/sanitization.js:14 | `String` of an integer below 10^21 is its plain decimal digits |
| JsValues.FirstExponentForm | server/src/services/sanitization.js:14 | `String(1e21)` is `1e+21` |
| GenerateFlow.RecordValue | server/src/services/llmAdapter.js:94-103 | the returned object carries `segments` and `correct_order`, and no `lines` or `solutionOrder` |
| GenerateFlow.SanitizeAsWritten | server/src/routes/puzzles.js:174-180 | the route's sanitizer call always fails |
| GenerateFlow.GeneratedRecordAlwaysRejected | server/src/routes/puzzles.js:174-180 | every generated record is refused with the order error, or as too large |
| GenerateFlow.SanitizerInput | server/src/services/sanitization.js:12-32 | the renamed record hands the sanitizer the segments, distractors, order and description |
| GenerateFlow.SanitizeGenerated | server/src/services/sanitization.js:6-34 | the corrected hand-off is the sanitizer applied to the renamed record, and is bounded |
| GenerateFlow.IndicesNonEmptyIff | server/src/services/sanitization.js:20-24 | some index survives exactly when one is an integer naming a kept line |
| GenerateFlow.CorrectedRecordAccepted | server/src/services/sanitization.js:6-34 | a generated record within the size limit is stored exactly when some index is an integer naming one of the kept lines |
| GenerateFlow.CorrectedRecordKeepsPuzzle | server/src/services/sanitization.js:6-34 | a small puzzle with integer indices is stored with its segments and order unchanged |

## Left out

- Network I/O. The request function (`fetch`, abort controller, 60-second timeout, headers) is the parameter `makeRequest`; `sleep` is left out, and the delays it would sleep are returned instead. The environment variable holding the API key is a parameter.
- `JSON.parse` and `JSON.stringify` are parameters. The only assumption is that a bracketed array that parses yields an array. `Buffer.byteLength` is the parameter `jsonBytes`.
- Console logging and the warning about duplicate indices in the parser.
- Floating-point arithmetic. Numbers are exact reals with no rounding to the nearest double, so `Math.round(x * 100) / 100` is exact, `1.0000000000000001` is not an integer and `1e-400` is not 0. Only the overflow to an infinity beyond the largest double is modelled, and NaN appears only as a failed `Number(...)`.
- JsValues.NumToString: numbers below 10^-6 are written positionally rather than in exponent form, and fractions are cut at 20 digits.
- Sanitization.Clip: a cut that falls inside a surrogate pair drops the whole pair, because a string of characters cannot hold a lone surrogate; the same holds for LlmAdapter.PreviewTail and PromptTemplates.FailureMessage.
- JsValues.Get: a string index counts characters, not UTF-16 code units; no modelled path indexes a string by position.
- Lower-casing and white space are ASCII plus the usual JavaScript space characters. Unicode case mapping is not modelled.
- Object keys inherited from `Object.prototype` are not looked up.
- The literal few-shot example text is a parameter of the prompt builder.
- The defaults `difficulty = 'medium'` and `language = 'python'` of the generator, and the default temperature 0.2 of the model client, are left to the caller. Every parameter is given explicitly.
- `getSkillBandMapping` and `getGuardrails` return copies of constant tables. The tables are the constants `SkillBandMapping` and the guardrail constants.
- DifficultyScheduler.ApplyGuardrails: returns a fresh record. The source's `{ ...params }` copy is shallow, so clamping writes into the nested triples it shares with the caller; that aliasing is not modelled.
- LearnerModel.RecommendNextDifficulty: a numeric `currentDifficulty` is not checked against 1..3, so a level outside that range names no level and falls back to medium, as in the source. The lemmas cover named difficulties only.
- The harness driver (the run loop, file output, CSV summary, live generation calls and its statistics), the routes other than the generate hand-off, persistence, authentication and the user interface.
- The request shape: headers are strings, and `req.ip` is a value. Express's own header merging is not modelled.
- RateLimit.RateLimiter.Handle: the bucket is a value in the map rather than an object mutated in place. No one else holds a reference to a bucket, so the two behave alike.

## Findings

| source | as written | input that shows it | evidently intended | confidence | as-written member | corrected member |
|---|---|---|---|---|---|---|
| server/src/routes/puzzles.js:174-180 | the route hands the record from `generateAdaptivePuzzle` (fields `segments` and `correct_order`) straight to `sanitizePuzzleData`, which reads `lines` and `solutionOrder`; it finds neither and throws "Invalid solutionOrder after sanitation" | any successful generation, e.g. segments `["x = 1"]` with correct_order `[0]` | the fields renamed to the sanitizer's names, so that a valid generated puzzle is stored; the route's own test (server/src/routes/__tests__/puzzles.generate.test.js:5-13) stubs the generator with a record that already has `lines` and `solutionOrder`, so it never reaches this path | not executed | GenerateFlow.GeneratedRecordAlwaysRejected | GenerateFlow.CorrectedRecordAccepted |

=== FILE: difficulty_scheduler.dfy ===
/**
 * The difficulty scheduler: a six-band table from skill level to puzzle
 * parameters, a moving average that smooths recent skill values, and
 * guardrails that limit a change to one band per attempt and clamp the
 * optimal counts to absolute bounds.
 */
module DifficultyScheduler {
  import opened JsValues

  /** A `{min, max, optimal}` triple. */
  datatype Counts = Counts(min: int, max: int, optimal: int)

  /** One row of the band table. */
  datatype BandParams = BandParams(
    difficultyScore: real,
    lines: Counts,
    distractors: Counts,
    semanticTraps: Counts,
    difficulty: string)

  const SkillBandMapping: seq<BandParams> := [
    BandParams(1.0, Counts(4, 6, 5), Counts(1, 2, 1), Counts(0, 1, 0), "easy"),
    BandParams(1.5, Counts(5, 7, 6), Counts(1, 2, 2), Counts(0, 1, 0), "easy"),
    BandParams(2.0, Counts(6, 9, 7), Counts(2, 3, 2), Counts(0, 2, 1), "medium"),
    BandParams(2.5, Counts(8, 12, 10), Counts(2, 4, 3), Counts(1, 3, 2), "medium"),
    BandParams(3.0, Counts(10, 15, 12), Counts(3, 5, 4), Counts(2, 4, 3), "hard"),
    BandParams(3.5, Counts(12, 20, 15), Counts(4, 6, 5), Counts(3, 5, 4), "hard")
  ]

  const MaxJumpPerAttempt := 1
  const MinLines := 4
  const MaxLines := 20
  const MinDistractors := 1
  const MaxDistractors := 6
  const MinSemanticTraps := 0
  const MaxSemanticTraps := 5
  const SmoothingWindowSize := 5

  /** The parameters the scheduler hands out. */
  datatype Params = Params(
    difficultyScore: real,
    lines: Counts,
    distractors: Counts,
    semanticTraps: Counts,
    difficulty: string,
    band: int,
    skill: real,
    smoothedSkill: Option<real>,
    bandLimited: bool)

  function RowOf(p: Params): BandParams {
    BandParams(p.difficultyScore, p.lines, p.distractors, p.semanticTraps, p.difficulty)
  }

  function Abs(x: int): nat {
    if x < 0 then -x else x
  }

  // ---------------------------------------------------------------------
  // Skill bands

  /** The inclusive upper skill bound of band k. */
  function BandCeiling(k: nat): real
    requires k < 5
  {
    [20.0, 35.0, 50.0, 70.0, 85.0][k]
  }

  /** getSkillBand */
  function GetSkillBand(skill: real): (b: int)
    ensures 0 <= b <= 5
    ensures forall k :: 0 <= k < 5 ==> (b <= k <==> skill <= BandCeiling(k))
  {
    if skill <= 20.0 then 0
    else if skill <= 35.0 then 1
    else if skill <= 50.0 then 2
    else if skill <= 70.0 then 3
    else if skill <= 85.0 then 4
    else 5
  }

  /** A higher skill never lands in a lower band. */
  lemma GetSkillBandMonotone(a: real, b: real)
    requires a <= b
    ensures GetSkillBand(a) <= GetSkillBand(b)
  {
    var k := GetSkillBand(b);
    if k < 5 {
      assert b <= BandCeiling(k);
    }
  }

  // ---------------------------------------------------------------------
  // Moving average

  /** A non-number counts as zero in the sum. */
  function NumberOrZero(v: Value): real {
    if v.Num? then v.n else 0.0
  }

  function Sum(xs: seq<Value>): real {
    if xs == [] then 0.0 else NumberOrZero(xs[0]) + Sum(xs[1..])
  }

  predicate AllWithin(xs: seq<Value>, lo: real, hi: real) {
    forall i :: 0 <= i < |xs| ==> lo <= NumberOrZero(xs[i]) <= hi
  }

  lemma {:induction false} SumWithin(xs: seq<Value>, lo: real, hi: real)
    requires AllWithin(xs, lo, hi)
    ensures |xs| as real * lo <= Sum(xs) <= |xs| as real * hi
  {
    if xs != [] {
      SumWithin(xs[1..], lo, hi);
      assert |xs| as real * lo == (|xs| - 1) as real * lo + lo;
      assert |xs| as real * hi == (|xs| - 1) as real * hi + hi;
    }
  }

  /** Division by a window size (1 to 5) keeps the bounds; the case split keeps the arithmetic linear. */
  lemma MeanWithin(total: real, n: nat, lo: real, hi: real)
    requires 0 < n <= SmoothingWindowSize && n as real * lo <= total <= n as real * hi
    ensures lo <= total / n as real <= hi
  {
    if n == 1 {
    } else if n == 2 {
      assert total / n as real == total / 2.0;
    } else if n == 3 {
      assert total / n as real == total / 3.0;
    } else if n == 4 {
      assert total / n as real == total / 4.0;
    } else {
      assert total / n as real == total / 5.0;
    }
  }

  /** The last `min(5, |xs|)` entries. */
  function SmoothingWindow(xs: seq<Value>): (w: seq<Value>)
    ensures |w| == if |xs| < SmoothingWindowSize then |xs| else SmoothingWindowSize
    ensures w == xs[|xs| - |w|..]
  {
    if |xs| < SmoothingWindowSize then xs else xs[|xs| - SmoothingWindowSize..]
  }

  lemma AllWithinSuffix(xs: seq<Value>, k: nat, lo: real, hi: real)
    requires k <= |xs| && AllWithin(xs, lo, hi)
    ensures AllWithin(xs[k..], lo, hi)
  {
    forall i | 0 <= i < |xs[k..]| ensures lo <= NumberOrZero(xs[k..][i]) <= hi {
      assert xs[k..][i] == xs[k + i];
    }
  }

  /** The window of values in [lo, hi] averages to a value in [lo, hi]. */
  lemma WindowMeanWithin(xs: seq<Value>, lo: real, hi: real)
    requires xs != []
    ensures var w := SmoothingWindow(xs); AllWithin(xs, lo, hi) ==> lo <= Sum(w) / |w| as real <= hi
  {
    if AllWithin(xs, lo, hi) {
      var w := SmoothingWindow(xs);
      assert AllWithin(w, lo, hi) by {
        AllWithinSuffix(xs, |xs| - |w|, lo, hi);
      }
      MeanOfBounded(w, lo, hi);
    }
  }

  lemma MeanOfBounded(w: seq<Value>, lo: real, hi: real)
    requires 0 < |w| <= SmoothingWindowSize && AllWithin(w, lo, hi)
    ensures lo <= Sum(w) / |w| as real <= hi
  {
    SumWithin(w, lo, hi);
    MeanWithin(Sum(w), |w|, lo, hi);
  }

  /** calculateMovingAverage */
  function MovingAverage(recentSkills: seq<Value>): (r: real)
    ensures recentSkills == [] ==> r == 0.0
    ensures IsIntegral(r * 100.0)
    ensures AllWithin(recentSkills, 0.0, 100.0) ==> 0.0 <= r <= 100.0
  {
    if recentSkills == [] then 0.0 else RoundCents(WindowMean(recentSkills))
  }

  /** The unrounded mean of the smoothing window. */
  function WindowMean(xs: seq<Value>): (m: real)
    requires xs != []
    ensures AllWithin(xs, 0.0, 100.0) ==> 0.0 <= m <= 100.0
  {
    WindowMeanWithin(xs, 0.0, 100.0);
    Sum(SmoothingWindow(xs)) / |SmoothingWindow(xs)| as real
  }

  /** Only the last five values matter: anything older is ignored. */
  lemma OnlyLastFiveCount(older: seq<Value>, recent: seq<Value>)
    requires |recent| == SmoothingWindowSize
    ensures MovingAverage(older + recent) == MovingAverage(recent)
  {
    assert SmoothingWindow(older + recent) == recent;
    assert SmoothingWindow(recent) == recent;
  }

  /** The mean of equal values is that value, once it has at most two decimals. */
  lemma {:induction false} SumOfEqual(xs: seq<Value>, c: real)
    requires forall i :: 0 <= i < |xs| ==> xs[i] == Num(c)
    ensures Sum(xs) == |xs| as real * c
  {
    if xs != [] {
      SumOfEqual(xs[1..], c);
    }
  }

  lemma SteadySkillAverages(xs: seq<Value>, c: real)
    requires xs != [] && forall i :: 0 <= i < |xs| ==> xs[i] == Num(c)
    requires IsIntegral(c * 100.0)
    ensures MovingAverage(xs) == c
  {
    var w := SmoothingWindow(xs);
    forall i | 0 <= i < |w| ensures w[i] == Num(c) {
      assert w[i] == xs[|xs| - |w| + i];
    }
    MeanOfEqual(w, c);
    assert WindowMean(xs) == c;
    RoundCentsExact(c);
  }

  lemma MeanOfEqual(w: seq<Value>, c: real)
    requires 0 < |w| <= SmoothingWindowSize && forall i :: 0 <= i < |w| ==> w[i] == Num(c)
    ensures Sum(w) / |w| as real == c
  {
    SumOfEqual(w, c);
    MeanWithin(Sum(w), |w|, c, c);
  }

  // ---------------------------------------------------------------------
  // Guardrails

  /**
   * The two clamps on one triple: an optimal below `lo` raises optimal and
   * min to `lo`; then an optimal above `hi` lowers optimal and max to `hi`.
   */
  function ClampCounts(c: Counts, lo: int, hi: int): (r: Counts)
    requires lo <= hi
    ensures lo <= r.optimal <= hi
    ensures lo <= c.optimal <= hi ==> r == c
    ensures c.optimal < lo ==> r == c.(min := lo, optimal := lo)
    ensures c.optimal > hi ==> r == c.(max := hi, optimal := hi)
  {
    var raised := if c.optimal < lo then c.(optimal := lo, min := lo) else c;
    if raised.optimal > hi then raised.(optimal := hi, max := hi) else raised
  }

  /** One band from `previousBand` towards `currentBand`, kept inside 0..5. */
  function LimitedBand(previousBand: int, currentBand: int): (b: int)
    ensures 0 <= b <= 5
  {
    var direction := if currentBand > previousBand then 1 else -1;
    var limited := previousBand + direction * MaxJumpPerAttempt;
    if limited < 0 then 0 else if limited > 5 then 5 else limited
  }

  /** Between two real bands more than one apart, the limited band is one step from the previous one, towards the current one. */
  lemma LimitedBandOneStep(previousBand: int, currentBand: int)
    requires 0 <= previousBand <= 5 && 0 <= currentBand <= 5
    requires Abs(currentBand - previousBand) > MaxJumpPerAttempt
    ensures Abs(LimitedBand(previousBand, currentBand) - previousBand) == 1
    ensures currentBand > previousBand ==> previousBand < LimitedBand(previousBand, currentBand) < currentBand
    ensures currentBand < previousBand ==> currentBand < LimitedBand(previousBand, currentBand) < previousBand
  {
  }

  predicate WithinGuardrails(p: Params) {
    && MinLines <= p.lines.optimal <= MaxLines
    && MinDistractors <= p.distractors.optimal <= MaxDistractors
    && MinSemanticTraps <= p.semanticTraps.optimal <= MaxSemanticTraps
  }

  /** Every row of the table already lies inside the absolute bounds. */
  lemma TableWithinGuardrails(b: int)
    requires 0 <= b <= 5
    ensures var row := SkillBandMapping[b];
            && ClampCounts(row.lines, MinLines, MaxLines) == row.lines
            && ClampCounts(row.distractors, MinDistractors, MaxDistractors) == row.distractors
            && ClampCounts(row.semanticTraps, MinSemanticTraps, MaxSemanticTraps) == row.semanticTraps
  {
  }

  /** What applyGuardrails returns. */
  function Guardrails(params: Params, previousBand: int, currentBand: int): (r: Params)
    ensures WithinGuardrails(r)
    ensures r.band == params.band && r.skill == params.skill && r.smoothedSkill == params.smoothedSkill
    ensures Abs(currentBand - previousBand) > MaxJumpPerAttempt ==>
              r.bandLimited && RowOf(r) == SkillBandMapping[LimitedBand(previousBand, currentBand)]
    ensures Abs(currentBand - previousBand) <= MaxJumpPerAttempt ==>
              && r.bandLimited == params.bandLimited
              && r.difficultyScore == params.difficultyScore && r.difficulty == params.difficulty
              && r.lines == ClampCounts(params.lines, MinLines, MaxLines)
              && r.distractors == ClampCounts(params.distractors, MinDistractors, MaxDistractors)
              && r.semanticTraps == ClampCounts(params.semanticTraps, MinSemanticTraps, MaxSemanticTraps)
  {
    var limited :=
      if Abs(currentBand - previousBand) > MaxJumpPerAttempt then
        var row := SkillBandMapping[LimitedBand(previousBand, currentBand)];
        TableWithinGuardrails(LimitedBand(previousBand, currentBand));
        params.(difficultyScore := row.difficultyScore, lines := row.lines, distractors := row.distractors,
                semanticTraps := row.semanticTraps, difficulty := row.difficulty, bandLimited := true)
      else params;
    limited.(lines := ClampCounts(limited.lines, MinLines, MaxLines),
             distractors := ClampCounts(limited.distractors, MinDistractors, MaxDistractors),
             semanticTraps := ClampCounts(limited.semanticTraps, MinSemanticTraps, MaxSemanticTraps))
  }

  /** applyGuardrails: overwrites the copied record's fields one guardrail at a time. */
  method ApplyGuardrails(params: Params, previousBand: int, currentBand: int) returns (result: Params)
    ensures result == Guardrails(params, previousBand, currentBand)
  {
    result := params;
    var bandJump := Abs(currentBand - previousBand);
    if bandJump > MaxJumpPerAttempt {
      var direction := if currentBand > previousBand then 1 else -1;
      var limitedBand := previousBand + direction * MaxJumpPerAttempt;
      var clampedBand := if limitedBand < 0 then 0 else if limitedBand > 5 then 5 else limitedBand;
      var limitedParams := SkillBandMapping[clampedBand];
      result := result.(difficultyScore := limitedParams.difficultyScore);
      result := result.(lines := limitedParams.lines);
      result := result.(distractors := limitedParams.distractors);
      result := result.(semanticTraps := limitedParams.semanticTraps);
      result := result.(difficulty := limitedParams.difficulty);
      result := result.(bandLimited := true);
      TableWithinGuardrails(clampedBand);
    }
    var lines := ClampInPlace(result.lines, MinLines, MaxLines);
    result := result.(lines := lines);
    var distractors := ClampInPlace(result.distractors, MinDistractors, MaxDistractors);
    result := result.(distractors := distractors);
    var semanticTraps := ClampInPlace(result.semanticTraps, MinSemanticTraps, MaxSemanticTraps);
    result := result.(semanticTraps := semanticTraps);
  }

  /** One guardrail pair of applyGuardrails: raise a too-small optimal to `lo`, then lower a too-large one to `hi`. */
  method ClampInPlace(c: Counts, lo: int, hi: int) returns (r: Counts)
    requires lo <= hi
    ensures r == ClampCounts(c, lo, hi)
  {
    r := c;
    if r.optimal < lo {
      r := r.(optimal := lo, min := lo);
    }
    if r.optimal > hi {
      r := r.(optimal := hi, max := hi);
    }
  }

  // ---------------------------------------------------------------------
  // mapSkillToDifficulty

  /**
   * The argument of mapSkillToDifficulty: a number, an options object
   * (absent fields are `None`, an absent `recentSkills` is empty), `null`,
   * or any other value.
   */
  datatype SkillInput =
    | Number(n: real)
    | Options(currentSkill: Option<real>, skill: Option<real>, recentSkills: seq<real>, previousBand: Option<int>)
    | NullObject
    | NotNumberOrObject

  const InvalidSkill := "Invalid skill parameter. Expected number or object."

  /** Clamping never moves a skill to another band. */
  lemma ClampKeepsBand(x: real)
    ensures GetSkillBand(ClampPercent(x)) == GetSkillBand(x)
  {
  }

  /** `skill.currentSkill || skill.skill || 0` */
  function OptionsSkill(currentSkill: Option<real>, skill: Option<real>): real {
    if currentSkill.Some? && currentSkill.value != 0.0 then currentSkill.value
    else if skill.Some? && skill.value != 0.0 then skill.value
    else 0.0
  }

  /** The skill the band is chosen from: the clamped skill, or the average with the recent ones. */
  function Smoothed(skill: real, recentSkills: seq<real>): real {
    if |recentSkills| > 0 then MovingAverage(Nums(recentSkills + [skill])) else skill
  }

  /** The band-table lookup and guardrails, once the inputs have been read. */
  function ParamsFor(currentSkill: real, recentSkills: seq<real>, previousBand: int): (r: Params)
    ensures r.skill == ClampPercent(currentSkill)
    ensures WithinGuardrails(r)
    ensures r.band == GetSkillBand(Smoothed(ClampPercent(currentSkill), recentSkills))
    ensures r.smoothedSkill.Some? <==> Smoothed(r.skill, recentSkills) != r.skill
    ensures r.smoothedSkill.Some? ==> r.smoothedSkill.value == Smoothed(r.skill, recentSkills)
    ensures Abs(r.band - previousBand) <= MaxJumpPerAttempt ==> !r.bandLimited && RowOf(r) == SkillBandMapping[r.band]
  {
    var skill := ClampPercent(currentSkill);
    var smoothed := Smoothed(skill, recentSkills);
    var band := GetSkillBand(smoothed);
    var row := SkillBandMapping[band];
    TableWithinGuardrails(band);
    Guardrails(Params(row.difficultyScore, row.lines, row.distractors, row.semanticTraps, row.difficulty,
                      band, skill, if smoothed != skill then Some(smoothed) else None, false),
               previousBand, band)
  }

  /** The band the guardrail compares against when the caller gives none. */
  function ImpliedPreviousBand(currentSkill: real, recentSkills: seq<real>): int {
    if |recentSkills| > 0 then
      var last := recentSkills[|recentSkills| - 1];
      GetSkillBand(if last != 0.0 then last else currentSkill)
    else GetSkillBand(currentSkill)
  }

  /** What mapSkillToDifficulty returns or throws. */
  function SkillToDifficulty(input: SkillInput): (r: Result<Params>)
    ensures r.Err? <==> input.NullObject? || input.NotNumberOrObject?
    ensures input.NotNumberOrObject? ==> r == Err(InvalidSkill)
    ensures input.Number? ==> r.Ok? && r.value.skill == ClampPercent(input.n)
    ensures input.Options? ==> r.Ok? && r.value.skill == ClampPercent(OptionsSkill(input.currentSkill, input.skill))
    ensures r.Ok? ==> WithinGuardrails(r.value)
  {
    match input
    case NotNumberOrObject => Err(InvalidSkill)
    case NullObject => Err(TypeErrorMessage)
    case Number(n) => Ok(ParamsFor(n, [], GetSkillBand(n)))
    case Options(currentSkill, skill, recentSkills, previousBand) =>
      var current := OptionsSkill(currentSkill, skill);
      Ok(ParamsFor(current, recentSkills,
                   if previousBand.Some? then previousBand.value else ImpliedPreviousBand(current, recentSkills)))
  }

  /** mapSkillToDifficulty: reads the argument into locals, then smooths, looks up and guards. */
  method MapSkillToDifficulty(input: SkillInput) returns (r: Result<Params>)
    ensures r == SkillToDifficulty(input)
  {
    var currentSkill: real;
    var recentSkills: seq<real>;
    var previousBand: int;
    match input {
      case NotNumberOrObject =>
        return Err(InvalidSkill);
      case NullObject =>
        return Err(TypeErrorMessage);
      case Number(n) =>
        currentSkill := n;
        recentSkills := [];
        previousBand := GetSkillBand(n);
      case Options(cs, s, recent, pb) =>
        currentSkill := OptionsSkill(cs, s);
        recentSkills := recent;
        if pb.Some? {
          previousBand := pb.value;
        } else {
          previousBand := ImpliedPreviousBand(currentSkill, recentSkills);
        }
    }
    currentSkill := ClampPercent(currentSkill);
    var smoothedSkill := currentSkill;
    if |recentSkills| > 0 {
      smoothedSkill := MovingAverage(Nums(recentSkills + [currentSkill]));
    }
    var currentBand := GetSkillBand(smoothedSkill);
    var bandParams := SkillBandMapping[currentBand];
    var result := Params(bandParams.difficultyScore, bandParams.lines, bandParams.distractors,
                         bandParams.semanticTraps, bandParams.difficulty, currentBand, currentSkill,
                         if smoothedSkill != currentSkill then Some(smoothedSkill) else None, false);
    var guarded := ApplyGuardrails(result, previousBand, currentBand);
    return Ok(guarded);
  }

  /**
   * A plain number is never smoothed and is compared against its own band,
   * so the guardrail never fires: the result is that band's row.
   */
  lemma NumberInputUnguarded(n: real)
    ensures SkillToDifficulty(Number(n)).Ok?
    ensures var p := SkillToDifficulty(Number(n)).value;
            && !p.bandLimited && p.smoothedSkill == None
            && p.band == GetSkillBand(ClampPercent(n)) && RowOf(p) == SkillBandMapping[p.band]
  {
    ClampKeepsBand(n);
  }

  /** For a plain number: easy up to 35, medium up to 70, hard above. */
  lemma NumberInputDifficulty(n: real)
    ensures SkillToDifficulty(Number(n)).value.difficulty
            == if n <= 35.0 then "easy" else if n <= 70.0 then "medium" else "hard"
  {
    NumberInputUnguarded(n);
  }

  /** With recent skills, the band comes from the average of them and the clamped current skill. */
  lemma RecentSkillsSmooth(currentSkill: real, recentSkills: seq<real>, previousBand: Option<int>)
    requires recentSkills != []
    ensures var p := SkillToDifficulty(Options(Some(currentSkill), None, recentSkills, previousBand)).value;
            var average := MovingAverage(Nums(recentSkills + [p.skill]));
            && p.band == GetSkillBand(average)
            && (p.smoothedSkill == if average != p.skill then Some(average) else None)
  {
  }

  /** Recent skills 45, 47, 46, 48 and a current 50 average to 47.2, which is reported. */
  lemma SmoothingExample()
    ensures SkillToDifficulty(Options(Some(50.0), None, [45.0, 47.0, 46.0, 48.0], None)).value.smoothedSkill
            == Some(47.2)
  {
    SampleMovingAverage();
    RecentSkillsSmooth(50.0, [45.0, 47.0, 46.0, 48.0], None);
  }

  lemma SampleMovingAverage()
    ensures MovingAverage(Nums([45.0, 47.0, 46.0, 48.0] + [50.0])) == 47.2
  {
    var xs := Nums([45.0, 47.0, 46.0, 48.0] + [50.0]);
    assert xs == [Num(45.0), Num(47.0), Num(46.0), Num(48.0), Num(50.0)];
    assert SmoothingWindow(xs) == xs;
    assert Sum(xs[4..]) == 50.0;
    assert Sum(xs[3..]) == 98.0;
    assert Sum(xs[2..]) == 144.0;
    assert Sum(xs[1..]) == 191.0;
    assert Sum(xs) == 236.0;
    assert WindowMean(xs) == 47.2;
    RoundCentsExact(47.2);
  }

  /**
   * When the guardrail fires, `band` still names the unlimited band: from
   * previous band 0, skill 100 reports band 5 with band 1's "easy" row.
   */
  lemma GuardedBandNotUpdated()
    ensures var p := SkillToDifficulty(Options(Some(100.0), None, [], Some(0))).value;
            p.bandLimited && p.band == 5 && RowOf(p) == SkillBandMapping[1] && p.difficulty == "easy"
  {
  }

  // ---------------------------------------------------------------------
  // getBandParameters and getNextDifficulty

  /** A table row with its index. */
  datatype BandEntry = BandEntry(params: BandParams, band: int)

  /** getBandParameters */
  function GetBandParameters(bandIndex: int): (r: Result<BandEntry>)
    ensures r.Err? <==> bandIndex < 0 || bandIndex > 5
    ensures r.Ok? ==> r.value.band == bandIndex && r.value.params == SkillBandMapping[bandIndex]
    ensures r.Err? ==> StartsWith(r.message, "Invalid band index: ")
  {
    if bandIndex < 0 || bandIndex > 5 then
      var message := "Invalid band index: " + IntToString(bandIndex) + ". Must be between 0 and 5.";
      StartsWithAppend("Invalid band index: ", IntToString(bandIndex) + ". Must be between 0 and 5.");
      assert message == "Invalid band index: " + (IntToString(bandIndex) + ". Must be between 0 and 5.");
      Err(message)
    else Ok(BandEntry(SkillBandMapping[bandIndex], bandIndex))
  }

  /** `Math.min(100, s + 2)` after a correct answer, `Math.max(0, s - 1)` after a wrong one. */
  function PredictedSkill(currentSkill: real, isCorrect: bool): (r: real)
    ensures isCorrect ==> r <= 100.0 && (currentSkill <= 98.0 ==> r == currentSkill + 2.0)
    ensures !isCorrect ==> r >= 0.0 && (currentSkill >= 1.0 ==> r == currentSkill - 1.0)
  {
    if isCorrect then (if currentSkill + 2.0 < 100.0 then currentSkill + 2.0 else 100.0)
    else (if currentSkill - 1.0 > 0.0 then currentSkill - 1.0 else 0.0)
  }

  /** getNextDifficulty */
  function GetNextDifficulty(currentSkill: real, recentSkills: seq<real>, isCorrect: bool, previousBand: Option<int>)
    : (r: Params)
    ensures r.skill == ClampPercent(PredictedSkill(currentSkill, isCorrect))
    ensures WithinGuardrails(r)
  {
    var predicted := PredictedSkill(currentSkill, isCorrect);
    SkillToDifficulty(Options(Some(predicted), None, recentSkills, previousBand)).value
  }

  /** A correct answer never predicts a lower skill than a wrong one. */
  lemma CorrectPredictsNoLower(currentSkill: real, recentSkills: seq<real>, previousBand: Option<int>)
    ensures GetNextDifficulty(currentSkill, recentSkills, true, previousBand).skill
            >= GetNextDifficulty(currentSkill, recentSkills, false, previousBand).skill
  {
  }
}

=== FILE: express_request.dfy ===
/**
 * The parts of an Express request the middleware reads: the headers (each
 * a string), the parsed JSON body (`undefined` when there is none) and the
 * client address.
 */
module ExpressRequest {
  import opened JsValues

  datatype Request = Request(headers: map<string, string>, body: Value, ip: Value)

  /** `req.headers[name]` */
  function Header(req: Request, name: string): (v: Value)
    ensures v.Str? || v.Undefined?
  {
    if name in req.headers then Str(req.headers[name]) else Undefined
  }

  /** `req.body?.[name]` */
  function BodyField(req: Request, name: string): Value {
    if IsNullish(req.body) then Undefined else Get(req.body, name)
  }

  /** `req.headers['x-user-id'] || req.body?.user_id`, read alike by the rate limiter and the start validator. */
  function UserId(req: Request): (v: Value)
    ensures Truthy(Header(req, "x-user-id")) ==> v == Header(req, "x-user-id")
    ensures !Truthy(Header(req, "x-user-id")) ==> v == BodyField(req, "user_id")
  {
    Or(Header(req, "x-user-id"), BodyField(req, "user_id"))
  }
}

=== FILE: generate_flow.dfy ===
/**
 * The generate route's hand-off from the adapter to the sanitizer: the
 * record generateAdaptivePuzzle returns is passed to sanitizePuzzleData
 * before it is stored.
 */
module GenerateFlow {
  import opened JsValues
  import opened Sanitization
  import LlmAdapter

  /** The object generateAdaptivePuzzle returns, with its own field names. */
  function RecordValue(p: LlmAdapter.PuzzleRecord): (v: Value)
    ensures Get(v, "segments") == Arr(StrValues(p.segments))
    ensures Get(v, "correct_order") == Arr(Nums(p.correctOrder))
    ensures Get(v, "lines").Undefined? && Get(v, "solutionOrder").Undefined?
  {
    Obj(map["title" := Str(p.title),
            "description" := p.description,
            "difficulty" := Str(p.difficulty),
            "category" := Str(p.category),
            "segments" := Arr(StrValues(p.segments)),
            "correct_order" := Arr(Nums(p.correctOrder)),
            "distractors" := Arr(StrValues(p.distractors)),
            "language" := Str(p.language)])
  }

  // ---------------------------------------------------------------------
  // As written: the record goes to the sanitizer unchanged

  /** `sanitizePuzzleData(generatedPuzzle)` as the route calls it. */
  function SanitizeAsWritten(p: LlmAdapter.PuzzleRecord, jsonBytes: nat): (r: Result<Sanitized>)
    ensures r.Err?
  {
    var r := SanitizePuzzleData(RecordValue(p), jsonBytes);
    MissingLinesRejected(RecordValue(p), jsonBytes);
    r
  }

  /**
   * Every generated record is refused: the sanitizer looks for `lines` and
   * `solutionOrder`, finds neither, and reports an invalid order (or a
   * record too large), however good the generated puzzle is.
   */
  lemma GeneratedRecordAlwaysRejected(p: LlmAdapter.PuzzleRecord, jsonBytes: nat)
    ensures jsonBytes <= MaxTotalJsonSize ==> SanitizeAsWritten(p, jsonBytes) == Err(InvalidOrder)
    ensures jsonBytes > MaxTotalJsonSize ==> SanitizeAsWritten(p, jsonBytes) == Err(TooLarge)
  {
    var v := RecordValue(p);
    assert ArrayField(v, "lines") == [] && ArrayField(v, "solutionOrder") == [];
  }

  // ---------------------------------------------------------------------
  // Corrected: the adapter's fields are renamed to the sanitizer's

  /** The record under the names the sanitizer reads: segments as lines, correct_order as solutionOrder. */
  function SanitizerInput(p: LlmAdapter.PuzzleRecord): (v: Value)
    ensures ArrayField(v, "lines") == StrValues(p.segments)
    ensures ArrayField(v, "distractors") == StrValues(p.distractors)
    ensures ArrayField(v, "solutionOrder") == Nums(p.correctOrder)
    ensures Get(v, "problem") == p.description && Get(v, "hint").Undefined?
  {
    Obj(map["lines" := Arr(StrValues(p.segments)),
            "distractors" := Arr(StrValues(p.distractors)),
            "solutionOrder" := Arr(Nums(p.correctOrder)),
            "problem" := p.description])
  }

  function SanitizeGenerated(p: LlmAdapter.PuzzleRecord, jsonBytes: nat): (r: Result<Sanitized>)
    ensures r == SanitizePuzzleData(SanitizerInput(p), jsonBytes)
    ensures r.Ok? ==> WithinBounds(r.value)
  {
    var r := SanitizePuzzleData(SanitizerInput(p), jsonBytes);
    assert r.Ok? ==> WithinBounds(r.value) by {
      if r.Ok? { SanitizeIsBounded(SanitizerInput(p), jsonBytes); }
    }
    r
  }

  /** Some index in the order is an integer naming one of the first `count` lines. */
  predicate SomeIndexKept(order: seq<real>, count: nat) {
    exists i :: 0 <= i < |order| && IsIntegral(order[i]) && 0.0 <= order[i] < count as real
  }

  lemma {:induction false} IndicesNonEmptyIff(order: seq<real>, count: nat)
    ensures IntegerIndices(Nums(order), count) != [] <==> SomeIndexKept(order, count)
  {
    if order != [] {
      assert Nums(order)[1..] == Nums(order[1..]);
      IndicesNonEmptyIff(order[1..], count);
      if SomeIndexKept(order[1..], count) {
        var i :| 0 <= i < |order[1..]| && IsIntegral(order[1..][i]) && 0.0 <= order[1..][i] < count as real;
        assert order[i + 1] == order[1..][i];
      }
      if SomeIndexKept(order, count) && !(IsIntegral(order[0]) && 0.0 <= order[0] < count as real) {
        var i :| 0 <= i < |order| && IsIntegral(order[i]) && 0.0 <= order[i] < count as real;
        assert order[1..][i - 1] == order[i];
      }
    }
  }

  function Min(a: nat, b: nat): nat {
    if a <= b then a else b
  }

  /**
   * With the fields renamed, a generated record within the size limit is
   * stored exactly when some index of its order is an integer naming one of
   * the (at most 30) kept lines; the kept lines are the first segments.
   */
  lemma CorrectedRecordAccepted(p: LlmAdapter.PuzzleRecord, topic: string, difficulty: string,
                                language: string, jsonBytes: nat)
    requires LlmAdapter.Generated(p, topic, difficulty, language) && jsonBytes <= MaxTotalJsonSize
    ensures SanitizeGenerated(p, jsonBytes).Ok? <==> SomeIndexKept(p.correctOrder, Min(|p.segments|, MaxLines))
    ensures SanitizeGenerated(p, jsonBytes).Ok? ==>
              SanitizeGenerated(p, jsonBytes).value.lines == ClipAll(StrValues(Prefix(p.segments, MaxLines)))
  {
    var v := SanitizerInput(p);
    var lines := ClipAll(Prefix(ArrayField(v, "lines"), MaxLines));
    assert Prefix(StrValues(p.segments), MaxLines) == StrValues(Prefix(p.segments, MaxLines));
    assert |lines| == Min(|p.segments|, MaxLines);
    IndicesNonEmptyIff(p.correctOrder, |lines|);
  }

  /**
   * A small generated puzzle with short lines and integer indices is stored
   * with its segments and its order unchanged.
   */
  lemma CorrectedRecordKeepsPuzzle(p: LlmAdapter.PuzzleRecord, order: seq<int>, topic: string,
                                   difficulty: string, language: string, jsonBytes: nat)
    requires LlmAdapter.Generated(p, topic, difficulty, language) && jsonBytes <= MaxTotalJsonSize
    requires |p.segments| <= MaxLines && forall i :: 0 <= i < |p.segments| ==> Utf16Length(p.segments[i]) <= MaxLineLength
    requires |order| == |p.correctOrder| && forall i :: 0 <= i < |order| ==> p.correctOrder[i] == order[i] as real
    ensures SanitizeGenerated(p, jsonBytes).Ok?
    ensures SanitizeGenerated(p, jsonBytes).value.lines == p.segments
    ensures SanitizeGenerated(p, jsonBytes).value.solutionOrder == order
  {
    assert Prefix(StrValues(p.segments), MaxLines) == StrValues(p.segments);
    ClipAllOfStrings(p.segments);
    assert Nums(p.correctOrder) == IntValues(order);
    assert forall j :: 0 <= j < |order| ==> 0 <= order[j] < |p.segments|;
    IntegerIndicesOfInts(order, |p.segments|);
  }
}

=== FILE: harness.dfy ===
/**
 * The structural checks the generation harness applies to every generated
 * puzzle: the schema check, the ideal solver that replays the solution
 * order, and the classification of a failed generation's error.
 */
module Harness {
  import opened JsValues
  import Sanitization
  import LlmAdapter
  import PromptTemplates

  // ---------------------------------------------------------------------
  // classifyError

  datatype ErrorType = ParseError | SchemaValidation | InvalidSolutionOrder | Other

  /** classifyError: substring tests on the lower-cased message, in a fixed priority. */
  function ClassifyError(message: string): (k: ErrorType)
    ensures k == Other ==> !Contains(ToLower(message), "json") && !Contains(ToLower(message), "order")
  {
    var m := ToLower(message);
    if Contains(m, "parse") || Contains(m, "json") then ParseError
    else if Contains(m, "schema") || Contains(m, "validation") || Contains(m, "missing")
            || Contains(m, "invalid") then SchemaValidation
    else if Contains(m, "solution") || Contains(m, "order") then InvalidSolutionOrder
    else Other
  }

  /** Any message that mentions JSON, in whatever surroundings, is a parse error. */
  lemma JsonMentionIsParseError(before: string, after: string)
    ensures ClassifyError(before + "JSON" + after) == ParseError
  {
    ToLowerAppend(before + "JSON", after);
    ToLowerAppend(before, "JSON");
    assert ToLower("JSON") == "json";
    ContainsInfix(ToLower(before), "json", ToLower(after));
  }

  lemma ParseFailureIsParseError(e: string, content: string)
    ensures ClassifyError(LlmAdapter.ParseFailure(e, content)) == ParseError
  {
    var after := " from LLM response: " + e + LlmAdapter.PreviewTail(content);
    ParseFailureMentionsJson(e, content);
    JsonMentionIsParseError("Failed to parse ", after);
  }

  lemma ParseFailureMentionsJson(e: string, content: string)
    ensures LlmAdapter.ParseFailure(e, content)
            == "Failed to parse " + "JSON" + (" from LLM response: " + e + LlmAdapter.PreviewTail(content))
  {
    assert "Failed to parse JSON from LLM response: " == "Failed to parse " + "JSON" + " from LLM response: ";
  }

  lemma NoJsonFoundIsParseError(content: string)
    ensures ClassifyError(LlmAdapter.NoJsonFound(content)) == ParseError
  {
    var after := " found in LLM response" + LlmAdapter.PreviewTail(content);
    NoJsonFoundMentionsJson(content);
    JsonMentionIsParseError("No valid ", after);
  }

  lemma NoJsonFoundMentionsJson(content: string)
    ensures LlmAdapter.NoJsonFound(content) == "No valid " + "JSON" + (" found in LLM response" + LlmAdapter.PreviewTail(content))
  {
    assert "No valid JSON found in LLM response" == "No valid " + "JSON" + " found in LLM response";
  }

  /** Every error parseResponse throws is classified as a parse error. */
  lemma ParseResponseErrorsAreParseErrors(content: string, parse: PromptTemplates.JsonParser)
    ensures LlmAdapter.ParseResponse(content, parse).Err? ==>
              ClassifyError(LlmAdapter.ParseResponse(content, parse).message) == ParseError
  {
    var r := LlmAdapter.ParseResponse(content, parse);
    if r.Err? {
      if r.message == LlmAdapter.NoJsonFound(content) {
        NoJsonFoundIsParseError(content);
      } else {
        var e :| r.message == LlmAdapter.ParseFailure(e, content);
        ParseFailureIsParseError(e, content);
      }
    }
  }

  /** A message that opens with "invalid" and has neither a 'p' nor a 'j' is a schema failure. */
  lemma InvalidWithoutParseWords(m: string)
    requires StartsWith(ToLower(m), "invalid") && 'p' !in ToLower(m) && 'j' !in ToLower(m)
    ensures ClassifyError(m) == SchemaValidation
  {
    var l := ToLower(m);
    MissingCharNotContained(l, "parse", 0);
    MissingCharNotContained(l, "json", 0);
    assert l == "invalid" + l[7..];
    ContainsInfix("", "invalid", l[7..]);
  }

  /**
   * The sanitizer's rejection of a solution order is classified as a schema
   * failure, not as an invalid solution order: "invalid" is looked for before "order".
   */
  lemma SanitizedOrderErrorIsSchemaFailure()
    ensures ClassifyError(Sanitization.InvalidOrder) == SchemaValidation
  {
    LowerInvalidOrder();
    NoParseLetters("invalid solutionorder after sanitation");
    InvalidWithoutParseWords(Sanitization.InvalidOrder);
  }

  lemma LowerInvalidOrder()
    ensures ToLower(Sanitization.InvalidOrder) == "invalid solutionorder after sanitation"
  {
    ToLowerAppend("Invalid solutionOrder", " after sanitation");
  }

  lemma NoParseLetters(l: string)
    requires l == "invalid solutionorder after sanitation"
    ensures StartsWith(l, "invalid") && 'p' !in l && 'j' !in l
  {
  }

  // ---------------------------------------------------------------------
  // validatePuzzleSchema

  const MissingLines := "Missing or invalid \"lines\" array"
  const MissingDistractors := "Missing or invalid \"distractors\" array"
  const MissingSolutionOrder := "Missing or invalid \"solutionOrder\" array"
  const EmptyLines := "\"lines\" array is empty"
  const InvalidIndicesPrefix := "Invalid indices in solutionOrder: "

  /** `!Number.isInteger(idx) || idx < 0 || idx >= length`, with `length` compared as a number. */
  predicate InvalidIndex(idx: Value, length: Value): (b: bool)
    ensures !(idx.Num? && IsIntegral(idx.n)) ==> b
    ensures forall n: nat :: length == Num(n as real) ==> (b <==> !IsIndexInto(idx, n))
  {
    !(idx.Num? && IsIntegral(idx.n)) || idx.n < 0.0 || AtLeast(Finite(idx.n), ToNumber(length))
  }

  /** `order.filter(idx => InvalidIndex(idx, length))` */
  function InvalidIndices(order: seq<Value>, length: Value): (r: seq<Value>)
    ensures |r| <= |order|
    ensures forall x :: x in r <==> x in order && InvalidIndex(x, length)
  {
    if order == [] then []
    else (if InvalidIndex(order[0], length) then [order[0]] else []) + InvalidIndices(order[1..], length)
  }

  function UniqueCountMessage(size: nat, length: Value): string {
    "solutionOrder has " + NatToString(size) + " unique indices but lines has " + ToStr(length) + " items"
  }

  /** An index that names one of n lines. */
  predicate IsIndexInto(v: Value, n: nat) {
    v.Num? && IsIntegral(v.n) && 0.0 <= v.n < n as real
  }

  /** The message of one check when it fails. */
  function Flag(failed: bool, message: string): seq<string> {
    if failed then [message] else []
  }

  /** The messages of the four field checks, in order. */
  function FieldErrors(lines: Value, distractors: Value, order: Value): (r: seq<string>)
    ensures |r| <= 4
    ensures forall m :: m in r ==> m in [MissingLines, MissingDistractors, MissingSolutionOrder, EmptyLines]
    ensures lines.Arr? && distractors.Arr? && order.Arr? && lines.items != [] ==> r == []
  {
    Flag(!Truthy(lines) || !lines.Arr?, MissingLines)
    + Flag(!Truthy(distractors) || !distractors.Arr?, MissingDistractors)
    + Flag(!Truthy(order) || !order.Arr?, MissingSolutionOrder)
    + Flag(Truthy(lines) && Get(lines, "length") == Num(0.0), EmptyLines)
  }

  /** The messages of the two index checks, against the value of `lines.length`. */
  function IndexErrors(order: seq<Value>, length: Value): (r: seq<string>)
    ensures |r| <= 2
    ensures (exists i :: 0 <= i < |order| && InvalidIndex(order[i], length)) ==>
              |r| > 0 && StartsWith(r[0], InvalidIndicesPrefix)
    ensures (forall i :: 0 <= i < |order| ==> !InvalidIndex(order[i], length)) ==>
              (r == [] <==> length == Num(DistinctCount(order) as real))
  {
    var invalid := InvalidIndices(order, length);
    var size := DistinctCount(order);
    StartsWithAppend(InvalidIndicesPrefix, JoinValues(invalid, ", "));
    assert invalid != [] ==> invalid[0] in order && InvalidIndex(invalid[0], length);
    Flag(invalid != [], InvalidIndicesPrefix + JoinValues(invalid, ", "))
    + Flag(!(length.Num? && length.n == size as real), UniqueCountMessage(size, length))
  }

  /**
   * The errors validatePuzzleSchema collects, in order, or the TypeError
   * it throws (a nullish puzzle, or a truthy `solutionOrder` without
   * `filter`).
   */
  function SchemaErrors(puzzle: Value): (r: Result<seq<string>>)
    ensures IsNullish(puzzle) ==> r == Err(TypeErrorMessage)
  {
    if IsNullish(puzzle) then Err(TypeErrorMessage)
    else
      var lines := Get(puzzle, "lines");
      var order := Get(puzzle, "solutionOrder");
      var fieldErrors := FieldErrors(lines, Get(puzzle, "distractors"), order);
      if !(Truthy(order) && Truthy(lines)) then Ok(fieldErrors)
      else if !order.Arr? then Err(TypeErrorMessage)
      else Ok(fieldErrors + IndexErrors(order.items, Get(lines, "length")))
  }

  /** A puzzle that passes the schema check. */
  predicate SchemaConforms(puzzle: Value) {
    var lines := Get(puzzle, "lines");
    var order := Get(puzzle, "solutionOrder");
    && lines.Arr? && |lines.items| > 0
    && Get(puzzle, "distractors").Arr?
    && order.Arr?
    && (forall i :: 0 <= i < |order.items| ==> IsIndexInto(order.items[i], |lines.items|))
    && DistinctCount(order.items) == |lines.items|
  }

  lemma NoInvalidIndices(order: seq<Value>, n: nat)
    ensures InvalidIndices(order, Num(n as real)) == [] <==>
              forall i :: 0 <= i < |order| ==> IsIndexInto(order[i], n)
  {
    var r := InvalidIndices(order, Num(n as real));
    if r == [] {
      forall i | 0 <= i < |order| ensures IsIndexInto(order[i], n) {
        assert order[i] in order;
      }
    } else {
      assert r[0] in r;
    }
  }

  /**
   * The schema check collects no error exactly when `lines` is a non-empty
   * array, `distractors` and `solutionOrder` are arrays, every index is an
   * integer naming a line, and the distinct indices are as many as the lines.
   */
  lemma SchemaValidIff(puzzle: Value)
    ensures SchemaErrors(puzzle) == Ok([]) <==> SchemaConforms(puzzle)
  {
    if !IsNullish(puzzle) {
      var lines := Get(puzzle, "lines");
      var order := Get(puzzle, "solutionOrder");
      FieldErrorsNoneIff(lines, Get(puzzle, "distractors"), order);
      if lines.Arr? && order.Arr? {
        SchemaErrorsOfArrays(puzzle);
        IndexErrorsNoneIff(order.items, |lines.items|);
      } else {
        SchemaErrorsOfNonArrays(puzzle);
      }
    }
  }

  /** With array lines and order, the errors are the field errors, then the index errors. */
  lemma SchemaErrorsOfArrays(puzzle: Value)
    requires !IsNullish(puzzle) && Get(puzzle, "lines").Arr? && Get(puzzle, "solutionOrder").Arr?
    ensures SchemaErrors(puzzle)
            == Ok(FieldErrors(Get(puzzle, "lines"), Get(puzzle, "distractors"), Get(puzzle, "solutionOrder"))
                  + IndexErrors(Get(puzzle, "solutionOrder").items, Num(|Get(puzzle, "lines").items| as real)))
  {
    var lines, order := Get(puzzle, "lines"), Get(puzzle, "solutionOrder");
    assert Get(lines, "length") == Num(|lines.items| as real);
    assert Truthy(order) && Truthy(lines);
  }

  /** Without array lines and order, some field error is reported or the check throws. */
  lemma SchemaErrorsOfNonArrays(puzzle: Value)
    requires !IsNullish(puzzle) && !(Get(puzzle, "lines").Arr? && Get(puzzle, "solutionOrder").Arr?)
    ensures SchemaErrors(puzzle) != Ok([])
  {
    var fieldErrors := FieldErrors(Get(puzzle, "lines"), Get(puzzle, "distractors"), Get(puzzle, "solutionOrder"));
    FieldErrorsNoneIff(Get(puzzle, "lines"), Get(puzzle, "distractors"), Get(puzzle, "solutionOrder"));
    assert fieldErrors != [];
  }

  lemma FieldErrorsNoneIff(lines: Value, distractors: Value, order: Value)
    ensures FieldErrors(lines, distractors, order) == [] <==>
              lines.Arr? && |lines.items| > 0 && distractors.Arr? && order.Arr?
  {
  }

  lemma IndexErrorsNoneIff(order: seq<Value>, n: nat)
    ensures IndexErrors(order, Num(n as real)) == [] <==>
              (forall i :: 0 <= i < |order| ==> IsIndexInto(order[i], n)) && DistinctCount(order) == n
  {
    NoInvalidIndices(order, n);
  }

  /** The four field checks of validatePuzzleSchema, each pushing its message when it fails. */
  method CheckFields(lines: Value, distractors: Value, order: Value) returns (errors: seq<string>)
    ensures errors == FieldErrors(lines, distractors, order)
  {
    errors := [];
    if !Truthy(lines) || !lines.Arr? {
      errors := errors + [MissingLines];
    }
    ghost var first := Flag(!Truthy(lines) || !lines.Arr?, MissingLines);
    assert errors == first;
    if !Truthy(distractors) || !distractors.Arr? {
      errors := errors + [MissingDistractors];
    }
    ghost var second := first + Flag(!Truthy(distractors) || !distractors.Arr?, MissingDistractors);
    assert errors == second;
    if !Truthy(order) || !order.Arr? {
      errors := errors + [MissingSolutionOrder];
    }
    ghost var third := second + Flag(!Truthy(order) || !order.Arr?, MissingSolutionOrder);
    assert errors == third;
    if Truthy(lines) && Get(lines, "length") == Num(0.0) {
      errors := errors + [EmptyLines];
    }
  }

  /** The two index checks of validatePuzzleSchema, each pushing its message when it fails. */
  method CheckIndices(order: seq<Value>, length: Value) returns (errors: seq<string>)
    ensures errors == IndexErrors(order, length)
  {
    errors := [];
    var invalid := InvalidIndices(order, length);
    if invalid != [] {
      errors := errors + [InvalidIndicesPrefix + JoinValues(invalid, ", ")];
    }
    var size := DistinctCount(order);
    if !(length.Num? && length.n == size as real) {
      errors := errors + [UniqueCountMessage(size, length)];
    }
  }

  datatype SchemaReport = SchemaReport(valid: bool, errors: seq<string>)

  /** validatePuzzleSchema: pushes each failed check's message; valid iff none was pushed. */
  method ValidatePuzzleSchema(puzzle: Value) returns (r: Result<SchemaReport>)
    ensures SchemaErrors(puzzle).Err? ==> r == Err(SchemaErrors(puzzle).message)
    ensures SchemaErrors(puzzle).Ok? ==> r.Ok? && r.value.errors == SchemaErrors(puzzle).value
    ensures r.Ok? ==> (r.value.valid <==> r.value.errors == [])
  {
    if IsNullish(puzzle) {
      return Err(TypeErrorMessage);
    }
    var lines := Get(puzzle, "lines");
    var distractors := Get(puzzle, "distractors");
    var order := Get(puzzle, "solutionOrder");
    var errors := CheckFields(lines, distractors, order);
    if Truthy(order) && Truthy(lines) {
      if !order.Arr? {
        return Err(TypeErrorMessage);
      }
      var indexErrors := CheckIndices(order.items, Get(lines, "length"));
      errors := errors + indexErrors;
    }
    return Ok(SchemaReport(|errors| == 0, errors));
  }

  // ---------------------------------------------------------------------
  // simulateIdealSolver

  const MissingIndicesReason := "solutionOrder does not contain all required indices"
  const DuplicateIndicesReason := "solutionOrder contains duplicate indices"

  datatype SolverResult = SolverResult(solvable: bool, reconstructed: Option<seq<Value>>, reason: Option<string>)

  function Unsolvable(reason: string): SolverResult {
    SolverResult(false, None, Some(reason))
  }

  /** `[...v]`: arrays and strings spread; anything else is not iterable. */
  function Spread(v: Value): (r: Result<seq<Value>>)
    ensures v.Arr? ==> r == Ok(v.items)
  {
    match v
    case Arr(items) => Ok(items)
    case Str(s) => Ok(Chars(s))
    case _ => Err(TypeErrorMessage)
  }

  /** `idx < 0 || idx >= n`, both comparisons made on `Number(idx)`. */
  predicate OutOfRange(idx: Value, n: nat): (b: bool)
    ensures idx.Num? && IsIntegral(idx.n) ==> (b <==> !IsIndexInto(idx, n))
    ensures idx.Undefined? || idx.Obj? || (idx.Str? && ToNumber(idx).NaN?) ==> !b
  {
    Less(ToNumber(idx), Finite(0.0)) || AtLeast(ToNumber(idx), Finite(n as real))
  }

  /**
   * `lines[idx]`: an integral number in range selects that line; any other
   * key is looked up as the property `String(idx)`.
   */
  function Element(lines: seq<Value>, idx: Value): (r: Value)
    ensures IsIndexInto(idx, |lines|) ==> r in lines
    ensures idx.Undefined? || idx.Null? || idx.Bool? ==> r == Undefined
  {
    if IsIndexInto(idx, |lines|) then lines[idx.n.Floor] else Get(Arr(lines), ToStr(idx))
  }

  /** `order.map(...)`: the line each index names, or the throw at the first index out of range. */
  function Reconstruct(order: seq<Value>, lines: seq<Value>): (r: Result<seq<Value>>)
    ensures r.Ok? <==> forall i :: 0 <= i < |order| ==> !OutOfRange(order[i], |lines|)
    ensures r.Ok? ==> |r.value| == |order| && forall i :: 0 <= i < |order| ==> r.value[i] == Element(lines, order[i])
  {
    if order == [] then Ok([])
    else if OutOfRange(order[0], |lines|) then Err("Invalid index in solutionOrder: " + ToStr(order[0]))
    else
      match Reconstruct(order[1..], lines)
      case Err(e) => Err(e)
      case Ok(rest) =>
        assert forall i :: 1 <= i < |order| ==> order[i] == order[1..][i - 1];
        Ok([Element(lines, order[0])] + rest)
  }

  /** simulateIdealSolver; a thrown error becomes an unsolvable result carrying its message. */
  function SimulateIdealSolver(puzzle: Value): (r: SolverResult)
    ensures r.solvable <==> r.reconstructed.Some?
    ensures r.solvable <==> r.reason.None?
  {
    if IsNullish(puzzle) then Unsolvable(TypeErrorMessage)
    else
      var lines := Get(puzzle, "lines");
      match Spread(lines)
      case Err(e) => Unsolvable(e)
      case Ok(scrambled) =>
        match Spread(Get(puzzle, "distractors"))
        case Err(e) => Unsolvable(e)
        case Ok(_) =>
          var order := Get(puzzle, "solutionOrder");
          if !order.Arr? then Unsolvable(TypeErrorMessage)
          else
            match Reconstruct(order.items, scrambled)
            case Err(e) => Unsolvable(e)
            case Ok(reconstructed) =>
              // the expected indices number `puzzle.lines.length`, in UTF-16 code units for a string
              var actual := DistinctCount(order.items);
              if Get(lines, "length") != Num(actual as real) then Unsolvable(MissingIndicesReason)
              else if |order.items| != actual then Unsolvable(DuplicateIndicesReason)
              else SolverResult(true, Some(reconstructed), None)
  }

  /** A solution order of integers: its indices, and what it means to be a permutation of 0..n-1. */
  predicate IntegerOrder(order: seq<Value>) {
    forall i :: 0 <= i < |order| ==> order[i].Num? && IsIntegral(order[i].n)
  }

  function Indices(order: seq<Value>): (r: seq<int>)
    requires IntegerOrder(order)
    ensures |r| == |order| && forall i :: 0 <= i < |order| ==> r[i] as real == order[i].n
  {
    seq(|order|, i requires 0 <= i < |order| => order[i].n.Floor)
  }

  predicate IsPermutation(xs: seq<int>, n: nat) {
    && |xs| == n
    && (forall i :: 0 <= i < |xs| ==> 0 <= xs[i] < n)
    && (forall i, j :: 0 <= i < j < |xs| ==> xs[i] != xs[j])
  }

  /** A puzzle whose three fields the solver can spread and map. */
  predicate SolverShaped(puzzle: Value) {
    && Get(puzzle, "lines").Arr?
    && Get(puzzle, "distractors").Arr?
    && Get(puzzle, "solutionOrder").Arr?
    && IntegerOrder(Get(puzzle, "solutionOrder").items)
  }

  /**
   * With array fields and integer indices, the ideal solver succeeds
   * exactly when the solution order is a permutation of the line indices,
   * and then it puts line `order[i]` in place i.
   */
  lemma IdealSolverAcceptsPermutations(puzzle: Value)
    requires SolverShaped(puzzle)
    ensures var lines := Get(puzzle, "lines").items;
            var order := Get(puzzle, "solutionOrder").items;
            var r := SimulateIdealSolver(puzzle);
            && (r.solvable <==> IsPermutation(Indices(order), |lines|))
            && (r.solvable ==> forall i :: 0 <= i < |order| ==> r.reconstructed.value[i] == lines[Indices(order)[i]])
  {
    var lines := Get(puzzle, "lines").items;
    var order := Get(puzzle, "solutionOrder").items;
    SolverVerdict(puzzle);
    DistinctCountOfPrimitives(order);
    IndicesInRange(order, |lines|);
    IndicesDistinct(order);
    ElementsAreLines(order, lines);
  }

  /** The solver's verdict on a puzzle it can spread and map, check by check. */
  lemma SolverVerdict(puzzle: Value)
    requires SolverShaped(puzzle)
    ensures var lines := Get(puzzle, "lines").items;
            var order := Get(puzzle, "solutionOrder").items;
            var r := SimulateIdealSolver(puzzle);
            && (r.solvable <==> Reconstruct(order, lines).Ok? && |lines| == DistinctCount(order) == |order|)
            && (r.solvable ==> r.reconstructed == Some(Reconstruct(order, lines).value))
  {
  }

  /**
   * A string of lines is spread into characters but its expected indices
   * are counted in code units: one character beyond the Basic Multilingual
   * Plane, named by index 0, expects two indices and is reported missing one.
   */
  lemma AstralLinesMissIndex(c: char)
    requires CodeUnits(c) == 2
    ensures SimulateIdealSolver(Obj(map["lines" := Str([c]), "distractors" := Arr([]),
                                        "solutionOrder" := Arr([Num(0.0)])]))
            == Unsolvable(MissingIndicesReason)
  {
    var puzzle := Obj(map["lines" := Str([c]), "distractors" := Arr([]), "solutionOrder" := Arr([Num(0.0)])]);
    assert Get(puzzle, "lines") == Str([c]);
    assert Utf16Length([c]) == 2 by { assert [c][1..] == []; }
    assert Chars([c]) == [Str([c])] by { assert [[c][0]] == [c]; }
    assert !OutOfRange(Num(0.0), 1);
    assert Reconstruct([Num(0.0)], [Str([c])]).Ok?;
    DistinctCountOfPrimitives([Num(0.0)]);
  }

  lemma IndicesInRange(order: seq<Value>, n: nat)
    requires IntegerOrder(order)
    ensures (forall i :: 0 <= i < |order| ==> !OutOfRange(order[i], n)) <==>
              forall i :: 0 <= i < |order| ==> 0 <= Indices(order)[i] < n
  {
    var xs := Indices(order);
    assert forall i :: 0 <= i < |order| ==> (OutOfRange(order[i], n) <==> !(0 <= xs[i] < n));
  }

  lemma IndicesDistinct(order: seq<Value>)
    requires IntegerOrder(order)
    ensures NoDuplicates(order) <==> forall i, j :: 0 <= i < j < |order| ==> Indices(order)[i] != Indices(order)[j]
  {
    var xs := Indices(order);
    forall i, j | 0 <= i < j < |xs| ensures order[i] == order[j] <==> xs[i] == xs[j] {
      assert order[i] == Num(xs[i] as real) && order[j] == Num(xs[j] as real);
    }
  }

  lemma ElementsAreLines(order: seq<Value>, lines: seq<Value>)
    requires IntegerOrder(order)
    ensures forall i :: 0 <= i < |order| && 0 <= Indices(order)[i] < |lines| ==>
              Element(lines, order[i]) == lines[Indices(order)[i]]
  {
  }

  /**
   * The two checks disagree on repeated indices: an order that repeats an
   * index but still covers every line passes the schema check, and the
   * ideal solver rejects it for its duplicates.
   */
  lemma DuplicatesPassSchemaButNotSolver(puzzle: Value)
    requires SchemaConforms(puzzle)
    requires |Get(puzzle, "solutionOrder").items| > |Get(puzzle, "lines").items|
    ensures SchemaErrors(puzzle) == Ok([])
    ensures SimulateIdealSolver(puzzle) == Unsolvable(DuplicateIndicesReason)
  {
    SchemaValidIff(puzzle);
    var lines := Get(puzzle, "lines").items;
    var order := Get(puzzle, "solutionOrder").items;
    assert forall i :: 0 <= i < |order| ==> !OutOfRange(order[i], |lines|);
  }

  /**
   * An index written in exponent notation is read as the number it
   * denotes: "1e5" is 100000, past the end of any puzzle of at most
   * 100000 lines, so reconstruction fails on it.
   */
  lemma ExponentIndexOutOfRange(idx: string, lines: seq<Value>)
    requires idx == "1e5" && |lines| <= 100000
    ensures OutOfRange(Str(idx), |lines|)
    ensures Reconstruct([Str(idx)], lines).Err?
  {
    ExponentFive(idx);
  }
}

=== FILE: js_values.dfy ===
/**
 * The JavaScript values that flow through the puzzle pipeline, and the
 * coercions the pipeline applies to them: truthiness, `String(v)`,
 * `Number(v)`, `String.prototype.trim`, `toLowerCase`, substring search,
 * property access and `new Set(xs).size`.
 */
module JsValues {

  datatype Option<+T> = None | Some(value: T)

  /** Either a value or a thrown `Error` carrying its message. */
  datatype Result<+T> = Ok(value: T) | Err(message: string)

  /** What the engine throws for a property read on `null` or an argument of the wrong type. */
  const TypeErrorMessage := "TypeError"

  /** What an Express middleware does with a request: hand it on, or answer it. */
  datatype Reply = CallNext | Respond(status: int, error: string)

  /**
   * A JavaScript value as produced by `JSON.parse`, plus `undefined`.
   * `NaN` and the infinities never occur as a Value; they arise only as
   * the result of `Number(v)` (see Numeric and ToNumber).
   */
  datatype Value =
    | Undefined
    | Null
    | Bool(b: bool)
    | Num(n: real)
    | Str(s: string)
    | Arr(items: seq<Value>)
    | Obj(fields: map<string, Value>)

  /** JavaScript truthiness. */
  predicate Truthy(v: Value) {
    match v
    case Undefined => false
    case Null => false
    case Bool(b) => b
    case Num(n) => n != 0.0
    case Str(s) => s != ""
    case Arr(_) => true
    case Obj(_) => true
  }

  /** `a || b` */
  function Or(a: Value, b: Value): Value {
    if Truthy(a) then a else b
  }

  predicate IsNullish(v: Value) {
    v.Undefined? || v.Null?
  }

  predicate IsPrimitive(v: Value) {
    !v.Arr? && !v.Obj?
  }

  predicate IsIntegral(r: real) {
    r == r.Floor as real
  }

  /** `Math.round(x)`: the nearest integer, halves rounded up. */
  function Round(x: real): (r: int)
    ensures r as real - 0.5 <= x < r as real + 0.5
  {
    (x + 0.5).Floor
  }

  /** `Math.round(x * 100) / 100`: rounded to two decimals. */
  function RoundCents(x: real): (r: real)
    ensures IsIntegral(r * 100.0)
    ensures x - 0.005 < r <= x + 0.005
    ensures 0.0 <= x <= 100.0 ==> 0.0 <= r <= 100.0
  {
    Round(x * 100.0) as real / 100.0
  }

  /** A value with at most two decimals is its own rounding. */
  lemma RoundCentsExact(x: real)
    requires IsIntegral(x * 100.0)
    ensures RoundCents(x) == x
  {
    var k := (x * 100.0).Floor;
    assert (x * 100.0 + 0.5).Floor == k;
  }

  lemma RoundCentsMonotone(x: real, y: real)
    requires x <= y
    ensures RoundCents(x) <= RoundCents(y)
  {
    var a := x * 100.0 + 0.5;
    var b := y * 100.0 + 0.5;
    assert a.Floor <= b.Floor;
  }

  /** `Math.max(0, Math.min(100, x))`: onto the 0..100 skill scale. */
  function ClampPercent(x: real): (r: real)
    ensures 0.0 <= r <= 100.0
    ensures 0.0 <= x <= 100.0 ==> r == x
    ensures x < 0.0 ==> r == 0.0
    ensures x > 100.0 ==> r == 100.0
  {
    if x > 100.0 then 100.0 else if x < 0.0 then 0.0 else x
  }

  /** `Number.isInteger(v)` */
  predicate IsInteger(v: Value) {
    v.Num? && IsIntegral(v.n)
  }

  // ---------------------------------------------------------------------
  // Characters and strings

  /** The characters `String.prototype.trim`, `\s` and `Number(string)` treat as white space. */
  predicate IsSpace(c: char) {
    c == ' ' || c == '\t' || c == '\n' || c == '\r' || c == '\U{000B}' || c == '\U{000C}'
    || c == '\U{00A0}' || c == '\U{1680}' || ('\U{2000}' <= c <= '\U{200A}')
    || c == '\U{2028}' || c == '\U{2029}' || c == '\U{202F}' || c == '\U{205F}'
    || c == '\U{3000}' || c == '\U{FEFF}'
  }

  function TrimStart(s: string): (r: string)
    ensures |r| > 0 ==> !IsSpace(r[0])
  {
    if |s| > 0 && IsSpace(s[0]) then TrimStart(s[1..]) else s
  }

  function TrimEnd(s: string): (r: string)
    ensures |r| <= |s| && r == s[..|r|]
    ensures |r| > 0 ==> !IsSpace(r[|r| - 1])
  {
    if |s| > 0 && IsSpace(s[|s| - 1]) then TrimEnd(s[..|s| - 1]) else s
  }

  /** `s.trim()` */
  function Trim(s: string): (r: string)
    ensures r != "" ==> !IsSpace(r[0]) && !IsSpace(r[|r| - 1])
  {
    TrimEnd(TrimStart(s))
  }

  lemma {:induction false} TrimStartKeepsCharacters(s: string)
    ensures forall c :: c in TrimStart(s) ==> c in s
    decreases |s|
  {
    if |s| > 0 && IsSpace(s[0]) {
      TrimStartKeepsCharacters(s[1..]);
    }
  }

  /** Trimming only removes characters. */
  lemma TrimKeepsCharacters(s: string)
    ensures forall c :: c in Trim(s) ==> c in s
  {
    TrimStartKeepsCharacters(s);
    var t := TrimStart(s);
    assert forall c :: c in TrimEnd(t) ==> c in t;
  }

  predicate AllSpace(s: string) {
    forall i :: 0 <= i < |s| ==> IsSpace(s[i])
  }

  lemma {:induction false} TrimStartEmptyIff(s: string)
    ensures TrimStart(s) == "" <==> AllSpace(s)
  {
    if |s| > 0 && IsSpace(s[0]) {
      TrimStartEmptyIff(s[1..]);
      if AllSpace(s[1..]) {
        forall i | 0 <= i < |s| ensures IsSpace(s[i]) {
          if i > 0 { assert s[i] == s[1..][i - 1]; }
        }
      }
    }
  }

  lemma {:induction false} TrimEndEmptyIff(s: string)
    ensures TrimEnd(s) == "" <==> AllSpace(s)
  {
    if |s| > 0 && IsSpace(s[|s| - 1]) {
      TrimEndEmptyIff(s[..|s| - 1]);
    }
  }

  /** A string trims to nothing exactly when it is all white space. */
  lemma TrimEmptyIff(s: string)
    ensures Trim(s) == "" <==> AllSpace(s)
  {
    TrimStartEmptyIff(s);
    TrimEndEmptyIff(TrimStart(s));
    var t := TrimStart(s);
    assert AllSpace(t) ==> t == "";
  }

  lemma {:induction false} TrimStartNoSpace(s: string)
    requires |s| > 0 && !IsSpace(s[0])
    ensures TrimStart(s) == s
  {
  }

  lemma {:induction false} TrimEndNoSpace(s: string)
    requires |s| > 0 && !IsSpace(s[|s| - 1])
    ensures TrimEnd(s) == s
  {
  }

  /** One space of padding on each side is trimmed away. */
  lemma TrimPadded(s: string)
    requires |s| > 0 && !IsSpace(s[0]) && !IsSpace(s[|s| - 1])
    ensures Trim(" " + s + " ") == s
  {
    var padded := " " + s + " ";
    assert padded[1..] == s + " ";
    TrimStartNoSpace(s + " ");
    assert (s + " ")[..|s + " "| - 1] == s;
    TrimEndNoSpace(s);
  }

  /** A string that neither starts nor ends with white space is its own trim. */
  lemma TrimNoSpace(s: string)
    requires |s| > 0 && !IsSpace(s[0]) && !IsSpace(s[|s| - 1])
    ensures Trim(s) == s
  {
    TrimStartNoSpace(s);
    TrimEndNoSpace(s);
  }

  function LowerChar(c: char): char {
    if 'A' <= c <= 'Z' then (c as int + 32) as char else c
  }

  /** `s.toLowerCase()` on the ASCII letters. */
  function ToLower(s: string): string {
    seq(|s|, i requires 0 <= i < |s| => LowerChar(s[i]))
  }

  /** `xs.slice(0, n)`, `s.substring(0, n)`: the first n elements, or all of them. */
  function Prefix<T>(xs: seq<T>, n: nat): (r: seq<T>)
    ensures |r| == if |xs| <= n then |xs| else n
    ensures r == xs[..|r|]
  {
    if |xs| <= n then xs else xs[..n]
  }

  /** The UTF-16 code units a character takes: two for one beyond the Basic Multilingual Plane. */
  function CodeUnits(c: char): nat {
    if c as int >= 0x1_0000 then 2 else 1
  }

  /** `s.length`: the length of a string in UTF-16 code units. */
  function Utf16Length(s: string): (n: nat)
    ensures |s| <= n <= 2 * |s|
  {
    if s == [] then 0 else CodeUnits(s[0]) + Utf16Length(s[1..])
  }

  /**
   * `s.slice(0, n)` and `s.substring(0, n)` on a string: the longest prefix
   * of at most n UTF-16 code units. Where the n-th unit is the first half of
   * a surrogate pair, the source keeps that lone half; a string of
   * characters cannot hold it, so the cut falls before the pair.
   */
  function UnitPrefix(s: string, n: nat): (r: string)
    ensures |r| <= |s| && r == s[..|r|]
    ensures Utf16Length(r) <= n
    ensures Utf16Length(s) <= n ==> r == s
    ensures r != s ==> Utf16Length(r) + CodeUnits(s[|r|]) > n
  {
    if s == [] || CodeUnits(s[0]) > n then []
    else
      var rest := UnitPrefix(s[1..], n - CodeUnits(s[0]));
      var r := [s[0]] + rest;
      assert r[1..] == rest;
      assert s[..|r|] == [s[0]] + s[1..][..|rest|];
      r
  }

  /** Text whose every character takes w code units has w code units per character. */
  lemma {:induction false} Utf16LengthUniform(s: string, w: nat)
    requires forall i :: 0 <= i < |s| ==> CodeUnits(s[i]) == w
    ensures Utf16Length(s) == w * |s|
  {
    if s != [] {
      Utf16LengthUniform(s[1..], w);
    }
  }

  /** One step of `UnitPrefix`: a first character that fits is kept. */
  lemma UnitPrefixStep(s: string, n: nat, m: nat)
    requires s != [] && CodeUnits(s[0]) + m == n
    ensures UnitPrefix(s, n) == [s[0]] + UnitPrefix(s[1..], m)
  {
  }

  /** A prefix of a non-empty sequence is its head followed by a prefix of its tail. */
  lemma PrefixCons<T>(xs: seq<T>, n: nat)
    requires xs != [] && n > 0
    ensures Prefix(xs, n) == [xs[0]] + Prefix(xs[1..], n - 1)
  {
    if |xs| > n {
      assert xs[..n] == [xs[0]] + xs[1..][..n - 1];
    } else {
      assert xs == [xs[0]] + xs[1..];
    }
  }

  /** Where the first character fits and the tail's cuts agree, the cuts of the whole text agree. */
  lemma PrefixStep(s: string, n: nat, m: nat, j: nat)
    requires s != [] && CodeUnits(s[0]) + m == n
    requires UnitPrefix(s[1..], m) == Prefix(s[1..], j)
    ensures UnitPrefix(s, n) == Prefix(s, j + 1)
  {
    UnitPrefixStep(s, n, m);
    PrefixCons(s, j + 1);
  }

  /** On text within the Basic Multilingual Plane, code units are characters. */
  lemma {:induction false} UnitPrefixOfBmp(s: string, n: nat)
    requires forall i :: 0 <= i < |s| ==> CodeUnits(s[i]) == 1
    ensures Utf16Length(s) == |s|
    ensures UnitPrefix(s, n) == Prefix(s, n)
  {
    Utf16LengthUniform(s, 1);
    if s == [] || n == 0 {
      assert UnitPrefix(s, n) == [] && Prefix(s, n) == [];
    } else {
      UnitPrefixOfBmp(s[1..], n - 1);
      PrefixStep(s, n, n - 1, n - 1);
    }
  }

  /** On text of characters beyond the Basic Multilingual Plane, 2k code units are k characters. */
  lemma {:induction false} UnitPrefixOfAstral(s: string, k: nat)
    requires forall i :: 0 <= i < |s| ==> CodeUnits(s[i]) == 2
    ensures Utf16Length(s) == 2 * |s|
    ensures UnitPrefix(s, 2 * k) == Prefix(s, k)
  {
    Utf16LengthUniform(s, 2);
    if s == [] || k == 0 {
      assert UnitPrefix(s, 2 * k) == [] && Prefix(s, k) == [];
    } else {
      UnitPrefixOfAstral(s[1..], k - 1);
      PrefixStep(s, 2 * k, 2 * (k - 1), k - 1);
    }
  }

  predicate StartsWith(s: string, p: string) {
    |p| <= |s| && s[..|p|] == p
  }

  lemma StartsWithAppend(a: string, b: string)
    ensures StartsWith(a + b, a)
  {
    assert (a + b)[..|a|] == a;
  }

  /** `s.includes(p)` */
  predicate Contains(s: string, p: string)
    decreases |s|
  {
    StartsWith(s, p) || (|s| > 0 && Contains(s[1..], p))
  }

  lemma {:induction false} ContainsAt(s: string, p: string, i: nat)
    requires i <= |s| && StartsWith(s[i..], p)
    ensures Contains(s, p)
    decreases i
  {
    if i > 0 {
      assert s[1..][i - 1..] == s[i..];
      ContainsAt(s[1..], p, i - 1);
    }
  }

  /** A string contains every one of its infixes. */
  lemma ContainsInfix(a: string, p: string, b: string)
    ensures Contains(a + p + b, p)
  {
    var s := a + p + b;
    assert s[|a|..][..|p|] == p;
    ContainsAt(s, p, |a|);
  }

  /** Whatever a string contains, any string around it contains too. */
  lemma {:induction false} ContainsWithin(a: string, m: string, b: string, p: string)
    requires Contains(m, p)
    ensures Contains(a + m + b, p)
    decreases |m|
  {
    var s := a + m + b;
    if StartsWith(m, p) {
      assert s[|a|..][..|p|] == m[..|p|];
      ContainsAt(s, p, |a|);
    } else {
      assert a + [m[0]] + m[1..] + b == s;
      ContainsWithin(a + [m[0]], m[1..], b, p);
    }
  }

  /** A contained string occurs at some position. */
  lemma {:induction false} ContainsWitness(s: string, p: string) returns (k: nat)
    requires Contains(s, p)
    ensures k + |p| <= |s| && s[k..k + |p|] == p
    ensures forall j :: 0 <= j < |p| ==> s[k + j] == p[j]
    decreases |s|
  {
    if StartsWith(s, p) {
      k := 0;
    } else {
      var j := ContainsWitness(s[1..], p);
      assert s[1..][j..j + |p|] == s[j + 1..j + 1 + |p|];
      k := j + 1;
    }
  }

  /** A string without the character p[j] contains no occurrence of p. */
  lemma MissingCharNotContained(m: string, p: string, j: nat)
    requires j < |p| && forall k :: 0 <= k < |m| ==> m[k] != p[j]
    ensures !Contains(m, p)
  {
    if Contains(m, p) {
      var i := ContainsWitness(m, p);
      assert false;
    }
  }

  /**
   * A word absent from `b` is absent from `a + b` when no position of `a`
   * can start it: there its first character differs, or its second
   * character differs from the next one of `a`.
   */
  predicate CannotStart(a: string, i: nat, w: string)
    requires i < |a| && |w| >= 2
  {
    a[i] != w[0] || (i + 1 < |a| && a[i + 1] != w[1])
  }

  lemma {:induction false} NotContainedAfter(a: string, b: string, w: string)
    requires |w| >= 2 && !Contains(b, w)
    requires forall i :: 0 <= i < |a| ==> CannotStart(a, i, w)
    ensures !Contains(a + b, w)
    decreases |a|
  {
    if a == [] {
      assert a + b == b;
    } else {
      var s := a + b;
      assert CannotStart(a, 0, w);
      if |w| <= |s| {
        assert s[..|w|][0] == a[0];
        if 1 < |a| {
          assert s[..|w|][1] == a[1];
        }
      }
      assert !StartsWith(s, w);
      var tail := a[1..];
      forall i | 0 <= i < |tail| ensures CannotStart(tail, i, w) {
        assert CannotStart(a, i + 1, w);
      }
      assert s[1..] == tail + b;
      NotContainedAfter(tail, b, w);
    }
  }

  lemma ToLowerAppend(a: string, b: string)
    ensures ToLower(a + b) == ToLower(a) + ToLower(b)
  {
  }

  lemma {:induction false} ContainsShorter(s: string, p: string)
    requires |s| < |p|
    ensures !Contains(s, p)
    decreases |s|
  {
    if |s| > 0 { ContainsShorter(s[1..], p); }
  }

  // ---------------------------------------------------------------------
  // Digits and number formatting

  predicate IsDigit(c: char) {
    '0' <= c <= '9'
  }

  predicate AllDigits(s: string) {
    forall i :: 0 <= i < |s| ==> IsDigit(s[i])
  }

  function DigitChar(d: nat): char
    requires d < 10
  {
    ('0' as int + d) as char
  }

  function DigitOf(c: char): nat
    requires IsDigit(c)
  {
    c as int - '0' as int
  }

  /** Decimal notation of a natural number, without leading zeros. */
  function NatToString(n: nat): (r: string)
    ensures |r| > 0 && AllDigits(r)
    ensures r[0] == '0' ==> n == 0
  {
    if n < 10 then [DigitChar(n)] else NatToString(n / 10) + [DigitChar(n % 10)]
  }

  function IntToString(i: int): string {
    if i < 0 then "-" + NatToString(-i) else NatToString(i)
  }

  /** The number a string of decimal digits denotes. */
  function DigitsValue(ds: string): nat
    requires AllDigits(ds)
  {
    if ds == [] then 0 else DigitsValue(ds[..|ds| - 1]) * 10 + DigitOf(ds[|ds| - 1])
  }

  /** The value of the digits after a decimal point. */
  function FracValue(ds: string): real
    requires AllDigits(ds)
  {
    if ds == [] then 0.0 else (DigitOf(ds[0]) as real + FracValue(ds[1..])) / 10.0
  }

  /** Reading back the decimal notation of a natural number gives the number. */
  lemma {:induction false} DigitsValueOfNatToString(n: nat)
    ensures DigitsValue(NatToString(n)) == n
  {
    if n >= 10 {
      var r := NatToString(n);
      assert r[..|r| - 1] == NatToString(n / 10);
      DigitsValueOfNatToString(n / 10);
    }
  }

  /** Up to `k` decimal digits of a fraction in [0, 1). */
  function FracDigits(f: real, k: nat): string
    requires 0.0 <= f < 1.0
    decreases k
  {
    if k == 0 || f == 0.0 then ""
    else
      var d := (f * 10.0).Floor;
      [DigitChar(d)] + FracDigits(f * 10.0 - d as real, k - 1)
  }

  function DropTrailingZeros(s: string): string {
    if |s| > 0 && s[|s| - 1] == '0' then DropTrailingZeros(s[..|s| - 1]) else s
  }

  /** `d.ddde+n`: the digits of a natural number in exponent notation, trailing zeros dropped. */
  function ExponentNotation(digits: string): string
    requires |digits| > 0
  {
    var fraction := DropTrailingZeros(digits[1..]);
    [digits[0]] + (if fraction == "" then "" else "." + fraction) + "e+" + NatToString(|digits| - 1)
  }

  /**
   * `String(n)` for a number: integers below 10^21 in plain decimal, larger
   * ones in exponent notation, other numbers with their decimal expansion
   * cut at 20 fraction digits.
   */
  function NumToString(r: real): string {
    if IsIntegral(r) && (r >= Pow10(21) as real || r <= -(Pow10(21) as real)) then
      (if r < 0.0 then "-" else "") + ExponentNotation(NatToString(if r < 0.0 then (-r).Floor else r.Floor))
    else if IsIntegral(r) then IntToString(r.Floor)
    else
      var a := if r < 0.0 then -r else r;
      (if r < 0.0 then "-" else "") + NatToString(a.Floor) + "."
        + DropTrailingZeros(FracDigits(a - a.Floor as real, 20))
  }

  function Zeros(k: nat): (r: string)
    ensures |r| == k && forall i :: 0 <= i < k ==> r[i] == '0'
  {
    if k == 0 then "" else Zeros(k - 1) + "0"
  }

  /** A power of ten is written as a one followed by its zeros. */
  lemma {:induction false} PowerOfTenDigits(k: nat)
    ensures NatToString(Pow10(k)) == "1" + Zeros(k)
  {
    if k > 0 {
      PowerOfTenDigits(k - 1);
      assert Pow10(k) / 10 == Pow10(k - 1) && Pow10(k) % 10 == 0;
      assert "1" + Zeros(k - 1) + "0" == "1" + Zeros(k);
    }
  }

  lemma {:induction false} ZerosDropped(k: nat)
    ensures DropTrailingZeros(Zeros(k)) == ""
  {
    if k > 0 {
      assert Zeros(k)[..k - 1] == Zeros(k - 1);
      ZerosDropped(k - 1);
    }
  }

  /** A power of ten in exponent notation: a one and its exponent. */
  lemma PowerOfTenExponent(k: nat)
    ensures ExponentNotation("1" + Zeros(k)) == "1e+" + NatToString(k)
  {
    var d := "1" + Zeros(k);
    assert |d| - 1 == k && d[0] == '1' && d[1..] == Zeros(k);
    ZerosDropped(k);
    LeadingOneExponent(d, NatToString(k));
  }

  /** A one followed by zeros only is written as a one and the exponent. */
  lemma LeadingOneExponent(d: string, x: string)
    requires |d| > 0 && d[0] == '1' && DropTrailingZeros(d[1..]) == "" && x == NatToString(|d| - 1)
    ensures ExponentNotation(d) == "1e+" + x
  {
    assert ExponentNotation(d) == [d[0]] + "" + "e+" + x;
    assert [d[0]] + "" + "e+" + x == "1e+" + x;
  }

  lemma TwentyOneDigits(n: nat)
    requires n == 21
    ensures NatToString(n) == "21"
  {
  }

  /** A natural number written as a real: integral, with itself as its floor. */
  lemma NatAsReal(n: nat)
    ensures IsIntegral(n as real) && (n as real).Floor == n && !(n as real < 0.0)
  {
  }

  /** Natural numbers from 10^21 on are written in exponent notation. */
  lemma ExponentFormFrom(n: nat)
    requires n >= Pow10(21)
    ensures NumToString(n as real) == ExponentNotation(NatToString(n))
  {
    NatAsReal(n);
  }

  /** 10^21 is written in exponent notation, as "1e+21". */
  lemma FirstExponentForm()
    ensures NumToString(Pow10(21) as real) == "1e+21"
  {
    ExponentFormFrom(Pow10(21));
    PowerOfTenDigits(21);
    PowerOfTenExponent(21);
    TwentyOneDigits(21);
  }

  /** Natural numbers below 10^21 are written in plain decimal. */
  lemma PlainBelowExponentForm(n: nat)
    requires n < Pow10(21)
    ensures NumToString(n as real) == NatToString(n)
  {
    NatAsReal(n);
  }

  /** The string form of a natural number starts with a digit, in either notation. */
  lemma NatStringStartsWithDigit(n: nat)
    ensures var s := NumToString(n as real); |s| > 0 && IsDigit(s[0])
  {
    var r := n as real;
    assert IsIntegral(r) && r.Floor == n && !(r < 0.0);
    var digits := NatToString(n);
    if r >= Pow10(21) as real {
      assert NumToString(r) == ExponentNotation(digits);
    } else {
      assert NumToString(r) == IntToString(n);
    }
  }

  // ---------------------------------------------------------------------
  // String(v) and Number(v)

  /** `String(v)` */
  function ToStr(v: Value): string {
    match v
    case Undefined => "undefined"
    case Null => "null"
    case Bool(b) => if b then "true" else "false"
    case Num(n) => NumToString(n)
    case Str(s) => s
    case Arr(items) => JoinValues(items, ",")
    case Obj(_) => "[object Object]"
  }

  /** `items.join(sep)`: `null` and `undefined` elements become empty. */
  function JoinValues(items: seq<Value>, sep: string): string {
    if items == [] then ""
    else
      var head := if IsNullish(items[0]) then "" else ToStr(items[0]);
      if |items| == 1 then head else head + sep + JoinValues(items[1..], sep)
  }

  function LeadingDigits(s: string): (k: nat)
    ensures k <= |s| && AllDigits(s[..k])
    ensures k < |s| ==> !IsDigit(s[k])
  {
    if |s| > 0 && IsDigit(s[0]) then
      var k := 1 + LeadingDigits(s[1..]);
      assert s[..k] == [s[0]] + s[1..][..k - 1];
      k
    else 0
  }

  /** An unsigned decimal literal: `ddd`, `ddd.`, `ddd.ddd` or `.ddd`. */
  function UnsignedDecimal(t: string): Option<real> {
    var k := LeadingDigits(t);
    if k == |t| then
      (if k > 0 then Some(DigitsValue(t[..k]) as real) else None)
    else if t[k] != '.' then None
    else
      var frac := t[k + 1..];
      if AllDigits(frac) && (k > 0 || |frac| > 0) then
        Some(DigitsValue(t[..k]) as real + FracValue(frac))
      else None
  }

  /** The position of the exponent mark `e` or `E`, or the length when there is none. */
  function ExponentMark(t: string): (k: nat)
    ensures k <= |t|
    ensures forall i :: 0 <= i < k ==> t[i] != 'e' && t[i] != 'E'
    ensures k < |t| ==> t[k] == 'e' || t[k] == 'E'
  {
    if t == [] || t[0] == 'e' || t[0] == 'E' then 0 else 1 + ExponentMark(t[1..])
  }

  /** A signed exponent: an optional `+` or `-`, then at least one digit. */
  function ExponentValue(t: string): Option<int> {
    var negative := |t| > 0 && t[0] == '-';
    var digits := if |t| > 0 && (t[0] == '+' || t[0] == '-') then t[1..] else t;
    if |digits| > 0 && AllDigits(digits) then
      Some(if negative then -(DigitsValue(digits) as int) else DigitsValue(digits))
    else None
  }

  function Pow10(k: nat): (r: nat)
    ensures r >= 1
  {
    if k == 0 then 1 else 10 * Pow10(k - 1)
  }

  /** `m * 10^e` */
  function Scale(m: real, e: int): real {
    if e >= 0 then m * Pow10(e) as real else m / Pow10(-e) as real
  }

  /**
   * A JavaScript number as `Number(v)` yields it: `NaN`, an infinity, or a
   * finite value (an exact real).
   */
  datatype Numeric = NaN | Infinity(negative: bool) | Finite(r: real)

  /**
   * 2^1024 - 2^970: the least magnitude that rounds to an infinity rather
   * than to the largest double.
   */
  const OverflowBound: real :=
    179769313486231580793728971405303415079934132710037826936173778980444968292764750946649017977587207096330286416692887910946555547851940402630657488671505820681908902000708383676273854845817711531764475730270069855571366959622842914819860834936475292719074168444365510704342711559699508093042880177904174497792.0

  /** A decimal value as a double: an infinity when its magnitude overflows. */
  function Rounded(x: real): (n: Numeric)
    ensures n.NaN? == false
    ensures -OverflowBound < x < OverflowBound <==> n == Finite(x)
  {
    if x >= OverflowBound then Infinity(false)
    else if x <= -OverflowBound then Infinity(true)
    else Finite(x)
  }

  /** Unary minus. */
  function Negate(n: Numeric): Numeric {
    match n
    case NaN => NaN
    case Infinity(negative) => Infinity(!negative)
    case Finite(x) => Finite(-x)
  }

  /** `a < b`: false whenever either side is NaN. */
  predicate Less(a: Numeric, b: Numeric) {
    match (a, b)
    case (NaN, _) => false
    case (_, NaN) => false
    case (Finite(x), Finite(y)) => x < y
    case (Infinity(na), Finite(_)) => na
    case (Finite(_), Infinity(nb)) => !nb
    case (Infinity(na), Infinity(nb)) => na && !nb
  }

  /** `a >= b`: false whenever either side is NaN. */
  predicate AtLeast(a: Numeric, b: Numeric) {
    !a.NaN? && !b.NaN? && !Less(a, b)
  }

  /** `Infinity`, or a decimal literal with an optional exponent, without a sign. */
  function UnsignedNumber(t: string): Numeric {
    if t == "Infinity" then Infinity(false)
    else
      var k := ExponentMark(t);
      match UnsignedDecimal(t[..k])
      case None => NaN
      case Some(m) =>
        if k == |t| then Rounded(m)
        else
          match ExponentValue(t[k + 1..])
          case None => NaN
          case Some(e) => Rounded(Scale(m, e))
  }

  /** The value of a digit in base `radix` (2, 8 or 16), if it is one. */
  function RadixDigit(c: char, radix: nat): (r: Option<nat>)
    ensures r.Some? ==> r.value < radix
  {
    var d := if '0' <= c <= '9' then c as int - '0' as int
             else if 'a' <= c <= 'f' then c as int - 'a' as int + 10
             else if 'A' <= c <= 'F' then c as int - 'A' as int + 10
             else radix;
    if d < radix then Some(d) else None
  }

  /** The number a string of digits in base `radix` denotes; `None` when a character is not such a digit. */
  function RadixValue(ds: string, radix: nat): Option<nat> {
    if ds == [] then Some(0)
    else
      match (RadixValue(ds[..|ds| - 1], radix), RadixDigit(ds[|ds| - 1], radix))
      case (Some(v), Some(d)) => Some(v * radix + d)
      case _ => None
  }

  /** `0x`, `0o` or `0b` in either case: the start of a literal in base 16, 8 or 2. */
  predicate RadixPrefix(t: string) {
    |t| >= 2 && t[0] == '0' && t[1] in "xXoObB"
  }

  /** A hexadecimal, octal or binary literal: its prefix, then at least one digit of that base. */
  function NonDecimalInteger(t: string): Numeric
    requires RadixPrefix(t)
  {
    var radix := if t[1] in "xX" then 16 else if t[1] in "oO" then 8 else 2;
    var ds := t[2..];
    match RadixValue(ds, radix)
    case Some(v) => if ds != "" then Rounded(v as real) else NaN
    case None => NaN
  }

  /**
   * `Number(s)` for a string: white space around the literal is ignored,
   * blank text is 0, a sign may precede `Infinity` or a decimal literal
   * with an optional exponent, and a base-16, 8 or 2 literal takes no sign.
   */
  function StringToNumber(s: string): Numeric {
    var t := Trim(s);
    if t == "" then Finite(0.0)
    else if RadixPrefix(t) then NonDecimalInteger(t)
    else if t[0] == '-' then Negate(UnsignedNumber(t[1..]))
    else if t[0] == '+' then UnsignedNumber(t[1..])
    else UnsignedNumber(t)
  }

  lemma {:induction false} LeadingDigitsAll(s: string)
    requires AllDigits(s)
    ensures LeadingDigits(s) == |s|
  {
    if s != [] {
      LeadingDigitsAll(s[1..]);
    }
  }

  lemma UnsignedDigits(m: string)
    requires |m| > 0 && AllDigits(m)
    ensures UnsignedDecimal(m) == Some(DigitsValue(m) as real)
  {
    LeadingDigitsAll(m);
    assert m[..|m|] == m;
  }

  lemma {:induction false} ExponentMarkAfter(m: string, rest: string)
    requires AllDigits(m) && |rest| > 0 && rest[0] == 'e'
    ensures ExponentMark(m + rest) == |m|
  {
    if m != [] {
      assert (m + rest)[1..] == m[1..] + rest;
      ExponentMarkAfter(m[1..], rest);
    } else {
      assert m + rest == rest;
    }
  }

  /** Unsigned text that is neither padded nor starts with a base prefix is read as an unsigned number. */
  lemma PlainUnsigned(t: string)
    requires |t| > 0 && !IsSpace(t[0]) && !IsSpace(t[|t| - 1])
    requires !RadixPrefix(t) && t[0] != '-' && t[0] != '+'
    ensures StringToNumber(t) == UnsignedNumber(t)
  {
    TrimNoSpace(t);
  }

  /** One unfolding of `UnsignedNumber` at an exponent mark. */
  lemma UnsignedAtMark(t: string, k: nat, x: real, p: int)
    requires t != "Infinity" && k < |t| && ExponentMark(t) == k
    requires UnsignedDecimal(t[..k]) == Some(x) && ExponentValue(t[k + 1..]) == Some(p)
    ensures UnsignedNumber(t) == Rounded(Scale(x, p))
  {
  }

  /** `<digits>e<digits>` is not `Infinity`, and its exponent mark follows the mantissa. */
  lemma ExponentSplit(m: string, e: string)
    requires |m| > 0 && AllDigits(m) && |e| > 0
    ensures m + ("e" + e) != "Infinity"
    ensures ExponentMark(m + ("e" + e)) == |m| < |m + ("e" + e)|
    ensures (m + ("e" + e))[..|m|] == m && (m + ("e" + e))[|m| + 1..] == e
  {
    var t := m + ("e" + e);
    assert t[0] == m[0] && IsDigit(m[0]);
    ExponentMarkAfter(m, "e" + e);
  }

  /** A digit string is an exponent without a sign. */
  lemma PlainExponent(e: string)
    requires |e| > 0 && AllDigits(e)
    ensures ExponentValue(e) == Some(DigitsValue(e) as int)
  {
    assert e[0] != '+' && e[0] != '-';
  }

  lemma UnsignedWithExponent(m: string, e: string)
    requires |m| > 0 && AllDigits(m) && |e| > 0 && AllDigits(e)
    ensures UnsignedNumber(m + ("e" + e)) == Rounded(Scale(DigitsValue(m) as real, DigitsValue(e)))
  {
    ExponentSplit(m, e);
    UnsignedDigits(m);
    PlainExponent(e);
    UnsignedAtMark(m + ("e" + e), |m|, DigitsValue(m) as real, DigitsValue(e));
  }

  /** A digit string followed by `e` and a digit string is read with its exponent. */
  lemma ExponentLiteral(m: string, e: string)
    requires |m| > 0 && AllDigits(m) && |e| > 0 && AllDigits(e)
    ensures StringToNumber(m + "e" + e) == Rounded(Scale(DigitsValue(m) as real, DigitsValue(e)))
  {
    var t := m + ("e" + e);
    assert t == m + "e" + e;
    assert t[0] == m[0] && t[|t| - 1] == e[|e| - 1];
    assert t[1] == (if |m| > 1 then m[1] else 'e');
    PlainUnsigned(t);
    UnsignedWithExponent(m, e);
  }

  /** `Number("0")` is 0. */
  lemma ZeroText(t: string)
    requires t == "0"
    ensures StringToNumber(t) == Finite(0.0)
  {
    PlainUnsigned(t);
    assert ExponentMark(t) == 1 && t[..1] == t;
    UnsignedDigits(t);
  }

  /** `Number("1e0")` is 1, as in JavaScript. */
  lemma ExponentZero(t: string)
    requires t == "1e0"
    ensures StringToNumber(t) == Finite(1.0)
  {
    assert t == "1" + "e" + "0";
    ExponentLiteral("1", "0");
    assert DigitsValue("1") == 1 && DigitsValue("0") == 0;
    assert Scale(1.0, 0) == 1.0;
  }

  /** `Number("1e5")` is 100000, as in JavaScript. */
  lemma ExponentFive(t: string)
    requires t == "1e5"
    ensures StringToNumber(t) == Finite(100000.0)
  {
    assert t == "1" + "e" + "5";
    ExponentLiteral("1", "5");
    assert DigitsValue("1") == 1 && DigitsValue("5") == 5;
    assert Pow10(5) == 100000;
    assert Scale(1.0, 5) == 100000.0;
  }

  /** `Infinity` with or without a sign. */
  lemma InfinityLiterals()
    ensures StringToNumber("Infinity") == Infinity(false)
    ensures StringToNumber("-Infinity") == Infinity(true)
  {
    TrimNoSpace("Infinity");
    TrimNoSpace("-Infinity");
    assert "-Infinity"[1..] == "Infinity";
  }

  /** A base-16 literal is read in base 16; a sign in front of it makes NaN. */
  lemma HexLiterals()
    ensures StringToNumber("0x1A") == Finite(26.0)
    ensures StringToNumber("-0x1A") == NaN
  {
    TrimNoSpace("0x1A");
    TrimNoSpace("-0x1A");
    assert "0x1A"[2..] == "1A";
    assert "1A"[..1] == "1" && "1"[..0] == "";
    assert RadixValue("1A", 16) == Some(26);
    var u := "-0x1A"[1..];
    assert u == "0x1A";
    assert ExponentMark(u) == 4;
    assert LeadingDigits(u) == 1;
  }

  /** `Number(v)` */
  function ToNumber(v: Value): Numeric {
    match v
    case Undefined => NaN
    case Null => Finite(0.0)
    case Bool(b) => Finite(if b then 1.0 else 0.0)
    case Num(n) => Finite(n)
    case Str(s) => StringToNumber(s)
    case Arr(_) => StringToNumber(ToStr(v))
    case Obj(_) => NaN
  }

  // ---------------------------------------------------------------------
  // Property access

  /** The array index a property key names, if it is a canonical one. */
  function CanonicalIndex(key: string): Option<nat> {
    if |key| > 0 && AllDigits(key) && (key == "0" || key[0] != '0') then Some(DigitsValue(key))
    else None
  }

  /** `v[key]` on a value that is not null or undefined (own properties only). */
  function Get(v: Value, key: string): Value {
    match v
    case Obj(fields) => if key in fields then fields[key] else Undefined
    case Arr(items) =>
      if key == "length" then Num(|items| as real)
      else (match CanonicalIndex(key)
            case Some(k) => if k < |items| then items[k] else Undefined
            case None => Undefined)
    case Str(s) =>
      if key == "length" then Num(Utf16Length(s) as real)
      else (match CanonicalIndex(key)
            case Some(k) => if k < |s| then Str([s[k]]) else Undefined
            case None => Undefined)
    case _ => Undefined
  }

  /** `v.length`, read as a number; `None` when it is not a number. */
  function LengthOf(v: Value): Option<real> {
    match v
    case Arr(items) => Some(|items| as real)
    case Str(s) => Some(Utf16Length(s) as real)
    case Obj(fields) => if "length" in fields && fields["length"].Num? then Some(fields["length"].n) else None
    case _ => None
  }

  /**
   * `new Set(xs).size`: primitives are compared by value, and every array
   * or object element is a distinct reference (as it is in parsed JSON).
   */
  function DistinctCount(xs: seq<Value>): nat {
    |set x | x in xs && IsPrimitive(x)| + |set i | 0 <= i < |xs| && !IsPrimitive(xs[i])|
  }

  /** No element occurs twice. */
  predicate NoDuplicates(xs: seq<Value>) {
    forall i, j :: 0 <= i < j < |xs| ==> xs[i] != xs[j]
  }

  /** The number of distinct elements never exceeds the length, and equals it exactly when none repeats. */
  lemma {:induction false} ElementsCount(xs: seq<Value>)
    ensures |set x | x in xs| <= |xs|
    ensures |set x | x in xs| == |xs| <==> NoDuplicates(xs)
    decreases |xs|
  {
    if xs != [] {
      var tail := xs[1..];
      ElementsCount(tail);
      NoDuplicatesCons(xs);
      var rest := set x | x in tail;
      assert (set x | x in xs) == {xs[0]} + rest;
      if xs[0] in rest {
        assert (set x | x in xs) == rest;
      } else {
        assert |set x | x in xs| == |rest| + 1;
      }
    }
  }

  /** A sequence has no duplicates exactly when its head is not repeated and its tail has none. */
  lemma NoDuplicatesCons(xs: seq<Value>)
    requires xs != []
    ensures NoDuplicates(xs) <==> xs[0] !in xs[1..] && NoDuplicates(xs[1..])
  {
    var tail := xs[1..];
    if xs[0] !in tail && NoDuplicates(tail) {
      forall i, j | 0 <= i < j < |xs| ensures xs[i] != xs[j] {
        if i == 0 {
          assert xs[j] == tail[j - 1];
        } else {
          assert xs[i] == tail[i - 1] && xs[j] == tail[j - 1];
        }
      }
    }
    if NoDuplicates(xs) {
      forall i, j | 0 <= i < j < |tail| ensures tail[i] != tail[j] {
        assert tail[i] == xs[i + 1] && tail[j] == xs[j + 1];
      }
    }
  }

  /** For primitive elements `new Set(xs).size` is the number of distinct values. */
  lemma DistinctCountOfPrimitives(xs: seq<Value>)
    requires forall i :: 0 <= i < |xs| ==> IsPrimitive(xs[i])
    ensures DistinctCount(xs) <= |xs|
    ensures DistinctCount(xs) == |xs| <==> NoDuplicates(xs)
  {
    assert (set i | 0 <= i < |xs| && !IsPrimitive(xs[i])) == {};
    assert (set x | x in xs && IsPrimitive(x)) == (set x | x in xs);
    ElementsCount(xs);
  }

  /** Numbers as an array of number values, in order. */
  function Nums(xs: seq<real>): (r: seq<Value>)
    ensures |r| == |xs| && forall i :: 0 <= i < |xs| ==> r[i] == Num(xs[i])
  {
    seq(|xs|, i requires 0 <= i < |xs| => Num(xs[i]))
  }

  /** Integers as an array of number values, in order. */
  function IntValues(xs: seq<int>): (r: seq<Value>)
    ensures |r| == |xs| && forall i :: 0 <= i < |xs| ==> r[i] == Num(xs[i] as real)
  {
    seq(|xs|, i requires 0 <= i < |xs| => Num(xs[i] as real))
  }

  /** A string as a one-element-per-character array, as `[...s]` spreads it. */
  function Chars(s: string): seq<Value> {
    seq(|s|, i requires 0 <= i < |s| => Str([s[i]]))
  }
}

=== FILE: learner_model.dfy ===
/**
 * The learner's skill model: an Elo-like update of a 0..100 skill after an
 * attempt, and the recommendation of the next puzzle difficulty.
 */
module LearnerModel {
  import opened JsValues

  /** A difficulty as callers pass it: a name, or a numeric level taken as is. */
  datatype Difficulty = Named(name: string) | Level(level: real)

  /** `DIFFICULTY_LEVELS[difficulty] || 2` */
  function GetDifficultyLevel(difficulty: string): (r: int)
    ensures 1 <= r <= 3
    ensures r == 1 <==> difficulty == "easy"
    ensures r == 3 <==> difficulty == "hard"
  {
    if difficulty == "easy" then 1
    else if difficulty == "hard" then 3
    else 2
  }

  /** `DIFFICULTY_NAMES[level] || 'medium'` */
  function GetDifficultyName(level: real): (r: string)
    ensures r == "easy" || r == "medium" || r == "hard"
    ensures r == "easy" <==> level == 1.0
    ensures r == "hard" <==> level == 3.0
  {
    if level == 1.0 then "easy"
    else if level == 3.0 then "hard"
    else "medium"
  }

  /** The names and the levels 1..3 are inverse to each other. */
  lemma NamesAndLevelsRoundTrip(name: string, level: int)
    requires name == "easy" || name == "medium" || name == "hard"
    requires 1 <= level <= 3
    ensures GetDifficultyName(GetDifficultyLevel(name) as real) == name
    ensures GetDifficultyLevel(GetDifficultyName(level as real)) == level
  {
  }

  /** A string difficulty goes through the table; a number is used as is. */
  function NumericLevel(d: Difficulty): (r: real)
    ensures d.Named? ==> r == GetDifficultyLevel(d.name) as real
    ensures d.Level? ==> r == d.level
  {
    match d
    case Named(name) => GetDifficultyLevel(name) as real
    case Level(level) => level
  }

  /**
   * The argument of updateSkill. An absent `attemptsCount` is 1 and an
   * absent `maxTime` is `None`; `None` stands for `null` or `undefined`.
   */
  datatype Attempt = Attempt(
    currentSkill: Option<real>,
    puzzleDifficulty: Difficulty,
    isCorrect: bool,
    timeSpent: Option<real>,
    attemptsCount: int,
    maxTime: Option<real>)

  /** `Math.max(0, Math.min(100, currentSkill || 0))` */
  function StartingSkill(a: Attempt): (r: real)
    ensures 0.0 <= r <= 100.0
    ensures a.currentSkill.None? ==> r == 0.0
  {
    ClampPercent(if a.currentSkill.Some? then a.currentSkill.value else 0.0)
  }

  /** `Math.floor(skill / 33.33)` */
  function SkillLevel(skill: real): int {
    (skill / 33.33).Floor
  }

  lemma SkillLevelRange(skill: real)
    requires 0.0 <= skill <= 100.0
    ensures 0 <= SkillLevel(skill) <= 3
  {
  }

  /** 1.5 on the first attempt, then 0.2 less per extra attempt starting from 1.0. */
  function FirstAttemptBonus(attemptsCount: int): real {
    if attemptsCount == 1 then 1.5 else 1.0 - (attemptsCount - 1) as real * 0.2
  }

  /** Truthy: present and not zero. */
  predicate Given(x: Option<real>) {
    x.Some? && x.value != 0.0
  }

  /** The reward factor for finishing under the expected time. */
  function TimeBonus(timeSpent: Option<real>, maxTime: Option<real>): (r: real)
    ensures 0.5 <= r <= 1.5
    ensures !(Given(maxTime) && Given(timeSpent)) ==> r == 1.0
  {
    if Given(maxTime) && Given(timeSpent) then
      var timeRatio := timeSpent.value / maxTime.value;
      var bonus := if timeRatio < 1.0 then 1.0 + (1.0 - timeRatio) * 0.5 else 1.0;
      if bonus > 1.5 then 1.5 else if bonus < 0.5 then 0.5 else bonus
    else 1.0
  }

  /** A faster finish against the same positive expected time never earns a smaller bonus. */
  lemma FasterNeverLess(fast: real, slow: real, maxTime: real)
    requires 0.0 < fast <= slow && maxTime > 0.0
    ensures TimeBonus(Some(fast), Some(maxTime)) >= TimeBonus(Some(slow), Some(maxTime))
  {
    assert fast / maxTime <= slow / maxTime;
  }

  /** 1.2 when the puzzle's level is above the learner's, else 1.0. */
  function ChallengeBonus(level: real, skill: real): real {
    if level > SkillLevel(skill) as real then 1.2 else 1.0
  }

  function Reward(a: Attempt, skill: real): real {
    2.0 * FirstAttemptBonus(a.attemptsCount) * TimeBonus(a.timeSpent, a.maxTime)
      * (NumericLevel(a.puzzleDifficulty) / 2.0) * ChallengeBonus(NumericLevel(a.puzzleDifficulty), skill)
  }

  function Penalty(a: Attempt, skill: real): real {
    var difficultyAdjustment := if NumericLevel(a.puzzleDifficulty) > SkillLevel(skill) as real then 0.7 else 1.0;
    -0.5 * difficultyAdjustment * (1.0 + (a.attemptsCount - 1) as real * 0.3)
  }

  /** updateSkill */
  function UpdateSkill(a: Attempt): (r: real)
    ensures 0.0 <= r <= 100.0
    ensures IsIntegral(r * 100.0)
  {
    var skill := StartingSkill(a);
    var skillChange := if a.isCorrect then Reward(a, skill) else Penalty(a, skill);
    RoundCents(ClampPercent(skill + skillChange))
  }

  lemma ClampMonotone(x: real, y: real)
    requires x <= y
    ensures ClampPercent(x) <= ClampPercent(y)
  {
  }

  /** A wrong answer never raises the (clamped) skill, and lowers any positive one. */
  lemma WrongNeverRaises(a: Attempt)
    requires !a.isCorrect && a.attemptsCount >= 1
    ensures UpdateSkill(a) <= StartingSkill(a)
    ensures StartingSkill(a) > 0.0 ==> UpdateSkill(a) < StartingSkill(a)
  {
    var skill := StartingSkill(a);
    var factor := 1.0 + (a.attemptsCount - 1) as real * 0.3;
    assert factor >= 1.0;
    var change := Penalty(a, skill);
    assert change <= -0.35 by {
      var adj := if NumericLevel(a.puzzleDifficulty) > SkillLevel(skill) as real then 0.7 else 1.0;
      assert change == -0.5 * adj * factor;
      assert adj * factor >= 0.7;
    }
    var clamped := ClampPercent(skill + change);
    assert clamped <= skill;
    assert skill > 0.0 ==> clamped < skill - 0.005 || clamped == 0.0;
    assert RoundCents(clamped) <= clamped + 0.005;
    if clamped == 0.0 {
      RoundCentsExact(0.0);
    }
  }

  /** Named difficulties have a level of at least 1. */
  lemma NamedLevelPositive(d: Difficulty)
    requires d.Named?
    ensures 1.0 <= NumericLevel(d) <= 3.0
  {
  }

  /** A correct answer within the first five attempts on a named difficulty raises any skill below 100. */
  lemma CorrectRaises(a: Attempt)
    requires a.isCorrect && 1 <= a.attemptsCount <= 5 && a.puzzleDifficulty.Named?
    requires StartingSkill(a) < 100.0
    ensures UpdateSkill(a) > StartingSkill(a)
  {
    var skill := StartingSkill(a);
    var fab := FirstAttemptBonus(a.attemptsCount);
    var tb := TimeBonus(a.timeSpent, a.maxTime);
    var level := NumericLevel(a.puzzleDifficulty);
    var cb := ChallengeBonus(level, skill);
    NamedLevelPositive(a.puzzleDifficulty);
    assert fab >= 0.2;
    assert 2.0 * fab >= 0.4;
    assert 2.0 * fab * tb >= 0.2;
    assert 2.0 * fab * tb * (level / 2.0) >= 0.1;
    assert Reward(a, skill) >= 0.1;
    if skill + Reward(a, skill) > 100.0 {
      RoundCentsExact(100.0);
    } else {
      assert ClampPercent(skill + Reward(a, skill)) >= skill + 0.1;
    }
  }

  /**
   * The first-attempt bonus turns negative from the seventh attempt on, so
   * a correct answer then lowers the skill: 50 on a medium puzzle becomes 49.52.
   */
  lemma LateCorrectLowers()
    ensures UpdateSkill(Attempt(Some(50.0), Named("medium"), true, Some(60.0), 7, None)) == 49.52
  {
    var a := Attempt(Some(50.0), Named("medium"), true, Some(60.0), 7, None);
    assert SkillLevel(50.0) == 1;
    assert Reward(a, 50.0) == -0.48;
    RoundCentsExact(49.52);
  }

  /** The reward after a correct medium answer at skill 50, by attempt count and time. */
  lemma MediumAtFifty()
    ensures UpdateSkill(Attempt(Some(50.0), Named("medium"), true, Some(60.0), 1, None)) == 53.6
    ensures UpdateSkill(Attempt(Some(50.0), Named("medium"), true, Some(60.0), 2, None)) == 51.92
    ensures UpdateSkill(Attempt(Some(50.0), Named("medium"), true, Some(60.0), 3, None)) == 51.44
    ensures UpdateSkill(Attempt(Some(50.0), Named("medium"), true, Some(60.0), 1, Some(120.0))) == 54.5
    ensures UpdateSkill(Attempt(Some(50.0), Named("medium"), true, Some(120.0), 1, Some(120.0))) == 53.6
  {
    assert SkillLevel(50.0) == 1;
    RoundCentsExact(53.6);
    RoundCentsExact(51.92);
    RoundCentsExact(51.44);
    RoundCentsExact(54.5);
  }

  /** Fewer attempts never earn less for the same correct answer on a named difficulty. */
  lemma FewerAttemptsEarnMore(a: Attempt, more: int)
    requires a.isCorrect && a.puzzleDifficulty.Named? && 1 <= a.attemptsCount <= more
    ensures UpdateSkill(a) >= UpdateSkill(a.(attemptsCount := more))
  {
    var b := a.(attemptsCount := more);
    var skill := StartingSkill(a);
    assert StartingSkill(b) == skill;
    var k := TimeBonus(a.timeSpent, a.maxTime) * (NumericLevel(a.puzzleDifficulty) / 2.0)
             * ChallengeBonus(NumericLevel(a.puzzleDifficulty), skill);
    NamedLevelPositive(a.puzzleDifficulty);
    assert k > 0.0;
    assert FirstAttemptBonus(a.attemptsCount) >= FirstAttemptBonus(more);
    assert Reward(a, skill) == 2.0 * FirstAttemptBonus(a.attemptsCount) * k;
    assert Reward(b, skill) == 2.0 * FirstAttemptBonus(more) * k;
    assert Reward(a, skill) >= Reward(b, skill);
    ClampMonotone(skill + Reward(b, skill), skill + Reward(a, skill));
    RoundCentsMonotone(ClampPercent(skill + Reward(b, skill)), ClampPercent(skill + Reward(a, skill)));
  }

  // ---------------------------------------------------------------------
  // recommendNextDifficulty

  /** The level recommended after an attempt, before it is named. */
  function RecommendedLevel(currentSkill: real, currentLevel: real, isCorrect: bool, attemptsCount: int): real {
    if isCorrect then
      var level :=
        if attemptsCount == 1 then (if currentLevel + 1.0 < 3.0 then currentLevel + 1.0 else 3.0)
        else if attemptsCount == 2 then currentLevel
        else (if currentLevel > 1.0 then currentLevel else 1.0);
      if SkillLevel(currentSkill) as real > level then (if level + 1.0 < 3.0 then level + 1.0 else 3.0)
      else level
    else
      var level :=
        if attemptsCount == 1 then currentLevel
        else (if currentLevel - 1.0 > 1.0 then currentLevel - 1.0 else 1.0);
      if currentSkill < 33.0 && level > 1.0 then 1.0 else level
  }

  /** recommendNextDifficulty */
  function RecommendNextDifficulty(currentSkill: real, currentDifficulty: Difficulty, isCorrect: bool, attemptsCount: int)
    : (r: string)
    ensures r == "easy" || r == "medium" || r == "hard"
    ensures currentDifficulty.Named? && !isCorrect && currentSkill < 33.0 ==> r == "easy"
  {
    GetDifficultyName(RecommendedLevel(currentSkill, NumericLevel(currentDifficulty), isCorrect, attemptsCount))
  }

  /** After a wrong answer on a named difficulty the recommendation is never harder. */
  lemma WrongNeverHarder(currentSkill: real, name: string, attemptsCount: int)
    ensures var r := RecommendNextDifficulty(currentSkill, Named(name), false, attemptsCount);
            GetDifficultyLevel(r) <= GetDifficultyLevel(name)
  {
  }

  /** After a wrong answer on a repeat attempt the recommendation steps down a level, to no lower than easy. */
  lemma RepeatedWrongStepsDown(currentSkill: real, attemptsCount: int)
    requires attemptsCount != 1
    ensures RecommendNextDifficulty(currentSkill, Named("hard"), false, attemptsCount)
            == if currentSkill < 33.0 then "easy" else "medium"
    ensures RecommendNextDifficulty(currentSkill, Named("medium"), false, attemptsCount) == "easy"
  {
  }

  /** A correct first attempt never recommends an easier level than the current named one. */
  lemma CorrectFirstNeverEasier(currentSkill: real, name: string)
    ensures var r := RecommendNextDifficulty(currentSkill, Named(name), true, 1);
            GetDifficultyLevel(r) >= GetDifficultyLevel(name)
  {
  }
}

=== FILE: llm_adapter.dfy ===
/**
 * The client of the chat-completion service: prompt normalisation, the
 * request body, the retry loop with exponential backoff, the
 * classification of errors that are not worth retrying, the JSON
 * extraction from a reply, and the mapping of a parsed puzzle onto the
 * record the generator returns.
 *
 * The HTTP request itself is a parameter: `makeRequest(apiKey, body, k)`
 * is the outcome of the k-th request (the reply's content, or the message
 * of the error it raised). Sleeping is recorded as the list of delays.
 */
module LlmAdapter {
  import opened JsValues
  import opened PromptTemplates

  const DefaultModel := "anthropic/claude-3.5-sonnet"
  const MaxRetries := 3
  const InitialBackoffMs := 1000

  const MissingApiKey := "OPENROUTER_API_KEY environment variable is required but not set"
  const InvalidPromptFormat :=
    "Invalid prompt format. Expected string, object with messages array, or object with content property"

  // ---------------------------------------------------------------------
  // normalizePrompt

  function Message(role: Value, content: Value): Value {
    Obj(map["role" := role, "content" := content])
  }

  predicate IsObject(v: Value) {
    v.Obj? || v.Arr?
  }

  /** normalizePrompt */
  function NormalizePrompt(promptObj: Value): (r: Result<seq<Value>>)
    ensures promptObj.Null? ==> r == Err(TypeErrorMessage)
    ensures IsObject(promptObj) && Get(promptObj, "messages").Arr? ==> r == Ok(Get(promptObj, "messages").items)
    ensures promptObj.Str? ==> r == Ok([Message(Str("user"), promptObj)])
    ensures IsObject(promptObj) && !Get(promptObj, "messages").Arr? && Truthy(Get(promptObj, "content")) ==>
              r == Ok([Message(Or(Get(promptObj, "role"), Str("user")), Get(promptObj, "content"))])
    ensures r.Err? <==> !promptObj.Str? && !(IsObject(promptObj) && (Get(promptObj, "messages").Arr?
                                                                      || Truthy(Get(promptObj, "content"))))
  {
    if promptObj.Null? then Err(TypeErrorMessage)
    else if IsObject(promptObj) && Get(promptObj, "messages").Arr? then Ok(Get(promptObj, "messages").items)
    else if promptObj.Str? then Ok([Message(Str("user"), promptObj)])
    else if IsObject(promptObj) && Truthy(Get(promptObj, "content")) then
      Ok([Message(Or(Get(promptObj, "role"), Str("user")), Get(promptObj, "content"))])
    else Err(InvalidPromptFormat)
  }

  // ---------------------------------------------------------------------
  // The request body

  datatype ExtraBody = ExtraBody(reasoning: bool)

  datatype RequestBody = RequestBody(
    model: string,
    messages: seq<Value>,
    temperature: real,
    extraBody: Option<ExtraBody>)

  /** `Math.max(0, Math.min(2, temperature))` */
  function ClampTemperature(t: real): (r: real)
    ensures 0.0 <= r <= 2.0
    ensures 0.0 <= t <= 2.0 ==> r == t
    ensures t < 0.0 ==> r == 0.0
    ensures t > 2.0 ==> r == 2.0
  {
    if t > 2.0 then 2.0 else if t < 0.0 then 0.0 else t
  }

  /** The body of every request: `extra_body` is spread in only when reasoning is on. */
  function BuildRequestBody(messages: seq<Value>, reasoning: bool, temperature: real): (b: RequestBody)
    ensures b.model == DefaultModel && b.messages == messages
    ensures 0.0 <= b.temperature <= 2.0 && b.temperature == ClampTemperature(temperature)
    ensures b.extraBody.Some? <==> reasoning
    ensures b.extraBody.Some? ==> b.extraBody.value.reasoning
  {
    RequestBody(DefaultModel, messages, ClampTemperature(temperature),
                if reasoning then Some(ExtraBody(true)) else None)
  }

  // ---------------------------------------------------------------------
  // parseResponse

  /** The first fence at or after `i`. */
  function FenceFrom(t: string, i: nat): (r: Option<nat>)
    ensures r.Some? ==> i <= r.value && FenceAt(t, r.value)
    ensures r.Some? ==> forall k :: i <= k < r.value ==> !FenceAt(t, k)
    ensures r.None? ==> forall k :: i <= k ==> !FenceAt(t, k)
    decreases |t| - i
  {
    if i + 3 > |t| then None
    else if FenceAt(t, i) then Some(i)
    else FenceFrom(t, i + 1)
  }

  /**
   * The text handed to the parser by  ```(?:json)?\s*([\s\S]*?)\s*```  :
   * the captured group, or the whole match when the group is empty. The
   * white space the group leaves off its end is removed by the trim that
   * follows, so the group is taken up to the closing fence.
   */
  function FencedText(t: string): (r: Option<string>)
    ensures r.Some? ==> FenceFrom(t, 0).Some?
  {
    match FenceFrom(t, 0)
    case None => None
    case Some(o) =>
      var g := AfterOpenFence(t, o);
      match FenceFrom(t, g)
      case None => None
      case Some(q) => Some(if g < q then t[g..q] else t[o..q + 3])
  }

  function PreviewTail(content: string): string {
    ". Content preview: " + UnitPrefix(content, 200)
  }

  /** The message when the extracted text does not parse either. */
  function ParseFailure(e: string, content: string): string {
    "Failed to parse JSON from LLM response: " + e + PreviewTail(content)
  }

  /** The message when the reply holds neither a fenced block nor a braced object. */
  function NoJsonFound(content: string): string {
    "No valid JSON found in LLM response" + PreviewTail(content)
  }

  /** parseResponse */
  function ParseResponse(content: string, parse: JsonParser): (r: Result<Value>)
    ensures parse(content).Ok? ==> r == parse(content)
    ensures parse(content).Err? && FencedText(content).Some? ==>
              r == (match parse(Trim(FencedText(content).value))
                    case Ok(v) => Ok(v)
                    case Err(e) => Err(ParseFailure(e, content)))
    ensures parse(content).Err? && FencedText(content).None? && GreedyObject(content).Some? ==>
              r == (match parse(Trim(GreedyObject(content).value))
                    case Ok(v) => Ok(v)
                    case Err(e) => Err(ParseFailure(e, content)))
    ensures r.Err? && FencedText(content).None? && GreedyObject(content).None? ==>
              r == Err(NoJsonFound(content))
    ensures r.Err? ==> (exists e :: r.message == ParseFailure(e, content)) || r.message == NoJsonFound(content)
  {
    match parse(content)
    case Ok(v) => Ok(v)
    case Err(_) =>
      var jsonMatch := if FencedText(content).Some? then FencedText(content) else GreedyObject(content);
      match jsonMatch
      case Some(jsonStr) =>
        (match parse(Trim(jsonStr))
         case Ok(v) => Ok(v)
         case Err(e) => Err(ParseFailure(e, content)))
      case None => Err(NoJsonFound(content))
  }

  /** A reply of one fenced block whose body parses yields that body. */
  lemma FencedReplyParsed(body: string, parse: JsonParser, v: Value)
    requires body != "" && !IsSpace(body[0]) && !IsSpace(body[|body| - 1])
    requires forall k :: 0 <= k < |body| ==> body[k] != '`'
    requires body[0] != 'j'
    requires parse("```" + body + "```").Err? && parse(body) == Ok(v)
    ensures ParseResponse("```" + body + "```", parse) == Ok(v)
  {
    var t := "```" + body + "```";
    assert FenceAt(t, 0);
    assert FenceFrom(t, 0) == Some(0);
    assert t[3] == body[0];
    assert AfterOpenFence(t, 0) == 3;
    forall k | 3 <= k < 3 + |body| ensures !FenceAt(t, k) {
      assert t[k] == body[k - 3];
    }
    assert FenceAt(t, 3 + |body|);
    assert FenceFrom(t, 3) == Some(3 + |body|);
    assert t[3..3 + |body|] == body;
    TrimNoSpace(body);
  }

  // ---------------------------------------------------------------------
  // isNonRetryableError

  /** Every status code the classifier looks for mentions a `4`. */
  lemma CodesMentionFour(m: string)
    ensures (|| Contains(m, "401") || Contains(m, "400") || Contains(m, "403") || Contains(m, "404")
             || Contains(m, "http 4")) ==> '4' in m
  {
    if '4' !in m {
      MissingCharNotContained(m, "401", 0);
      MissingCharNotContained(m, "400", 0);
      MissingCharNotContained(m, "403", 0);
      MissingCharNotContained(m, "404", 0);
      MissingCharNotContained(m, "http 4", 5);
    }
  }

  /**
   * isNonRetryableError, on the error's message: a permanent error mentions
   * a `4` (a 4xx status) or one of the three authentication words, in any
   * case.
   */
  predicate IsNonRetryableError(message: string): (b: bool)
    ensures b ==> '4' in ToLower(message) || Contains(ToLower(message), "unauthorized")
                  || Contains(ToLower(message), "invalid api key") || Contains(ToLower(message), "authentication")
  {
    var m := ToLower(message);
    CodesMentionFour(m);
    || Contains(m, "401") || Contains(m, "unauthorized") || Contains(m, "invalid api key")
    || Contains(m, "authentication")
    || Contains(m, "400") || Contains(m, "403") || Contains(m, "404")
    || (Contains(m, "http 4") && !Contains(m, "429"))
  }

  /** A string in which every `4` is followed by `2` contains no `4` followed by another character. */
  lemma FourTwoNotContained(m: string, p: string)
    requires |p| >= 2 && p[0] == '4' && p[1] != '2'
    requires forall k :: 0 <= k < |m| && m[k] == '4' ==> k + 1 < |m| && m[k + 1] == '2'
    ensures !Contains(m, p)
  {
    if Contains(m, p) {
      var i := ContainsWitness(m, p);
      assert false;
    }
  }

  /** In a string where every `4` starts a `429`, an "http 4" is an "http 429". */
  lemma HttpFourIsRateLimit(m: string)
    requires forall k :: 0 <= k < |m| && m[k] == '4' ==> k + 2 < |m| && m[k + 1] == '2' && m[k + 2] == '9'
    ensures Contains(m, "http 4") ==> Contains(m, "429")
  {
    if Contains(m, "http 4") {
      var i := ContainsWitness(m, "http 4");
      var k := i + 5;
      assert m[k] == "http 4"[5] == '4';
      assert m[k..][..3] == [m[k], m[k + 1], m[k + 2]] == "429";
      ContainsAt(m, "429", k);
    }
  }

  /** A message with neither a `4` nor an `a` (in any case) is always retried. */
  lemma NoFourNoAIsRetryable(message: string)
    requires forall k :: 0 <= k < |message| ==> message[k] != '4' && LowerChar(message[k]) != 'a'
    ensures !IsNonRetryableError(message)
  {
    var m := ToLower(message);
    assert forall k :: 0 <= k < |m| ==> m[k] != '4' && m[k] != 'a';
    MissingCharNotContained(m, "401", 0);
    MissingCharNotContained(m, "400", 0);
    MissingCharNotContained(m, "403", 0);
    MissingCharNotContained(m, "404", 0);
    MissingCharNotContained(m, "http 4", 5);
    MissingCharNotContained(m, "unauthorized", 2);
    MissingCharNotContained(m, "invalid api key", 3);
    MissingCharNotContained(m, "authentication", 0);
  }

  /** A message naming a client error code 400, 401, 403 or 404 is never retried. */
  lemma ClientErrorNotRetried(before: string, code: string, after: string)
    requires code == "400" || code == "401" || code == "403" || code == "404"
    ensures IsNonRetryableError(before + code + after)
  {
    ToLowerAppend(before + code, after);
    ToLowerAppend(before, code);
    assert ToLower(code) == code;
    ContainsInfix(ToLower(before), code, ToLower(after));
  }

  /** The message makeRequest throws for a response that is not ok. */
  function ApiErrorMessage(detail: string): string {
    "OpenRouter API error: " + detail
  }

  /** The request error's fixed prefix, lower-cased. */
  lemma ApiErrorPrefixLowered(prefix: string)
    requires prefix == "OpenRouter API error: "
    ensures ToLower(prefix) == "openrouter api error: "
  {
    assert prefix == "O" + "penRouter API error: ";
  }

  /** No position of the lowered prefix starts a word the classifier looks for. */
  lemma PrefixStartsNoWord(p: string, w: string)
    requires p == "openrouter api error: "
    requires w == "unauthorized" || w == "invalid api key" || w == "authentication"
    ensures forall i :: 0 <= i < |p| ==> CannotStart(p, i, w)
  {
  }

  /**
   * Rate limiting is retried: a request error whose detail names neither an
   * authentication failure nor a client error code, and in which every `4`
   * starts a `429`, is worth another attempt. The fixed prefix of the
   * message adds none of the words the classifier looks for, and the
   * "http 4" clause is cancelled by the `429` it contains.
   */
  lemma RateLimitRetried(detail: string)
    requires !Contains(ToLower(detail), "unauthorized") && !Contains(ToLower(detail), "invalid api key")
             && !Contains(ToLower(detail), "authentication")
    requires forall k :: 0 <= k < |detail| && detail[k] == '4' ==>
               k + 2 < |detail| && detail[k + 1] == '2' && detail[k + 2] == '9'
    ensures !IsNonRetryableError(ApiErrorMessage(detail))
  {
    var prefix := "OpenRouter API error: ";
    ApiErrorPrefixLowered(prefix);
    var p := ToLower(prefix);
    var l := ToLower(detail);
    ToLowerAppend(prefix, detail);
    var m := p + l;
    assert ToLower(ApiErrorMessage(detail)) == m;
    forall k | 0 <= k < |m| && m[k] == '4' ensures k + 2 < |m| && m[k + 1] == '2' && m[k + 2] == '9' {
      assert k >= |p|;
      assert detail[k - |p|] == '4';
    }
    PrefixStartsNoWord(p, "unauthorized");
    NotContainedAfter(p, l, "unauthorized");
    PrefixStartsNoWord(p, "invalid api key");
    NotContainedAfter(p, l, "invalid api key");
    PrefixStartsNoWord(p, "authentication");
    NotContainedAfter(p, l, "authentication");
    FourTwoNotContained(m, "401");
    FourTwoNotContained(m, "400");
    FourTwoNotContained(m, "403");
    FourTwoNotContained(m, "404");
    HttpFourIsRateLimit(m);
  }

  /** The error of an HTTP 429 reply without a JSON body is retried. */
  lemma Http429Retried(detail: string)
    requires detail == "HTTP 429"
    ensures !IsNonRetryableError(ApiErrorMessage(detail))
  {
    ContainsShorter(ToLower(detail), "unauthorized");
    ContainsShorter(ToLower(detail), "invalid api key");
    ContainsShorter(ToLower(detail), "authentication");
    RateLimitRetried(detail);
  }

  // ---------------------------------------------------------------------
  // callLLM

  /** The k-th request's outcome, as `makeRequest(apiKey, body)` would produce it. */
  type Requester = (string, RequestBody, nat) -> Result<string>

  /** One attempt: the request, then the JSON extraction; either may throw. */
  function AttemptOutcome(apiKey: string, body: RequestBody, k: nat, makeRequest: Requester, parse: JsonParser)
    : Result<Value>
  {
    match makeRequest(apiKey, body, k)
    case Ok(content) => ParseResponse(content, parse)
    case Err(e) => Err(e)
  }

  /** The outcome of every attempt callLLM may make with one request body. */
  function Attempts(apiKey: string, body: RequestBody, makeRequest: Requester, parse: JsonParser)
    : nat -> Result<Value>
  {
    (k: nat) => AttemptOutcome(apiKey, body, k, makeRequest, parse)
  }

  predicate Retryable(outcome: Result<Value>) {
    outcome.Err? && !IsNonRetryableError(outcome.message)
  }

  function Pow2(k: nat): (r: nat)
    ensures r >= 1
  {
    if k == 0 then 1 else 2 * Pow2(k - 1)
  }

  /** The first n backoff delays: 1000, 2000, 4000, ... milliseconds. */
  function Backoffs(n: nat): (r: seq<nat>)
    ensures |r| == n
    ensures forall i :: 0 <= i < n ==> r[i] == InitialBackoffMs * Pow2(i)
  {
    if n == 0 then [] else Backoffs(n - 1) + [InitialBackoffMs * Pow2(n - 1)]
  }

  /** The sleeps of a run that exhausts its attempts: 1 s, then 2 s, and none after the last attempt. */
  lemma ExhaustedRunSleeps()
    ensures Backoffs(MaxRetries - 1) == [1000, 2000]
  {
    assert Pow2(1) == 2;
  }

  function ExhaustedMessage(lastError: string): string {
    "LLM request failed after 3 attempts. Last error: " + lastError
  }

  /**
   * What the retry loop yields over the outcomes of its attempts: one to
   * three requests, every one before the last a retryable failure, and as
   * result the last outcome, or the exhausted message when the last
   * failure was retryable too.
   */
  predicate RetriedOver(outcome: nat -> Result<Value>, requests: nat, r: Result<Value>) {
    && 1 <= requests <= MaxRetries
    && (forall k :: 0 <= k < requests - 1 ==> Retryable(outcome(k)))
    && var last := outcome(requests - 1);
    && (Retryable(last) ==> requests == MaxRetries && r == Err(ExhaustedMessage(last.message)))
    && (!Retryable(last) ==> r == last)
  }

  /** The request body callLLM sends for a prompt that normalises. */
  function RequestBodyFor(promptObj: Value, reasoning: bool, temperature: real): RequestBody
    requires NormalizePrompt(promptObj).Ok?
  {
    BuildRequestBody(NormalizePrompt(promptObj).value, reasoning, temperature)
  }

  /**
   * The retry loop of callLLM over the outcome of each attempt: up to three
   * attempts, stopping at the first success or at the first error that is
   * not worth retrying, with a backoff of 1000 * 2^k ms after a failed
   * attempt k when another attempt follows.
   */
  method RetryWithBackoff(attemptOutcome: nat -> Result<Value>)
    returns (r: Result<Value>, requests: nat, delays: seq<nat>)
    ensures 1 <= requests <= MaxRetries
    ensures delays == Backoffs(requests - 1)
    ensures forall k :: 0 <= k < requests - 1 ==> Retryable(attemptOutcome(k))
    ensures Retryable(attemptOutcome(requests - 1)) ==>
              requests == MaxRetries && r == Err(ExhaustedMessage(attemptOutcome(requests - 1).message))
    ensures !Retryable(attemptOutcome(requests - 1)) ==> r == attemptOutcome(requests - 1)
  {
    var lastError := "";
    requests := 0;
    delays := [];
    var attempt := 0;
    while attempt < MaxRetries
      invariant 0 <= attempt <= MaxRetries && requests == attempt
      invariant delays == Backoffs(if attempt < MaxRetries then attempt else MaxRetries - 1)
      invariant forall k :: 0 <= k < attempt ==> Retryable(attemptOutcome(k))
      invariant attempt > 0 ==> lastError == attemptOutcome(attempt - 1).message
    {
      requests := requests + 1;
      var outcome := attemptOutcome(attempt);
      if outcome.Ok? {
        r := outcome;
        return;
      }
      lastError := outcome.message;
      if IsNonRetryableError(lastError) {
        r := Err(lastError);
        return;
      }
      var backoffMs := InitialBackoffMs * Pow2(attempt);
      if attempt < MaxRetries - 1 {
        delays := delays + [backoffMs];
      }
      attempt := attempt + 1;
    }
    r := Err(ExhaustedMessage(lastError));
  }

  /**
   * callLLM: `apiKey` is the environment's key ("" when unset). Returns the
   * outcome, the number of requests made and the delays slept.
   */
  method CallLLM(apiKey: string, promptObj: Value, reasoning: bool, temperature: real,
                 makeRequest: Requester, parse: JsonParser)
    returns (r: Result<Value>, requests: nat, delays: seq<nat>)
    ensures apiKey == "" ==> r == Err(MissingApiKey) && requests == 0
    ensures apiKey != "" && NormalizePrompt(promptObj).Err? ==>
              r == Err(NormalizePrompt(promptObj).message) && requests == 0
    ensures requests > 0 <==> apiKey != "" && NormalizePrompt(promptObj).Ok?
    ensures requests <= MaxRetries
    ensures delays == Backoffs(if requests == 0 then 0 else requests - 1)
    ensures requests > 0 ==>
              RetriedOver(Attempts(apiKey, RequestBodyFor(promptObj, reasoning, temperature), makeRequest, parse),
                          requests, r)
  {
    if apiKey == "" {
      return Err(MissingApiKey), 0, [];
    }
    var messages := NormalizePrompt(promptObj);
    if messages.Err? {
      return Err(messages.message), 0, [];
    }
    var requestBody := BuildRequestBody(messages.value, reasoning, temperature);
    assert requestBody == RequestBodyFor(promptObj, reasoning, temperature);
    // each attempt is makeRequest followed by parseResponse, either of which may throw
    var attempts := Attempts(apiKey, requestBody, makeRequest, parse);
    r, requests, delays := RetryWithBackoff(attempts);
  }

  // ---------------------------------------------------------------------
  // generateAdaptivePuzzle

  const SystemPrompt := "You are an expert at creating educational programming puzzles. Return ONLY valid JSON."

  /** The record generateAdaptivePuzzle returns. */
  datatype PuzzleRecord = PuzzleRecord(
    title: string,
    description: Value,
    difficulty: string,
    category: string,
    segments: seq<string>,
    correctOrder: seq<real>,
    distractors: seq<string>,
    language: string)

  /** The mapping of a normalised reply onto the puzzle record. */
  function PuzzleRecordFor(topic: string, difficulty: string, language: string, parsed: Candidate): (r: PuzzleRecord)
    ensures r.segments == parsed.lines && r.correctOrder == parsed.solutionOrder && r.distractors == parsed.distractors
    ensures r.category == topic && r.difficulty == difficulty && r.language == language
    ensures Truthy(parsed.problem) ==> r.description == parsed.problem
    ensures !Truthy(parsed.problem) ==> r.description == Str("Arrange the lines to solve: " + topic)
    ensures WellFormed(parsed) ==>
              |r.segments| > 0 && |r.correctOrder| > 0
              && forall i :: 0 <= i < |r.correctOrder| ==> 0.0 <= r.correctOrder[i] < |r.segments| as real
  {
    PuzzleRecord("Parsons: " + topic, Or(parsed.problem, Str("Arrange the lines to solve: " + topic)),
                 difficulty, topic, parsed.lines, parsed.solutionOrder, parsed.distractors, language)
  }

  /** The two messages sent for a generation: the fixed system message and the prompt with the topic. */
  function GenerationMessages(prompt: string, topic: string): Value {
    Obj(map["messages" := Arr([Message(Str("system"), Str(SystemPrompt)),
                               Message(Str("user"), Str(prompt + "\nTopic: " + topic))])])
  }

  /** The body of a generation request: the two messages, at temperature 0.7, without reasoning. */
  function GenerationRequest(prompt: string, topic: string): (b: RequestBody)
    ensures b.model == DefaultModel && b.temperature == 0.7 && b.extraBody.None?
    ensures b.messages == [Message(Str("system"), Str(SystemPrompt)),
                           Message(Str("user"), Str(prompt + "\nTopic: " + topic))]
  {
    RequestBodyFor(GenerationMessages(prompt, topic), false, 0.7)
  }

  /** What every record generateAdaptivePuzzle returns satisfies. */
  predicate Generated(p: PuzzleRecord, topic: string, difficulty: string, language: string) {
    && p.title == "Parsons: " + topic && p.category == topic
    && p.difficulty == difficulty && p.language == language
    && |p.segments| > 0 && |p.correctOrder| > 0
    && forall i :: 0 <= i < |p.correctOrder| ==> 0.0 <= p.correctOrder[i] < |p.segments| as real
  }

  /**
   * The record built from the model's reply: a failed request fails the
   * generation, a reply that is not a string is stringified (`stringify`
   * stands for `JSON.stringify`) and then normalised.
   */
  function PuzzleFromReply(reply: Result<Value>, topic: string, difficulty: string, language: string,
                           parse: JsonParser, stringify: Value -> string): (r: Result<PuzzleRecord>)
    ensures reply.Err? ==> r == Err(reply.message)
    ensures r.Ok? ==> Generated(r.value, topic, difficulty, language)
    ensures reply.Ok? && reply.value.Str? ==>
              (r.Ok? <==> ParseLLMResponse(reply.value, parse).Ok?)
  {
    match reply
    case Err(e) => Err(e)
    case Ok(v) =>
      var text := if v.Str? then v.s else stringify(v);
      match ParseLLMResponse(Str(text), parse)
      case Err(e) => Err(e)
      case Ok(parsed) => Ok(PuzzleRecordFor(topic, difficulty, language, parsed))
  }

  /**
   * The prompt generateAdaptivePuzzle asks for: with the examples, and
   * with no explicit line or distractor count.
   */
  function AdaptivePrompt(language: string, difficulty: string, fewShotExamples: string): string {
    PromptHeader(language) + ExamplesSection(fewShotExamples)
    + RequirementsSection(language, difficulty, Undefined, Undefined) + FormatSection(language)
  }

  /** generatePuzzlePrompt as generateAdaptivePuzzle calls it: with the examples and no counts. */
  method BuildAdaptivePrompt(language: string, difficulty: string, fewShotExamples: string)
    returns (prompt: string)
    ensures prompt == AdaptivePrompt(language, difficulty, fewShotExamples)
  {
    prompt := GeneratePuzzlePrompt(language, difficulty, Undefined, Undefined, true, fewShotExamples);
  }

  /** The generation messages always normalise, to the body GenerationRequest describes. */
  lemma GenerationRequestSent(prompt: string, topic: string)
    ensures NormalizePrompt(GenerationMessages(prompt, topic)).Ok?
    ensures RequestBodyFor(GenerationMessages(prompt, topic), false, 0.7) == GenerationRequest(prompt, topic)
  {
    var promptObj := GenerationMessages(prompt, topic);
    assert IsObject(promptObj) && Get(promptObj, "messages").Arr?;
  }

  /** The record built from callLLM's reply, as the last statements of generateAdaptivePuzzle build it. */
  method RecordFromReply(reply: Result<Value>, topic: string, difficulty: string, language: string,
                         parse: JsonParser, stringify: Value -> string)
    returns (r: Result<PuzzleRecord>)
    ensures r == PuzzleFromReply(reply, topic, difficulty, language, parse, stringify)
  {
    if reply.Err? {
      return Err(reply.message);
    }
    var text := if reply.value.Str? then reply.value.s else stringify(reply.value);
    var parsed := ValidateAndParseLLMResponse(Str(text), parse);
    if parsed.Err? {
      return Err(parsed.message);
    }
    r := Ok(PuzzleRecordFor(topic, difficulty, language, parsed.value));
  }

  /**
   * What generateAdaptivePuzzle's request for `prompt` comes to: no request
   * without a key; otherwise callLLM's retry loop over the generation
   * request, sleeping the backoffs between attempts; and the record is the
   * normalisation of the reply.
   */
  predicate Requested(prompt: string, topic: string, difficulty: string, language: string,
                      apiKey: string, makeRequest: Requester, parse: JsonParser, stringify: Value -> string,
                      r: Result<PuzzleRecord>, reply: Result<Value>, requests: nat, delays: seq<nat>)
  {
    && (apiKey == "" ==> reply == Err(MissingApiKey) && requests == 0)
    && (apiKey != "" ==>
          RetriedOver(Attempts(apiKey, GenerationRequest(prompt, topic), makeRequest, parse), requests, reply))
    && delays == Backoffs(if requests == 0 then 0 else requests - 1)
    && r == PuzzleFromReply(reply, topic, difficulty, language, parse, stringify)
  }

  /**
   * The request and the normalisation of its reply, for the prompt
   * generateAdaptivePuzzle built: callLLM's retry loop runs over the
   * generation request, and its reply becomes the record.
   */
  method RequestPuzzle(prompt: string, topic: string, difficulty: string, language: string,
                       apiKey: string, makeRequest: Requester, parse: JsonParser, stringify: Value -> string)
    returns (r: Result<PuzzleRecord>, reply: Result<Value>, requests: nat, delays: seq<nat>)
    ensures Requested(prompt, topic, difficulty, language, apiKey, makeRequest, parse, stringify,
                      r, reply, requests, delays)
  {
    GenerationRequestSent(prompt, topic);
    reply, requests, delays := CallLLM(apiKey, GenerationMessages(prompt, topic), false, 0.7, makeRequest, parse);
    r := RecordFromReply(reply, topic, difficulty, language, parse, stringify);
  }

  /**
   * generateAdaptivePuzzle: the prompt with examples and the topic appended,
   * sent with temperature 0.7 and no reasoning; `reply` is what callLLM
   * returned, after `requests` attempts and the sleeps in `delays`.
   */
  method GenerateAdaptivePuzzle(topic: string, difficulty: string, language: string, fewShotExamples: string,
                                apiKey: string, makeRequest: Requester, parse: JsonParser,
                                stringify: Value -> string)
    returns (r: Result<PuzzleRecord>, reply: Result<Value>, prompt: string, requests: nat, delays: seq<nat>)
    ensures Requested(prompt, topic, difficulty, language, apiKey, makeRequest, parse, stringify,
                      r, reply, requests, delays)
    ensures prompt == AdaptivePrompt(language, difficulty, fewShotExamples)
  {
    prompt := BuildAdaptivePrompt(language, difficulty, fewShotExamples);
    r, reply, requests, delays := RequestPuzzle(prompt, topic, difficulty, language, apiKey, makeRequest, parse, stringify);
  }
}

=== FILE: prompt_templates.dfy ===
/**
 * Prompt construction and the parser that turns a model's free text into a
 * puzzle candidate: direct JSON, a fenced ```json block, the greedy
 * first-`{`-to-last-`}` match, then a field-by-field regular-expression
 * fallback, and finally the normalisation of the parsed record.
 *
 * `JSON.parse` is a parameter. The regular expressions are modelled
 * concretely: each function below computes the leftmost match the
 * JavaScript engine reports for its pattern.
 */
module PromptTemplates {
  import opened JsValues

  /**
   * `JSON.parse`: the parsed value, or the SyntaxError's message. The one
   * fact the model relies on is that text opening with `[` can only parse
   * to an array.
   */
  type JsonParser = p: string -> Result<Value> | BracketsParseToArrays(p)
    witness (s: string) => Err("Unexpected token")

  ghost predicate BracketsParseToArrays(p: string -> Result<Value>) {
    forall s :: |s| > 0 && s[0] == '[' && p(s).Ok? ==> p(s).value.Arr?
  }

  /** The record the parser hands on; `solutionOrder` holds `Number(...)` results. */
  datatype Candidate = Candidate(
    lines: seq<string>,
    distractors: seq<string>,
    solutionOrder: seq<real>,
    problem: Value,
    hint: Value)

  // ---------------------------------------------------------------------
  // Prompt construction

  /** Suggested line range for a difficulty; anything unknown gets the medium entry. */
  function GetLineRange(difficulty: string): (r: string)
    ensures difficulty != "easy" && difficulty != "hard" ==> r == "7-10 lines"
  {
    if difficulty == "easy" then "4-6 lines"
    else if difficulty == "hard" then "11-15 lines"
    else "7-10 lines"
  }

  /** Suggested distractor count for a difficulty; anything unknown gets the medium entry. */
  function GetDistractorCount(difficulty: string): (r: int)
    ensures 2 <= r <= 4
    ensures difficulty != "easy" && difficulty != "hard" ==> r == 3
  {
    if difficulty == "easy" then 2
    else if difficulty == "hard" then 4
    else 3
  }

  /** An unknown difficulty is treated exactly like `medium` by both lookups. */
  lemma UnknownDifficultyIsMedium(difficulty: string)
    requires difficulty !in {"easy", "medium", "hard"}
    ensures GetLineRange(difficulty) == GetLineRange("medium")
    ensures GetDistractorCount(difficulty) == GetDistractorCount("medium")
  {
  }

  function PromptHeader(language: string): string {
    "Generate a Parsons puzzle for " + language + " programming.\n\n"
    + "A Parsons puzzle consists of:\n"
    + "1. Lines of code from a working program (scrambled)\n"
    + "2. Distractor lines that look similar but don't belong\n"
    + "3. The correct order of lines to solve the problem\n\n"
  }

  const ExamplesIntro := "Few-shot examples showing correct code, plausible distractors, and expected JSON format:\n\n"

  function ExamplesSection(fewShotExamples: string): (r: string)
    ensures Contains(r, fewShotExamples)
  {
    ContainsInfix(ExamplesIntro, fewShotExamples, "\n\n");
    ExamplesIntro + fewShotExamples + "\n\n"
  }

  /** The requirement line about the number of code lines. */
  function LinesRequirement(difficulty: string, lines: Value): string {
    if Truthy(lines) then "- Number of code lines: " + ToStr(lines)
    else "- For " + difficulty + " difficulty: " + GetLineRange(difficulty)
  }

  /** The requirement line about the number of distractors. */
  function DistractorsRequirement(difficulty: string, distractors: Value): string {
    "- Number of distractors: "
    + (if Truthy(distractors) then ToStr(distractors) else IntToString(GetDistractorCount(difficulty)))
  }

  function RequirementsIntro(language: string, difficulty: string): string {
    "Requirements:\n- Difficulty: " + difficulty + "\n- Language: " + language + "\n"
  }

  function RequirementsTail(language: string): string {
    "- All lines should be syntactically valid " + language + "\n"
    + "- Distractors should be plausible but incorrect\n"
    + "- Code should solve a clear, educational problem\n"
    + "- Include proper indentation markers for " + language + "\n\n"
  }

  /** The requirements list; it always carries the line-count and distractor-count lines. */
  function RequirementsSection(language: string, difficulty: string, lines: Value, distractors: Value): (r: string)
    ensures Contains(r, LinesRequirement(difficulty, lines) + "\n")
    ensures Contains(r, DistractorsRequirement(difficulty, distractors) + "\n")
  {
    var intro := RequirementsIntro(language, difficulty);
    var linesLine := LinesRequirement(difficulty, lines) + "\n";
    var distLine := DistractorsRequirement(difficulty, distractors) + "\n";
    var tail := RequirementsTail(language);
    ContainsInfix(intro, linesLine, distLine + tail);
    assert intro + linesLine + distLine + tail == intro + linesLine + (distLine + tail);
    ContainsInfix(intro + linesLine, distLine, tail);
    intro + linesLine + distLine + tail
  }

  function FormatSection(language: string): string {
    "IMPORTANT: Return ONLY valid JSON matching this exact schema:\n"
    + "{\n"
    + "  \"lines\": [\"line1\", \"line2\", ...],\n"
    + "  \"distractors\": [\"distractor1\", \"distractor2\", ...],\n"
    + "  \"solutionOrder\": [0, 1, 2, ...],\n"
    + "  \"problem\": \"Brief description of what the code does\",\n"
    + "  \"hint\": \"Optional hint for students\"\n"
    + "}\n\n"
    + "Schema requirements:\n"
    + "- \"lines\": Array of strings containing valid " + language + " code lines (scrambled order)\n"
    + "- \"distractors\": Array of strings with plausible but incorrect lines (common errors: off-by-one, wrong operators, variable swaps)\n"
    + "- \"solutionOrder\": Array of integers indicating correct order of indices from \"lines\" array\n"
    + "- \"problem\": String describing what the code accomplishes\n"
    + "- \"hint\": Optional string with helpful guidance\n\n"
    + "The solutionOrder array contains indices of lines in the \"lines\" array, in the correct execution order.\n"
    + "Example: if lines=[\"print(x)\", \"x=5\"], then solutionOrder=[1,0] means: first execute x=5, then print(x).\n\n"
    + "Return ONLY JSON matching schema or the assistant will be asked again.\n"
    + "Do not include explanations, markdown formatting, or any text outside the JSON object."
  }

  /**
   * Builds the generation prompt section by section. `fewShotExamples` is
   * the fixed example text the prompt embeds when `examples` is set.
   */
  method GeneratePuzzlePrompt(language: string, difficulty: string, lines: Value, distractors: Value,
                              examples: bool, fewShotExamples: string)
    returns (prompt: string)
    ensures prompt == PromptHeader(language)
                      + (if examples then ExamplesSection(fewShotExamples) else "")
                      + RequirementsSection(language, difficulty, lines, distractors)
                      + FormatSection(language)
  {
    prompt := PromptHeader(language);
    if examples {
      prompt := prompt + ExamplesSection(fewShotExamples);
    } else {
      assert prompt + "" == prompt;
    }
    ghost var ex := if examples then ExamplesSection(fewShotExamples) else "";
    assert prompt == PromptHeader(language) + ex;
    prompt := prompt + RequirementsSection(language, difficulty, lines, distractors);
    prompt := prompt + FormatSection(language);
  }

  // ---------------------------------------------------------------------
  // Regular expressions of parseJSONResponse

  /** The position after the white space that starts at `i`. */
  function SkipSpace(t: string, i: nat): (j: nat)
    requires i <= |t|
    ensures i <= j <= |t|
    ensures j < |t| ==> !IsSpace(t[j])
    ensures forall k :: i <= k < j ==> IsSpace(t[k])
    decreases |t| - i
  {
    if i < |t| && IsSpace(t[i]) then SkipSpace(t, i + 1) else i
  }

  predicate FenceAt(t: string, i: nat) {
    i + 3 <= |t| && t[i..i + 3] == "```"
  }

  /** Where the optional `json` tag and the white space after an opening fence at `p` end. */
  function AfterOpenFence(t: string, p: nat): (s: nat)
    requires FenceAt(t, p)
    ensures p + 3 <= s <= |t|
  {
    var q := p + 3;
    SkipSpace(t, if q + 4 <= |t| && t[q..q + 4] == "json" then q + 4 else q)
  }

  /** The first `}` at or after `e` that is followed by white space and a closing fence. */
  function ClosingBraceFrom(t: string, e: nat): (r: Option<nat>)
    ensures r.Some? ==> e <= r.value < |t| && t[r.value] == '}'
    decreases |t| - e
  {
    if e >= |t| then None
    else if t[e] == '}' && FenceAt(t, SkipSpace(t, e + 1)) then Some(e)
    else ClosingBraceFrom(t, e + 1)
  }

  /** Group 1 of the leftmost match of  ```(?:json)?\s*(\{[\s\S]*?\})\s*```  at or after `p`. */
  function FencedObjectFrom(t: string, p: nat): (r: Option<string>)
    ensures r.Some? ==> |r.value| >= 2 && r.value[0] == '{' && r.value[|r.value| - 1] == '}'
    decreases |t| - p
  {
    if p >= |t| then None
    else if FenceAt(t, p) then
      var b := AfterOpenFence(t, p);
      if b < |t| && t[b] == '{' then
        match ClosingBraceFrom(t, b + 1)
        case Some(e) => Some(t[b..e + 1])
        case None => FencedObjectFrom(t, p + 1)
      else FencedObjectFrom(t, p + 1)
    else FencedObjectFrom(t, p + 1)
  }

  function FencedObject(t: string): Option<string> {
    FencedObjectFrom(t, 0)
  }

  function FirstIndexOf(t: string, c: char): (r: Option<nat>)
    ensures r.Some? ==> r.value < |t| && t[r.value] == c && forall k :: 0 <= k < r.value ==> t[k] != c
    ensures r.None? ==> forall k :: 0 <= k < |t| ==> t[k] != c
  {
    if |t| == 0 then None
    else if t[0] == c then Some(0)
    else match FirstIndexOf(t[1..], c)
      case Some(k) => Some(k + 1)
      case None => None
  }

  function LastIndexOf(t: string, c: char): (r: Option<nat>)
    ensures r.Some? ==> r.value < |t| && t[r.value] == c && forall k :: r.value < k < |t| ==> t[k] != c
    ensures r.None? ==> forall k :: 0 <= k < |t| ==> t[k] != c
  {
    if |t| == 0 then None
    else if t[|t| - 1] == c then Some(|t| - 1)
    else LastIndexOf(t[..|t| - 1], c)
  }

  /**
   * The match of  \{[\s\S]*\}  : from the first `{` to the last `}`, when
   * that `}` comes after the `{`. No brace matching is done.
   */
  function GreedyObject(t: string): (r: Option<string>)
    ensures r.Some? ==> exists f, l :: 0 <= f < l < |t| && r.value == t[f..l + 1]
                          && t[f] == '{' && t[l] == '}'
                          && (forall k :: 0 <= k < f ==> t[k] != '{')
                          && (forall k :: l < k < |t| ==> t[k] != '}')
    ensures r.None? ==> forall f, l :: 0 <= f < l < |t| && t[f] == '{' ==> t[l] != '}'
  {
    match FirstIndexOf(t, '{')
    case None => None
    case Some(f) =>
      match LastIndexOf(t, '}')
      case None => None
      case Some(l) => if f < l then Some(t[f..l + 1]) else None
  }

  /**
   * parseJSONResponse: whole-text parse, then the fenced block, then the
   * greedy object match. A failed fenced parse falls through; a failed
   * greedy parse is final.
   */
  function ParseJsonResponse(text: string, parse: JsonParser): (r: Result<Value>)
    ensures parse(Trim(text)).Ok? ==> r == parse(Trim(text))
    ensures r.Ok? ==> r == parse(Trim(text))
                       || (FencedObject(text).Some? && r == parse(Trim(FencedObject(text).value)))
                       || (GreedyObject(text).Some? && r == parse(GreedyObject(text).value))
    ensures parse(Trim(text)).Err? && FencedObject(text).Some? && parse(Trim(FencedObject(text).value)).Ok? ==>
              r == parse(Trim(FencedObject(text).value))
    ensures parse(Trim(text)).Err? && (FencedObject(text).None? || parse(Trim(FencedObject(text).value)).Err?)
            && GreedyObject(text).Some? ==>
              r == (match parse(GreedyObject(text).value)
                    case Ok(v) => Ok(v)
                    case Err(e) => Err("JSON parse failed: " + e))
    ensures parse(Trim(text)).Err? && (FencedObject(text).None? || parse(Trim(FencedObject(text).value)).Err?)
            && GreedyObject(text).None? ==>
              r == Err("No valid JSON structure found")
  {
    match parse(Trim(text))
    case Ok(v) => Ok(v)
    case Err(_) =>
      var fenced := match FencedObject(text)
                    case Some(block) => parse(Trim(block))
                    case None => Err("");
      if fenced.Ok? then fenced
      else match GreedyObject(text)
        case Some(candidate) =>
          (match parse(candidate)
           case Ok(v) => Ok(v)
           case Err(e) => Err("JSON parse failed: " + e))
        case None => Err("No valid JSON structure found")
  }

  // ---------------------------------------------------------------------
  // Regular expressions of parseRegexResponse

  /** The index of the first `]` at or after `k`. */
  function CloseBracketFrom(t: string, k: nat): (r: Option<nat>)
    ensures r.Some? ==> k <= r.value < |t| && t[r.value] == ']'
                        && forall m :: k <= m < r.value ==> t[m] != ']'
    ensures r.None? ==> forall m :: k <= m < |t| ==> t[m] != ']'
    decreases |t| - k
  {
    if k >= |t| then None
    else if t[k] == ']' then Some(k)
    else CloseBracketFrom(t, k + 1)
  }

  /**
   * Group 1 of  \s*<sep>\s*\[(.*?)\]  (with the `s` flag) when it matches
   * at position `j`.
   */
  function ArrayTailAt(t: string, j: nat, sep: char): Option<string>
    requires j <= |t|
  {
    var a := SkipSpace(t, j);
    if a < |t| && t[a] == sep then
      var b := SkipSpace(t, a + 1);
      if b < |t| && t[b] == '[' then
        match CloseBracketFrom(t, b + 1)
        case Some(c) => Some(t[b + 1..c])
        case None => None
      else None
    else None
  }

  /** Group 1 of the leftmost match of  <key>\s*<sep>\s*\[(.*?)\]  at or after `i`. */
  function KeyArrayFrom(t: string, key: string, sep: char, i: nat): Option<string>
    decreases |t| - i
  {
    if i + |key| > |t| then None
    else if t[i..i + |key|] == key && ArrayTailAt(t, i + |key|, sep).Some? then
      ArrayTailAt(t, i + |key|, sep)
    else KeyArrayFrom(t, key, sep, i + 1)
  }

  function KeyArray(t: string, key: string, sep: char): Option<string> {
    KeyArrayFrom(t, key, sep, 0)
  }

  /** `a || b || c` over three match attempts. */
  function FirstMatch(a: Option<string>, b: Option<string>, c: Option<string>): Option<string> {
    if a.Some? then a else if b.Some? then b else c
  }

  /** The three patterns tried, in order, for the `lines` and `distractors` fields. */
  function FieldArray(t: string, name: string): Option<string> {
    FirstMatch(KeyArray(t, "\"" + name + "\"", ':'), KeyArray(t, name, ':'), KeyArray(t, name, '='))
  }

  predicate LowerAt(t: string, i: nat, word: string) {
    i + |word| <= |t| && ToLower(t[i..i + |word|]) == word
  }

  /** The smallest `k >= from` at which  order\s*:\s*\[(.*?)\]  matches, case-insensitively. */
  function OrderTailFrom(t: string, from: nat): Option<string>
    decreases |t| - from
  {
    if from + 5 > |t| then None
    else if LowerAt(t, from, "order") && ArrayTailAt(t, from + 5, ':').Some? then
      ArrayTailAt(t, from + 5, ':')
    else OrderTailFrom(t, from + 1)
  }

  /** Group 1 of the leftmost match of  /solution.*?order\s*:\s*\[(.*?)\]/is  at or after `i`. */
  function LooseOrderFrom(t: string, i: nat): Option<string>
    decreases |t| - i
  {
    if i + 8 > |t| then None
    else if LowerAt(t, i, "solution") && OrderTailFrom(t, i + 8).Some? then
      OrderTailFrom(t, i + 8)
    else LooseOrderFrom(t, i + 1)
  }

  /** The four patterns tried, in order, for the `solutionOrder` field. */
  function OrderArray(t: string): Option<string> {
    var strict := FieldArray(t, "solutionOrder");
    if strict.Some? then strict else LooseOrderFrom(t, 0)
  }

  /** The values of the maximal runs of ASCII digits, as  /\d+/g  finds them. */
  function DigitRuns(s: string): (r: seq<nat>)
    ensures |r| <= |s|
    decreases |s|
  {
    if s == [] then []
    else if IsDigit(s[0]) then
      var k := LeadingDigits(s);
      [DigitsValue(s[..k])] + DigitRuns(s[k..])
    else DigitRuns(s[1..])
  }

  /** A minus sign is not a digit, so `-1` reads as the index 1. */
  lemma MinusSignDropped()
    ensures DigitRuns("[-1]") == [1]
  {
    assert LeadingDigits("1]") == 1;
    assert "[-1]"[1..] == "-1]";
    assert "-1]"[1..] == "1]";
    assert "1]"[..1] == "1";
    assert "1]"[1..] == "]";
    assert "]"[1..] == [];
  }

  // ---------------------------------------------------------------------
  // extractArrayItems

  predicate IsLineTerminator(c: char) {
    c == '\n' || c == '\r' || c == '\U{2028}' || c == '\U{2029}'
  }

  /**
   * Where a quoted string whose body starts at `q` closes: the first
   * unescaped `quote`. A backslash escapes any character but a line
   * terminator; `None` when the string never closes.
   */
  function QuotedEnd(t: string, q: nat, quote: char): (r: Option<nat>)
    ensures r.Some? ==> q <= r.value < |t| && t[r.value] == quote
    decreases |t| - q
  {
    if q >= |t| then None
    else if t[q] == quote then Some(q)
    else if t[q] == '\\' then
      (if q + 1 < |t| && !IsLineTerminator(t[q + 1]) then QuotedEnd(t, q + 2, quote) else None)
    else QuotedEnd(t, q + 1, quote)
  }

  /** `s.replace(/<from>/g, to)` for a literal `from`. */
  function ReplaceAll(s: string, from: string, to: string): string
    requires |from| > 0
    decreases |s|
  {
    if |s| == 0 then ""
    else if StartsWith(s, from) then to + ReplaceAll(s[|from|..], from, to)
    else [s[0]] + ReplaceAll(s[1..], from, to)
  }

  function UnescapeDoubleQuoted(body: string): string {
    ReplaceAll(ReplaceAll(ReplaceAll(body, "\\\"", "\""), "\\n", "\n"), "\\\\", "\\")
  }

  function UnescapeSingleQuoted(body: string): string {
    ReplaceAll(ReplaceAll(ReplaceAll(body, "\\'", "'"), "\\n", "\n"), "\\\\", "\\")
  }

  /**
   * The item pattern  "(...)"|'(...)'|(\d+)  tried at exactly `pos`: the
   * value pushed and where the match ends.
   */
  function ItemAt(t: string, pos: nat): (r: Option<(Value, nat)>)
    requires pos < |t|
    ensures r.Some? ==> pos < r.value.1 <= |t|
  {
    if t[pos] == '"' then
      match QuotedEnd(t, pos + 1, '"')
      case Some(e) => Some((Str(UnescapeDoubleQuoted(t[pos + 1..e])), e + 1))
      case None => None
    else if t[pos] == '\'' then
      match QuotedEnd(t, pos + 1, '\'')
      case Some(e) => Some((Str(UnescapeSingleQuoted(t[pos + 1..e])), e + 1))
      case None => None
    else if IsDigit(t[pos]) then
      var k := LeadingDigits(t[pos..]);
      Some((Num(DigitsValue(t[pos..][..k]) as real), pos + k))
    else None
  }

  /** The leftmost item match at or after `pos` (one `regex.exec` step). */
  function NextItem(t: string, pos: nat): (r: Option<(Value, nat)>)
    ensures r.Some? ==> pos < r.value.1 <= |t|
    decreases |t| - pos
  {
    if pos >= |t| then None
    else match ItemAt(t, pos)
      case Some(m) => Some(m)
      case None => NextItem(t, pos + 1)
  }

  /** Every item the global pattern finds from `pos` on, in order. */
  function ScanItems(t: string, pos: nat): seq<Value>
    decreases |t| - pos
  {
    match NextItem(t, pos)
    case None => []
    case Some((v, e)) => [v] + ScanItems(t, e)
  }

  /**
   * extractArrayItems as a function: empty after trimming gives no items,
   * else the text wrapped in brackets is parsed as JSON, else the items
   * are scanned out of it.
   */
  function ArrayItems(arrayStr: string, parse: JsonParser): seq<Value> {
    var trimmed := Trim(arrayStr);
    if trimmed == "" then []
    else match parse("[" + trimmed + "]")
      case Ok(v) => v.items
      case Err(_) => ScanItems(trimmed, 0)
  }

  /** extractArrayItems: the `regex.exec` loop pushes each match in turn. */
  method ExtractArrayItems(arrayStr: string, parse: JsonParser) returns (items: seq<Value>)
    ensures items == ArrayItems(arrayStr, parse)
    ensures Trim(arrayStr) == "" ==> items == []
    ensures Trim(arrayStr) != "" && parse("[" + Trim(arrayStr) + "]").Err? ==> items == ScanItems(Trim(arrayStr), 0)
  {
    items := [];
    var trimmed := Trim(arrayStr);
    if trimmed == "" {
      return;
    }
    var parsed := parse("[" + trimmed + "]");
    if parsed.Ok? {
      assert ("[" + trimmed + "]")[0] == '[';
      return parsed.value.items;
    }
    var pos := 0;
    while true
      invariant pos <= |trimmed|
      invariant items + ScanItems(trimmed, pos) == ScanItems(trimmed, 0)
      decreases |trimmed| - pos
    {
      var m := NextItem(trimmed, pos);
      if m.None? {
        break;
      }
      items := items + [m.value.0];
      pos := m.value.1;
    }
  }

  // ---------------------------------------------------------------------
  // parseRegexResponse

  /** `result.solutionOrder`: the digit runs of the captured order text, as numbers. */
  function OrderNumbers(t: string): seq<Value> {
    match OrderArray(t)
    case Some(orderStr) => IntValues(DigitRuns(Trim(orderStr)))
    case None => []
  }

  function FieldItems(t: string, name: string, parse: JsonParser): seq<Value> {
    match FieldArray(t, name)
    case Some(arrayStr) => ArrayItems(arrayStr, parse)
    case None => []
  }

  function RegexRecord(lines: seq<Value>, distractors: seq<Value>, order: seq<Value>): Value {
    Obj(map["lines" := Arr(lines), "distractors" := Arr(distractors), "solutionOrder" := Arr(order)])
  }

  /** parseRegexResponse as a function. */
  function RegexFallback(text: string, parse: JsonParser): (r: Result<Value>)
    ensures r.Err? <==> FieldItems(text, "lines", parse) == [] && FieldItems(text, "distractors", parse) == []
                        && OrderNumbers(text) == []
  {
    var lines := FieldItems(text, "lines", parse);
    var distractors := FieldItems(text, "distractors", parse);
    var order := OrderNumbers(text);
    if |lines| > 0 || |distractors| > 0 || |order| > 0 then Ok(RegexRecord(lines, distractors, order))
    else Err("Could not extract puzzle data using regex patterns")
  }

  /** parseRegexResponse: fills the result record field by field. */
  method ParseRegexResponse(text: string, parse: JsonParser) returns (r: Result<Value>)
    ensures r == RegexFallback(text, parse)
  {
    var lines: seq<Value> := [];
    var distractors: seq<Value> := [];
    var order: seq<Value> := [];
    var linesMatch := FieldArray(text, "lines");
    if linesMatch.Some? {
      lines := ExtractArrayItems(linesMatch.value, parse);
    }
    var distractorsMatch := FieldArray(text, "distractors");
    if distractorsMatch.Some? {
      distractors := ExtractArrayItems(distractorsMatch.value, parse);
    }
    var orderMatch := OrderArray(text);
    if orderMatch.Some? {
      var numbers := DigitRuns(Trim(orderMatch.value));
      if |numbers| > 0 {
        order := IntValues(numbers);
      }
    }
    assert lines == FieldItems(text, "lines", parse);
    assert distractors == FieldItems(text, "distractors", parse);
    assert order == OrderNumbers(text);
    if |lines| > 0 || |distractors| > 0 || |order| > 0 {
      return Ok(RegexRecord(lines, distractors, order));
    }
    return Err("Could not extract puzzle data using regex patterns");
  }

  // ---------------------------------------------------------------------
  // validateParsedData

  /** Drops null and undefined, applies `String(x).trim()`, drops empty strings. */
  function CleanStrings(xs: seq<Value>): (r: seq<string>)
    ensures |r| <= |xs|
    ensures forall j :: 0 <= j < |r| ==> r[j] != "" && !IsSpace(r[j][0]) && !IsSpace(r[j][|r[j]| - 1])
  {
    if xs == [] then []
    else
      var rest := CleanStrings(xs[1..]);
      if IsNullish(xs[0]) then rest
      else
        var t := Trim(ToStr(xs[0]));
        if t == "" then rest else [t] + rest
  }

  /** The cleaning keeps order: it distributes over concatenation. */
  lemma {:induction false} CleanStringsAppend(a: seq<Value>, b: seq<Value>)
    ensures CleanStrings(a + b) == CleanStrings(a) + CleanStrings(b)
  {
    if a == [] {
      assert a + b == b;
    } else {
      assert (a + b)[1..] == a[1..] + b;
      CleanStringsAppend(a[1..], b);
    }
  }

  /** One element is kept, as its trimmed string, exactly when it is not nullish and not blank. */
  lemma CleanStringsSingle(x: Value)
    ensures CleanStrings([x]) == if IsNullish(x) || Trim(ToStr(x)) == "" then [] else [Trim(ToStr(x))]
  {
    assert [x][1..] == [];
  }

  /** `Number(n)` of each element. */
  function NumbersOf(xs: seq<Value>): (r: seq<Numeric>)
    ensures |r| == |xs| && forall i :: 0 <= i < |xs| ==> r[i] == ToNumber(xs[i])
  {
    seq(|xs|, i requires 0 <= i < |xs| => ToNumber(xs[i]))
  }

  /**
   * `.filter(n => !isNaN(n) && n >= 0 && n < count)`: no integrality test.
   * Only finite numbers pass, since each infinity fails one comparison.
   */
  function InRangeNumbers(ns: seq<Numeric>, count: nat): (r: seq<real>)
    ensures |r| <= |ns|
    ensures forall j :: 0 <= j < |r| ==> 0.0 <= r[j] < count as real
  {
    if ns == [] then []
    else
      var rest := InRangeNumbers(ns[1..], count);
      if !ns[0].NaN? && AtLeast(ns[0], Finite(0.0)) && Less(ns[0], Finite(count as real)) then [ns[0].r] + rest
      else rest
  }

  /** The filter keeps order: it distributes over concatenation. */
  lemma {:induction false} InRangeNumbersAppend(a: seq<Numeric>, b: seq<Numeric>, count: nat)
    ensures InRangeNumbers(a + b, count) == InRangeNumbers(a, count) + InRangeNumbers(b, count)
  {
    if a == [] {
      assert a + b == b;
    } else {
      assert (a + b)[1..] == a[1..] + b;
      InRangeNumbersAppend(a[1..], b, count);
    }
  }

  /**
   * What every accepted candidate satisfies: at least one line, none blank
   * or padded, and a non-empty order whose entries index the lines.
   */
  predicate WellFormed(c: Candidate) {
    && |c.lines| > 0
    && (forall j :: 0 <= j < |c.lines| ==>
          c.lines[j] != "" && !IsSpace(c.lines[j][0]) && !IsSpace(c.lines[j][|c.lines[j]| - 1]))
    && |c.solutionOrder| > 0
    && (forall j :: 0 <= j < |c.solutionOrder| ==> 0.0 <= c.solutionOrder[j] < |c.lines| as real)
  }

  /** The indices the second range check would reject. */
  function OutOfRange(ns: seq<real>, count: nat): seq<real> {
    if ns == [] then []
    else (if ns[0] < 0.0 || ns[0] >= count as real then [ns[0]] else []) + OutOfRange(ns[1..], count)
  }

  const ParsedNotObject := "Parsed data is not an object"
  const LinesMissing := "Missing or invalid \"lines\" array"
  const LinesEmpty := "\"lines\" array is empty"
  const OrderMissing := "Missing or invalid \"solutionOrder\" array"
  const OrderEmpty := "\"solutionOrder\" array is empty or invalid"

  /** validateParsedData: normalises a parsed record or throws. */
  function ValidateParsedData(data: Value): (r: Result<Candidate>)
    ensures !(data.Obj? || data.Arr?) ==> r == Err(ParsedNotObject)
    ensures r.Ok? ==> WellFormed(r.value)
    ensures r.Ok? ==> Get(data, "lines").Arr? && r.value.lines == CleanStrings(Get(data, "lines").items)
    ensures r.Ok? ==> r.value.distractors == (if Get(data, "distractors").Arr?
                                              then CleanStrings(Get(data, "distractors").items) else [])
    ensures r.Ok? ==> Get(data, "solutionOrder").Arr? && r.value.solutionOrder
                      == InRangeNumbers(NumbersOf(Get(data, "solutionOrder").items), |r.value.lines|)
    ensures r.Ok? ==> r.value.problem == Or(Get(data, "problem"), Str(""))
                      && r.value.hint == Or(Get(data, "hint"), Str(""))
  {
    if !(data.Obj? || data.Arr?) then Err(ParsedNotObject)
    else
      var rawLines := Get(data, "lines");
      if !rawLines.Arr? then Err(LinesMissing)
      else
        var lines := CleanStrings(rawLines.items);
        if lines == [] then Err(LinesEmpty)
        else
          var rawDistractors := Get(data, "distractors");
          var distractors := if rawDistractors.Arr? then CleanStrings(rawDistractors.items) else [];
          var rawOrder := Get(data, "solutionOrder");
          if !rawOrder.Arr? then Err(OrderMissing)
          else
            var order := InRangeNumbers(NumbersOf(rawOrder.items), |lines|);
            if order == [] then Err(OrderEmpty)
            else
              var invalid := OutOfRange(order, |lines|);
              if invalid != [] then
                Err("Invalid indices in solutionOrder: " + JoinValues(RealsToValues(invalid), ", ")
                    + ". Valid range: 0-" + IntToString(|lines| - 1))
              else
                Ok(Candidate(lines, distractors, order,
                             Or(Get(data, "problem"), Str("")), Or(Get(data, "hint"), Str(""))))
  }

  function RealsToValues(ns: seq<real>): seq<Value> {
    seq(|ns|, i requires 0 <= i < |ns| => Num(ns[i]))
  }

  lemma {:induction false} NoneOutOfRange(ns: seq<real>, count: nat)
    requires forall j :: 0 <= j < |ns| ==> 0.0 <= ns[j] < count as real
    ensures OutOfRange(ns, count) == []
  {
    if ns != [] {
      NoneOutOfRange(ns[1..], count);
    }
  }

  /**
   * The second range check of validateParsedData can never fire: every
   * failure is one of the five guard messages.
   */
  lemma ValidateParsedDataErrors(data: Value)
    ensures ValidateParsedData(data).Err? ==>
              ValidateParsedData(data).message in {ParsedNotObject, LinesMissing, LinesEmpty, OrderMissing, OrderEmpty}
  {
    if data.Obj? || data.Arr? {
      var rawLines := Get(data, "lines");
      if rawLines.Arr? {
        var lines := CleanStrings(rawLines.items);
        var rawOrder := Get(data, "solutionOrder");
        if lines != [] && rawOrder.Arr? {
          NoneOutOfRange(InRangeNumbers(NumbersOf(rawOrder.items), |lines|), |lines|);
        }
      }
    }
  }

  /** A fractional index inside the range survives the parser's filter. */
  lemma FractionalIndexKept()
    ensures InRangeNumbers([Finite(0.5)], 2) == [0.5]
  {
  }

  // ---------------------------------------------------------------------
  // validateAndParseLLMResponse

  const InvalidInput := "Invalid input: rawText must be a non-empty string"

  /** The error reported when both strategies fail: both messages and the first 500 code units. */
  function FailureMessage(jsonError: string, regexError: string, text: string): string {
    "Failed to parse LLM response. JSON error: " + jsonError + ". Regex error: " + regexError
    + ". Content preview: " + UnitPrefix(text, 500)
  }

  /** Chains a parse strategy into the normalisation, as one `try` block does. */
  function Validated(parsed: Result<Value>): Result<Candidate> {
    match parsed
    case Ok(v) => ValidateParsedData(v)
    case Err(e) => Err(e)
  }

  /** validateAndParseLLMResponse as a function: the JSON strategies, then the regex fallback. */
  function ParseLLMResponse(rawText: Value, parse: JsonParser): (r: Result<Candidate>)
    ensures !(rawText.Str? && rawText.s != "") ==> r == Err(InvalidInput)
    ensures r.Ok? ==> WellFormed(r.value)
    ensures rawText.Str? && rawText.s != "" && Validated(ParseJsonResponse(rawText.s, parse)).Err?
            && Validated(RegexFallback(rawText.s, parse)).Err? ==>
              r == Err(FailureMessage(Validated(ParseJsonResponse(rawText.s, parse)).message,
                                      Validated(RegexFallback(rawText.s, parse)).message, rawText.s))
  {
    if !(rawText.Str? && rawText.s != "") then Err(InvalidInput)
    else
      var text := rawText.s;
      var first := Validated(ParseJsonResponse(text, parse));
      if first.Ok? then first
      else
        var second := Validated(RegexFallback(text, parse));
        if second.Ok? then second
        else Err(FailureMessage(first.message, second.message, text))
  }

  /** validateAndParseLLMResponse */
  method ValidateAndParseLLMResponse(rawText: Value, parse: JsonParser) returns (r: Result<Candidate>)
    ensures r == ParseLLMResponse(rawText, parse)
    ensures !(rawText.Str? && rawText.s != "") ==> r == Err(InvalidInput)
  {
    if !(rawText.Str? && rawText.s != "") {
      return Err(InvalidInput);
    }
    var text := rawText.s;
    var first := Validated(ParseJsonResponse(text, parse));
    if first.Ok? {
      return first;
    }
    var regexData := ParseRegexResponse(text, parse);
    var second := Validated(regexData);
    if second.Ok? {
      return second;
    }
    return Err(FailureMessage(first.message, second.message, text));
  }

  // ---------------------------------------------------------------------
  // Properties of the parsing cascade

  /** Text that parses as JSON and validates is taken as it is; no other strategy runs. */
  lemma DirectJsonWins(text: string, parse: JsonParser, data: Value)
    requires text != "" && parse(Trim(text)) == Ok(data) && ValidateParsedData(data).Ok?
    ensures ParseLLMResponse(Str(text), parse) == ValidateParsedData(data)
  {
  }

  /** A key pattern cannot match text that lacks one of the key's characters. */
  lemma {:induction false} KeyAbsent(t: string, key: string, sep: char, i: nat, c: char)
    requires c in key && c !in t
    ensures KeyArrayFrom(t, key, sep, i) == None
    decreases |t| - i
  {
    if i + |key| <= |t| {
      var m :| 0 <= m < |key| && key[m] == c;
      assert t[i..i + |key|][m] == t[i + m] != c;
      KeyAbsent(t, key, sep, i + 1, c);
    }
  }

  /** None of a field's three patterns matches text lacking a double quote and one of the name's characters. */
  lemma FieldAbsent(t: string, name: string, c: char)
    requires '"' !in t && c in name && c !in t
    ensures FieldArray(t, name) == None
  {
    KeyAbsent(t, "\"" + name + "\"", ':', 0, '"');
    KeyAbsent(t, name, ':', 0, c);
    KeyAbsent(t, name, '=', 0, c);
  }

  /** Without a backtick there is no fenced block. */
  lemma {:induction false} FenceAbsent(t: string, p: nat)
    requires '`' !in t
    ensures FencedObjectFrom(t, p) == None
    decreases |t| - p
  {
    if p < |t| {
      assert p + 3 <= |t| ==> t[p..p + 3][0] == t[p] != '`';
      FenceAbsent(t, p + 1);
    }
  }

  /** Without a `u` in either case the loose `solution ... order` pattern cannot match. */
  lemma {:induction false} LooseOrderAbsent(t: string, i: nat)
    requires 'u' !in t && 'U' !in t
    ensures LooseOrderFrom(t, i) == None
    decreases |t| - i
  {
    if i + 8 <= |t| {
      NoSolutionAt(t, i);
      LooseOrderAbsent(t, i + 1);
    }
  }

  /** `solution` cannot start where the fourth character is no `u` in either case. */
  lemma NoSolutionAt(t: string, i: nat)
    requires i + 8 <= |t| && t[i + 3] != 'u' && t[i + 3] != 'U'
    ensures !LowerAt(t, i, "solution")
  {
    assert ToLower(t[i..i + 8])[3] == LowerChar(t[i + 3]) != 'u';
  }

  /** Text with no brace and no backtick that is not JSON as a whole offers no JSON structure. */
  lemma NoJsonStructure(t: string, parse: JsonParser)
    requires '`' !in t && '{' !in t && parse(Trim(t)).Err?
    ensures ParseJsonResponse(t, parse) == Err("No valid JSON structure found")
  {
    FenceAbsent(t, 0);
    assert GreedyObject(t) == None;
  }

  /**
   * Text without a double quote, an `e`, an `r` or a `u` in either case
   * names none of the three fields, so the regex fallback finds nothing.
   */
  lemma NoFieldNames(t: string, parse: JsonParser)
    requires '"' !in t && 'e' !in t && 'r' !in t && 'u' !in t && 'U' !in t
    ensures RegexFallback(t, parse) == Err("Could not extract puzzle data using regex patterns")
  {
    FieldAbsent(t, "lines", 'e');
    FieldAbsent(t, "distractors", 'r');
    FieldAbsent(t, "solutionOrder", 'u');
    LooseOrderAbsent(t, 0);
    assert FieldItems(t, "lines", parse) == [];
    assert FieldItems(t, "distractors", parse) == [];
    assert OrderNumbers(t) == [];
  }

  /** Prose with neither JSON nor field names is rejected, quoting both strategies and the text. */
  lemma ProseRejected(t: string, parse: JsonParser)
    requires t != "" && '`' !in t && '{' !in t && parse(Trim(t)).Err?
    requires '"' !in t && 'e' !in t && 'r' !in t && 'u' !in t && 'U' !in t
    ensures ParseLLMResponse(Str(t), parse)
            == Err(FailureMessage("No valid JSON structure found", "Could not extract puzzle data using regex patterns", t))
  {
    NoJsonStructure(t, parse);
    NoFieldNames(t, parse);
    assert Validated(ParseJsonResponse(t, parse)) == Err("No valid JSON structure found");
    assert Validated(RegexFallback(t, parse)) == Err("Could not extract puzzle data using regex patterns");
  }

  /** No `x` in `s` is directly followed by `y`. */
  predicate NoPair(s: string, x: char, y: char) {
    forall j :: 0 <= j < |s| - 1 ==> s[j] != x || s[j + 1] != y
  }

  lemma NoPairAppend(a: string, b: string, x: char, y: char)
    requires NoPair(a, x, y) && NoPair(b, x, y)
    requires |a| > 0 ==> a[|a| - 1] != x
    ensures NoPair(a + b, x, y)
  {
    var s := a + b;
    forall j | 0 <= j < |s| - 1 ensures s[j] != x || s[j + 1] != y {
      if j < |a| - 1 {
        assert s[j] == a[j] && s[j + 1] == a[j + 1];
      } else if j == |a| - 1 {
        assert s[j] == a[j];
      } else {
        assert s[j] == b[j - |a|] && s[j + 1] == b[j + 1 - |a|];
      }
    }
  }

  /** A quoted key cannot match where no double quote is followed by the name's first letter. */
  lemma {:induction false} QuotedKeyAbsent(t: string, name: string, sep: char, i: nat)
    requires |name| > 0 && NoPair(t, '"', name[0])
    ensures KeyArrayFrom(t, "\"" + name + "\"", sep, i) == None
    decreases |t| - i
  {
    var key := "\"" + name + "\"";
    if i + |key| <= |t| {
      assert t[i..i + |key|] != key by {
        assert key[0] == '"' && key[1] == name[0];
        assert t[i..i + |key|][0] == t[i] && t[i..i + |key|][1] == t[i + 1];
      }
      QuotedKeyAbsent(t, name, sep, i + 1);
    }
  }

  /**
   * The leftmost match of a key pattern is at `p` when the key and its
   * array follow there and no earlier position starts the key's first two
   * characters.
   */
  lemma {:induction false} KeyFirstAt(t: string, key: string, sep: char, i: nat, p: nat)
    requires |key| >= 2 && i <= p && p + |key| <= |t| && t[p..p + |key|] == key
    requires ArrayTailAt(t, p + |key|, sep).Some?
    requires forall j :: i <= j < p ==> t[j] != key[0] || t[j + 1] != key[1]
    ensures KeyArrayFrom(t, key, sep, i) == ArrayTailAt(t, p + |key|, sep)
    decreases p - i
  {
    if i < p {
      assert t[i..i + |key|][0] == t[i] && t[i..i + |key|][1] == t[i + 1];
      KeyFirstAt(t, key, sep, i + 1, p);
    }
  }

  /**
   * A piece `a` of the text that reads `<key><sep> [<body>]`, with no `]`
   * inside the body: there the array pattern captures the body.
   */
  lemma ArrayTailIn(t: string, pre: string, a: string, rest: string, key: string, body: string, sep: char)
    requires t == pre + a + rest && !IsSpace(sep)
    requires |key| + 4 + |body| <= |a| && a[..|key|] == key
    requires a[|key|] == sep && a[|key| + 1] == ' ' && a[|key| + 2] == '['
    requires a[|key| + 3..|key| + 3 + |body|] == body && a[|key| + 3 + |body|] == ']'
    requires forall m :: |key| + 3 <= m < |key| + 3 + |body| ==> a[m] != ']'
    ensures t[|pre|..|pre| + |key|] == key
    ensures ArrayTailAt(t, |pre| + |key|, sep) == Some(body)
  {
    var p := |pre|;
    var j := p + |key|;
    assert t[p..p + |a|] == a;
    assert t[p..p + |key|] == a[..|key|];
    assert t[j] == sep && t[j + 1] == ' ' && t[j + 2] == '[';
    assert SkipSpace(t, j) == j;
    assert SkipSpace(t, j + 2) == j + 2;
    assert SkipSpace(t, j + 1) == j + 2;
    var e := j + 3 + |body|;
    assert t[e] == ']';
    forall m | j + 3 <= m < e ensures t[m] != ']' {
      assert t[m] == a[m - p];
    }
    assert CloseBracketFrom(t, j + 3) == Some(e);
    assert t[j + 3..e] == a[|key| + 3..|key| + 3 + |body|];
  }

  /** The reply of the regex-fallback test, cut after each field's array. */
  lemma SampleSplit(t: string)
    requires t == "lines: [\"x\",\"y\"], distractors: [\"z\"], solutionOrder: [0,1]"
    ensures t == "lines: [\"x\",\"y\"], " + "distractors: [\"z\"], " + "solutionOrder: [0,1]"
  {
  }

  lemma SampleLinesPiece(a: string)
    requires a == "lines: [\"x\",\"y\"], "
    ensures a[..5] == "lines" && a[5] == ':' && a[6] == ' ' && a[7] == '['
    ensures a[8..15] == "\"x\",\"y\"" && a[15] == ']'
    ensures forall m :: 8 <= m < 15 ==> a[m] != ']'
    ensures NoPair(a, '"', 'l') && NoPair(a, '"', 'd') && NoPair(a, '"', 's') && NoPair(a, 's', 'o')
    ensures 'd' !in a && a[|a| - 1] == ' ' && !IsSpace(a[0])
    ensures '{' !in a && '`' !in a
  {
    SampleLinesPairs(a);
    SampleLinesAbsent(a);
  }

  lemma SampleLinesPairs(a: string)
    requires a == "lines: [\"x\",\"y\"], "
    ensures NoPair(a, '"', 'l') && NoPair(a, '"', 'd') && NoPair(a, '"', 's') && NoPair(a, 's', 'o')
  {
  }

  lemma SampleLinesAbsent(a: string)
    requires a == "lines: [\"x\",\"y\"], "
    ensures 'd' !in a && '{' !in a && '`' !in a
  {
  }

  lemma SampleDistractorsPiece(b: string)
    requires b == "distractors: [\"z\"], "
    ensures b[..11] == "distractors" && b[11] == ':' && b[12] == ' ' && b[13] == '['
    ensures b[14..17] == "\"z\"" && b[17] == ']'
    ensures forall m :: 14 <= m < 17 ==> b[m] != ']'
    ensures NoPair(b, '"', 'l') && NoPair(b, '"', 'd') && NoPair(b, '"', 's') && NoPair(b, 's', 'o')
    ensures b[|b| - 1] == ' '
    ensures '{' !in b && '`' !in b
  {
    SampleDistractorsPairs(b);
    SampleDistractorsAbsent(b);
  }

  lemma SampleDistractorsPairs(b: string)
    requires b == "distractors: [\"z\"], "
    ensures NoPair(b, '"', 'l') && NoPair(b, '"', 'd') && NoPair(b, '"', 's') && NoPair(b, 's', 'o')
  {
  }

  lemma SampleDistractorsAbsent(b: string)
    requires b == "distractors: [\"z\"], "
    ensures '{' !in b && '`' !in b
  {
  }

  lemma SampleOrderPiece(c: string)
    requires c == "solutionOrder: [0,1]"
    ensures c[..13] == "solutionOrder" && c[13] == ':' && c[14] == ' ' && c[15] == '['
    ensures c[16..19] == "0,1" && c[19] == ']'
    ensures forall m :: 16 <= m < 19 ==> c[m] != ']'
    ensures NoPair(c, '"', 'l') && NoPair(c, '"', 'd') && NoPair(c, '"', 's')
    ensures !IsSpace(c[|c| - 1])
    ensures '{' !in c && '`' !in c
  {
    SampleOrderPairs(c);
    SampleOrderAbsent(c);
  }

  lemma SampleOrderPairs(c: string)
    requires c == "solutionOrder: [0,1]"
    ensures NoPair(c, '"', 'l') && NoPair(c, '"', 'd') && NoPair(c, '"', 's')
  {
  }

  lemma SampleOrderAbsent(c: string)
    requires c == "solutionOrder: [0,1]"
    ensures '{' !in c && '`' !in c
  {
  }

  /** No double quote in the sample is followed by the first letter of a field name. */
  lemma SampleQuotes(t: string, a: string, b: string, c: string)
    requires a == "lines: [\"x\",\"y\"], " && b == "distractors: [\"z\"], " && c == "solutionOrder: [0,1]"
    requires t == a + b + c
    ensures NoPair(t, '"', 'l') && NoPair(t, '"', 'd') && NoPair(t, '"', 's')
    ensures '{' !in t && '`' !in t && !IsSpace(t[0]) && !IsSpace(t[|t| - 1])
  {
    SampleLinesPiece(a);
    SampleDistractorsPiece(b);
    SampleOrderPiece(c);
    NoPairAppend(a, b, '"', 'l');
    NoPairAppend(a + b, c, '"', 'l');
    NoPairAppend(a, b, '"', 'd');
    NoPairAppend(a + b, c, '"', 'd');
    NoPairAppend(a, b, '"', 's');
    NoPairAppend(a + b, c, '"', 's');
  }

  /** In the sample, the unquoted `lines:` pattern captures `"x","y"`. */
  lemma SampleLinesField(t: string, a: string, b: string, c: string)
    requires a == "lines: [\"x\",\"y\"], " && b == "distractors: [\"z\"], " && c == "solutionOrder: [0,1]"
    requires t == a + b + c
    ensures FieldArray(t, "lines") == Some("\"x\",\"y\"")
  {
    SampleQuotes(t, a, b, c);
    SampleLinesPiece(a);
    QuotedKeyAbsent(t, "lines", ':', 0);
    assert t == "" + a + (b + c);
    ArrayTailIn(t, "", a, b + c, "lines", "\"x\",\"y\"", ':');
    KeyFirstAt(t, "lines", ':', 0, 0);
  }

  /** In the sample, the unquoted `distractors:` pattern captures `"z"`. */
  lemma SampleDistractorsField(t: string, a: string, b: string, c: string)
    requires a == "lines: [\"x\",\"y\"], " && b == "distractors: [\"z\"], " && c == "solutionOrder: [0,1]"
    requires t == a + b + c
    ensures FieldArray(t, "distractors") == Some("\"z\"")
  {
    SampleQuotes(t, a, b, c);
    SampleLinesPiece(a);
    SampleDistractorsPiece(b);
    QuotedKeyAbsent(t, "distractors", ':', 0);
    ArrayTailIn(t, a, b, c, "distractors", "\"z\"", ':');
    forall j | 0 <= j < |a| ensures t[j] != 'd' {
      assert t[j] == a[j];
    }
    KeyFirstAt(t, "distractors", ':', 0, |a|);
  }

  /** In the sample, the unquoted `solutionOrder:` pattern captures `0,1`. */
  lemma SampleOrderField(t: string, a: string, b: string, c: string)
    requires a == "lines: [\"x\",\"y\"], " && b == "distractors: [\"z\"], " && c == "solutionOrder: [0,1]"
    requires t == a + b + c
    ensures OrderArray(t) == Some("0,1")
  {
    SampleNoQuotedOrderKey(t, a, b, c);
    SampleOrderTail(t, a, b, c);
    SampleHeadNoOrderKey(t, a, b, c);
    UnquotedOrderKeyAt(t, |a + b|, "0,1");
    UnquotedOrderFound(t, "0,1");
  }

  /** The first `solutionOrder:` at `p`, followed by an array, is what the unquoted pattern finds. */
  lemma UnquotedOrderKeyAt(t: string, p: nat, body: string)
    requires p + 13 <= |t| && t[p..p + 13] == "solutionOrder"
    requires ArrayTailAt(t, p + 13, ':') == Some(body)
    requires forall j :: 0 <= j < p ==> t[j] != 's' || t[j + 1] != 'o'
    ensures KeyArray(t, "solutionOrder", ':') == Some(body)
  {
    KeyFirstAt(t, "solutionOrder", ':', 0, p);
  }

  /** With no quoted key, the unquoted `solutionOrder:` pattern decides the order array. */
  lemma UnquotedOrderFound(t: string, body: string)
    requires KeyArrayFrom(t, "\"" + "solutionOrder" + "\"", ':', 0) == None
    requires KeyArray(t, "solutionOrder", ':') == Some(body)
    ensures OrderArray(t) == Some(body)
  {
  }

  /** The sample quotes no key, so the quoted `"solutionOrder":` pattern finds nothing. */
  lemma SampleNoQuotedOrderKey(t: string, a: string, b: string, c: string)
    requires a == "lines: [\"x\",\"y\"], " && b == "distractors: [\"z\"], " && c == "solutionOrder: [0,1]"
    requires t == a + b + c
    ensures KeyArrayFrom(t, "\"" + "solutionOrder" + "\"", ':', 0) == None
  {
    SampleQuotes(t, a, b, c);
    QuotedKeyAbsent(t, "solutionOrder", ':', 0);
  }

  /** In the sample, `solutionOrder` follows the first two pieces, and its array holds `0,1`. */
  lemma SampleOrderTail(t: string, a: string, b: string, c: string)
    requires a == "lines: [\"x\",\"y\"], " && b == "distractors: [\"z\"], " && c == "solutionOrder: [0,1]"
    requires t == a + b + c
    ensures |a + b| + 13 <= |t| && t[|a + b|..|a + b| + 13] == "solutionOrder"
    ensures ArrayTailAt(t, |a + b| + 13, ':') == Some("0,1")
  {
    SampleOrderPiece(c);
    assert t == a + b + c + "";
    ArrayTailIn(t, a + b, c, "", "solutionOrder", "0,1", ':');
  }

  /** In the sample, nothing before `solutionOrder:` starts with `so`. */
  lemma SampleHeadNoOrderKey(t: string, a: string, b: string, c: string)
    requires a == "lines: [\"x\",\"y\"], " && b == "distractors: [\"z\"], " && c == "solutionOrder: [0,1]"
    requires t == a + b + c
    ensures forall j :: 0 <= j < |a + b| ==> t[j] != 's' || t[j + 1] != 'o'
  {
    SampleLinesPiece(a);
    SampleDistractorsPiece(b);
    NoPairAppend(a, b, 's', 'o');
    assert t[..|a + b|] == a + b;
    PrefixNoPair(t, a + b, 's', 'o');
  }

  /** No position inside a prefix without the pair, ending in another character, starts the pair. */
  lemma PrefixNoPair(t: string, pre: string, x: char, y: char)
    requires |pre| < |t| && t[..|pre|] == pre
    requires NoPair(pre, x, y) && (|pre| > 0 ==> pre[|pre| - 1] != x)
    ensures forall j :: 0 <= j < |pre| ==> t[j] != x || t[j + 1] != y
  {
    forall j | 0 <= j < |pre| ensures t[j] != x || t[j + 1] != y {
      assert t[j] == pre[j];
      if j < |pre| - 1 {
        assert t[j + 1] == pre[j + 1];
      }
    }
  }

  /** Where white space starting at `i` stops when a non-space character lies ahead at `e`. */
  lemma SkipSpaceStops(t: string, i: nat, e: nat)
    requires i <= e < |t| && !IsSpace(t[e])
    ensures SkipSpace(t, i) <= e
  {
  }

  lemma {:induction false} ClosingBraceAt(t: string, e: nat, last: nat)
    requires e <= last < |t| && t[last] == '}' && FenceAt(t, SkipSpace(t, last + 1))
    requires forall k :: e <= k < last ==> !(t[k] == '}' && FenceAt(t, SkipSpace(t, k + 1)))
    ensures ClosingBraceFrom(t, e) == Some(last)
    decreases last - e
  {
    if e < last {
      ClosingBraceAt(t, e + 1, last);
    }
  }

  /** An opening ```json fence and its line break are skipped up to the `{` that follows. */
  lemma OpeningFence(t: string, body: string)
    requires t == "```json\n" + body && |body| > 0 && body[0] == '{'
    ensures FenceAt(t, 0) && AfterOpenFence(t, 0) == 8 && t[8] == '{'
  {
    assert t[..3] == "```";
    assert t[3..7] == "json";
    assert t[7] == '\n';
    assert t[8] == body[0];
    assert SkipSpace(t, 8) == 8;
  }

  /**
   * A fenced ```json block around an object free of backticks yields
   * exactly that object, whatever follows the closing fence.
   */
  lemma FencedBlockFound(inner: string, rest: string)
    requires |inner| >= 2 && inner[0] == '{' && inner[|inner| - 1] == '}' && '`' !in inner
    ensures FencedObject("```json\n" + inner + "\n```" + rest) == Some(inner)
  {
    var t := "```json\n" + inner + "\n```" + rest;
    OpeningFence(t, inner + "\n```" + rest);
    ClosingFence(t, inner, rest);
    assert t[8..8 + |inner|] == inner;
  }

  /** The lazy search for the closing brace stops at the object's own last character. */
  lemma ClosingFence(t: string, inner: string, rest: string)
    requires |inner| >= 2 && inner[0] == '{' && inner[|inner| - 1] == '}' && '`' !in inner
    requires t == "```json\n" + inner + "\n```" + rest
    ensures ClosingBraceFrom(t, 9) == Some(8 + |inner| - 1)
  {
    var last := 8 + |inner| - 1;
    assert t[last] == '}';
    assert t[last + 1] == '\n' && t[last + 2] == '`';
    assert SkipSpace(t, last + 1) == last + 2;
    assert t[last + 2..last + 5] == "```";
    forall k | 9 <= k < last
      ensures !(t[k] == '}' && FenceAt(t, SkipSpace(t, k + 1)))
    {
      SkipSpaceStops(t, k + 1, last);
    }
    ClosingBraceAt(t, 9, last);
  }

  /** The fenced reply goes through the fenced-block strategy to the inner object. */
  lemma FencedParsesInner(inner: string, parse: JsonParser)
    requires |inner| >= 2 && inner[0] == '{' && inner[|inner| - 1] == '}' && '`' !in inner
    requires parse(Trim("```json\n" + inner + "\n```")).Err?
    ensures parse(inner).Ok? ==> ParseJsonResponse("```json\n" + inner + "\n```", parse) == parse(inner)
  {
    var fenced := "```json\n" + inner + "\n```";
    assert fenced == "```json\n" + inner + "\n```" + "";
    FencedBlockFound(inner, "");
    TrimNoSpace(inner);
  }

  /**
   * An object wrapped in a ```json fence parses to the same candidate as
   * the bare object, when the fenced text as a whole is not JSON.
   */
  lemma FencedSameAsPlain(inner: string, parse: JsonParser)
    requires |inner| >= 2 && inner[0] == '{' && inner[|inner| - 1] == '}' && '`' !in inner
    requires parse(inner).Ok? && ValidateParsedData(parse(inner).value).Ok?
    requires parse(Trim("```json\n" + inner + "\n```")).Err?
    ensures ParseLLMResponse(Str("```json\n" + inner + "\n```"), parse) == ParseLLMResponse(Str(inner), parse)
  {
    var data := parse(inner).value;
    FencedParsesInner(inner, parse);
    JsonStrategyWins("```json\n" + inner + "\n```", parse, data);
    TrimNoSpace(inner);
    DirectJsonWins(inner, parse, data);
  }

  /** When a JSON strategy yields a value that validates, that value's candidate is the result. */
  lemma JsonStrategyWins(text: string, parse: JsonParser, data: Value)
    requires text != "" && ParseJsonResponse(text, parse) == Ok(data) && ValidateParsedData(data).Ok?
    ensures ParseLLMResponse(Str(text), parse) == ValidateParsedData(data)
  {
  }

  /** A line with a space of padding on each side is kept, trimmed. */
  lemma PaddedLineTrimmed(t: string)
    requires |t| > 0 && !IsSpace(t[0]) && !IsSpace(t[|t| - 1])
    ensures CleanStrings([Str(" " + t + " ")]) == [t]
  {
    CleanStringsSingle(Str(" " + t + " "));
    TrimPadded(t);
  }

  /** A line of white space only is dropped. */
  lemma BlankLineDropped(blank: string)
    requires AllSpace(blank)
    ensures CleanStrings([Str(blank)]) == []
  {
    CleanStringsSingle(Str(blank));
    TrimEmptyIff(blank);
  }

  /** A line without surrounding white space is kept as it is. */
  lemma PlainLineKept(u: string)
    requires |u| > 0 && !IsSpace(u[0]) && !IsSpace(u[|u| - 1])
    ensures CleanStrings([Str(u)]) == [u]
  {
    CleanStringsSingle(Str(u));
    TrimNoSpace(u);
  }

  /** Null entries and blank lines are dropped, the rest trimmed, order kept. */
  lemma SampleLinesCleaned(t: string, blank: string, u: string)
    requires |t| > 0 && !IsSpace(t[0]) && !IsSpace(t[|t| - 1])
    requires AllSpace(blank)
    requires |u| > 0 && !IsSpace(u[0]) && !IsSpace(u[|u| - 1])
    ensures CleanStrings([Str(" " + t + " "), Null, Str(blank), Str(u)]) == [t, u]
  {
    var a, b, c, d := Str(" " + t + " "), Null, Str(blank), Str(u);
    PlainLineKept(u);
    BlankLineDropped(blank);
    CleanStringsCons([c, d], [d], [], [u]);
    CleanStringsSingle(b);
    CleanStringsCons([b, c, d], [c, d], [], [u]);
    PaddedLineTrimmed(t);
    CleanStringsCons([a, b, c, d], [b, c, d], [t], [u]);
  }

  /** Cleaning a list is cleaning its head, then its tail. */
  lemma CleanStringsCons(xs: seq<Value>, rest: seq<Value>, ys: seq<string>, zs: seq<string>)
    requires xs != [] && xs[1..] == rest
    requires CleanStrings([xs[0]]) == ys && CleanStrings(rest) == zs
    ensures CleanStrings(xs) == ys + zs
  {
    assert xs == [xs[0]] + rest;
    CleanStringsAppend([xs[0]], rest);
  }

  /** Indices out of range are dropped; numeric strings and fractions inside the range are kept. */
  lemma SampleOrderFiltered()
    ensures InRangeNumbers(NumbersOf([Num(1.0), Str("0"), Num(7.0), Num(-1.0), Num(0.5)]), 2) == [1.0, 0.0, 0.5]
  {
    SampleOrderNumeric();
    SampleNumbersFiltered();
  }

  lemma SampleOrderNumeric()
    ensures NumbersOf([Num(1.0), Str("0"), Num(7.0), Num(-1.0), Num(0.5)])
            == [Finite(1.0), Finite(0.0), Finite(7.0), Finite(-1.0), Finite(0.5)]
  {
    ZeroText("0");
  }

  lemma SampleNumbersFiltered()
    ensures InRangeNumbers([Finite(1.0), Finite(0.0), Finite(7.0), Finite(-1.0), Finite(0.5)], 2) == [1.0, 0.0, 0.5]
  {
    var ns := [Finite(1.0), Finite(0.0), Finite(7.0), Finite(-1.0), Finite(0.5)];
    assert InRangeNumbers(ns[4..], 2) == [0.5];
    assert InRangeNumbers(ns[3..], 2) == [0.5] by { assert ns[3..][1..] == ns[4..]; }
    assert InRangeNumbers(ns[2..], 2) == [0.5] by { assert ns[2..][1..] == ns[3..]; }
    assert InRangeNumbers(ns[1..], 2) == [0.0, 0.5] by { assert ns[1..][1..] == ns[2..]; }
  }

  const SampleOrder := [Num(1.0), Str("0"), Num(7.0), Num(-1.0), Num(0.5)]

  /** A reply record with a padded line, a null, a blank line, a plain line and a string for `distractors`. */
  function SampleRecord(t: string, blank: string, u: string): Value {
    Obj(map["lines" := Arr([Str(" " + t + " "), Null, Str(blank), Str(u)]), "distractors" := Str("x == 1"),
            "solutionOrder" := Arr(SampleOrder)])
  }

  lemma SampleRecordFields(t: string, blank: string, u: string)
    ensures Get(SampleRecord(t, blank, u), "lines") == Arr([Str(" " + t + " "), Null, Str(blank), Str(u)])
    ensures Get(SampleRecord(t, blank, u), "distractors") == Str("x == 1")
    ensures Get(SampleRecord(t, blank, u), "solutionOrder") == Arr(SampleOrder)
    ensures Get(SampleRecord(t, blank, u), "problem") == Undefined && Get(SampleRecord(t, blank, u), "hint") == Undefined
  {
  }

  /** After normalisation the non-array `distractors` is empty and problem and hint are `''`. */
  lemma SampleRecordNormalised(t: string, blank: string, u: string)
    requires |t| > 0 && !IsSpace(t[0]) && !IsSpace(t[|t| - 1])
    requires AllSpace(blank)
    requires |u| > 0 && !IsSpace(u[0]) && !IsSpace(u[|u| - 1])
    ensures ValidateParsedData(SampleRecord(t, blank, u))
            == Ok(Candidate([t, u], [], [1.0, 0.0, 0.5], Str(""), Str("")))
  {
    SampleRecordFields(t, blank, u);
    SampleLinesCleaned(t, blank, u);
    SampleOrderFiltered();
    NoneOutOfRange([1.0, 0.0, 0.5], 2);
  }

  // ---------------------------------------------------------------------
  // Properties of the item scanner and the regex fallback

  lemma {:induction false} QuotedEndPlain(t: string, q: nat, e: nat, quote: char)
    requires q <= e < |t| && t[e] == quote
    requires forall k :: q <= k < e ==> t[k] != quote && t[k] != '\\'
    ensures QuotedEnd(t, q, quote) == Some(e)
    decreases e - q
  {
    if q < e {
      QuotedEndPlain(t, q + 1, e, quote);
    }
  }

  lemma {:induction false} ReplaceAbsent(s: string, from: string, to: string)
    requires |from| > 0 && from[0] !in s
    ensures ReplaceAll(s, from, to) == s
    decreases |s|
  {
    if |s| > 0 {
      assert s[0] in s;
      assert forall c :: c in s[1..] ==> c in s;
      ReplaceAbsent(s[1..], from, to);
      assert [s[0]] + s[1..] == s;
    }
  }

  /** Nothing is replaced when the pattern's last character never occurs. */
  lemma {:induction false} ReplaceAbsentLast(s: string, from: string, to: string)
    requires |from| > 0 && from[|from| - 1] !in s
    ensures ReplaceAll(s, from, to) == s
    decreases |s|
  {
    if |s| > 0 {
      assert forall c :: c in s[1..] ==> c in s;
      ReplaceAbsentLast(s[1..], from, to);
      assert [s[0]] + s[1..] == s;
    }
  }

  /** A double-quoted item without escapes is taken verbatim, and scanning resumes after its quote. */
  lemma PlainQuotedItem(t: string, pos: nat, e: nat)
    requires pos < e < |t| && t[pos] == '"' && t[e] == '"'
    requires forall k :: pos < k < e ==> t[k] != '"' && t[k] != '\\'
    ensures ItemAt(t, pos) == Some((Str(t[pos + 1..e]), e + 1))
  {
    QuotedEndPlain(t, pos + 1, e, '"');
    var body := t[pos + 1..e];
    assert '\\' !in body;
    ReplaceAbsent(body, "\\\"", "\"");
    ReplaceAbsent(body, "\\n", "\n");
    ReplaceAbsent(body, "\\\\", "\\");
  }

  /** Escaped quotes, newlines and backslashes inside a double-quoted item are decoded. */
  lemma EscapesDecoded()
    ensures UnescapeDoubleQuoted("a\\\"b") == "a\"b"
    ensures UnescapeDoubleQuoted("a\\nb") == "a\nb"
    ensures UnescapeDoubleQuoted("a\\\\b") == "a\\b"
  {
    assert ReplaceAll("a\\\"b", "\\\"", "\"") == "a\"b";
    ReplaceAbsent("a\"b", "\\n", "\n");
    ReplaceAbsent("a\"b", "\\\\", "\\");
    EscapedNewlineDecoded();
    EscapedBackslashDecoded();
  }

  lemma EscapedNewlineDecoded()
    ensures UnescapeDoubleQuoted("a\\nb") == "a\nb"
  {
    ReplaceAbsentLast("a\\nb", "\\\"", "\"");
    assert ReplaceAll("a\\nb", "\\n", "\n") == "a\nb";
    ReplaceAbsent("a\nb", "\\\\", "\\");
  }

  lemma EscapedBackslashDecoded()
    ensures UnescapeDoubleQuoted("a\\\\b") == "a\\b"
  {
    ReplaceAbsentLast("a\\\\b", "\\\"", "\"");
    assert ReplaceAll("a\\\\b", "\\n", "\n") == "a\\\\b";
    assert ReplaceAll("a\\\\b", "\\\\", "\\") == "a\\b";
  }

  /**
   * Whatever the regex fallback extracts is validated exactly as a JSON
   * reply carrying the same three arrays would be.
   */
  lemma RegexRecoversSameRecord(text: string, parse: JsonParser)
    requires text != "" && Validated(ParseJsonResponse(text, parse)).Err?
    requires RegexFallback(text, parse).Ok?
    requires ValidateParsedData(RegexRecord(FieldItems(text, "lines", parse), FieldItems(text, "distractors", parse),
                                            OrderNumbers(text))).Ok?
    ensures ParseLLMResponse(Str(text), parse)
            == ValidateParsedData(RegexRecord(FieldItems(text, "lines", parse), FieldItems(text, "distractors", parse),
                                              OrderNumbers(text)))
  {
  }

  /** The line items of the sample: JSON when the parser takes `["x","y"]`, else the two quoted strings scanned out. */
  lemma SampleLineItems(s: string, parse: JsonParser)
    requires s == "\"x\",\"y\""
    requires parse("[\"x\",\"y\"]").Err? || parse("[\"x\",\"y\"]") == Ok(Arr([Str("x"), Str("y")]))
    ensures ArrayItems(s, parse) == [Str("x"), Str("y")]
  {
    TrimNoSpace(s);
    assert "[" + s + "]" == "[\"x\",\"y\"]";
    PlainQuotedItem(s, 0, 2);
    assert s[1..2] == "x";
    assert NextItem(s, 0) == Some((Str("x"), 3));
    assert ItemAt(s, 3) == None;
    PlainQuotedItem(s, 4, 6);
    assert s[5..6] == "y";
    assert NextItem(s, 3) == Some((Str("y"), 7));
    assert ScanItems(s, 7) == [];
    assert ScanItems(s, 3) == [Str("y")];
  }

  /** The distractor items of the sample: JSON when the parser takes `["z"]`, else the quoted string scanned out. */
  lemma SampleDistractorItems(s: string, parse: JsonParser)
    requires s == "\"z\""
    requires parse("[\"z\"]").Err? || parse("[\"z\"]") == Ok(Arr([Str("z")]))
    ensures ArrayItems(s, parse) == [Str("z")]
  {
    TrimNoSpace(s);
    assert "[" + s + "]" == "[\"z\"]";
    PlainQuotedItem(s, 0, 2);
    assert s[1..2] == "z";
    assert ScanItems(s, 3) == [];
  }

  /** The order text of the sample reads as the indices 0 and 1. */
  lemma SampleOrderNumbers(s: string)
    requires s == "0,1"
    ensures IntValues(DigitRuns(Trim(s))) == [Num(0.0), Num(1.0)]
  {
    TrimNoSpace(s);
    assert LeadingDigits(s) == 1 && s[..1] == "0" && s[1..] == ",1";
    assert ",1"[1..] == "1";
    assert LeadingDigits("1") == 1 && "1"[..1] == "1" && "1"[1..] == [];
    assert DigitRuns(s) == [0, 1];
  }

  /** The fields of the record the fallback builds; it has no problem and no hint. */
  lemma RegexRecordFields(lines: seq<Value>, distractors: seq<Value>, order: seq<Value>)
    ensures Get(RegexRecord(lines, distractors, order), "lines") == Arr(lines)
    ensures Get(RegexRecord(lines, distractors, order), "distractors") == Arr(distractors)
    ensures Get(RegexRecord(lines, distractors, order), "solutionOrder") == Arr(order)
    ensures Get(RegexRecord(lines, distractors, order), "problem") == Undefined
    ensures Get(RegexRecord(lines, distractors, order), "hint") == Undefined
  {
  }

  /**
   * A record of two plain lines, one plain distractor and the order
   * [0, 1], as the fallback builds it, validates to exactly those values.
   */
  lemma TwoLineRecordValidated(x: string, y: string, z: string)
    requires |x| > 0 && !IsSpace(x[0]) && !IsSpace(x[|x| - 1])
    requires |y| > 0 && !IsSpace(y[0]) && !IsSpace(y[|y| - 1])
    requires |z| > 0 && !IsSpace(z[0]) && !IsSpace(z[|z| - 1])
    ensures ValidateParsedData(RegexRecord([Str(x), Str(y)], [Str(z)], [Num(0.0), Num(1.0)]))
            == Ok(Candidate([x, y], [z], [0.0, 1.0], Str(""), Str("")))
  {
    var data := RegexRecord([Str(x), Str(y)], [Str(z)], [Num(0.0), Num(1.0)]);
    RegexRecordFields([Str(x), Str(y)], [Str(z)], [Num(0.0), Num(1.0)]);
    TwoPlainLinesKept(x, y);
    PlainLineKept(z);
    OrderZeroOneKept();
    ValidatedFromFields(data, [x, y], [z], [0.0, 1.0]);
  }

  /** Two lines without surrounding white space are both kept, in order. */
  lemma TwoPlainLinesKept(x: string, y: string)
    requires |x| > 0 && !IsSpace(x[0]) && !IsSpace(x[|x| - 1])
    requires |y| > 0 && !IsSpace(y[0]) && !IsSpace(y[|y| - 1])
    ensures CleanStrings([Str(x), Str(y)]) == [x, y]
  {
    PlainLineKept(x);
    PlainLineKept(y);
    CleanStringsAppend([Str(x)], [Str(y)]);
    assert [Str(x), Str(y)] == [Str(x)] + [Str(y)];
  }

  /** The order [0, 1] against two lines is kept whole. */
  lemma OrderZeroOneKept()
    ensures InRangeNumbers(NumbersOf([Num(0.0), Num(1.0)]), 2) == [0.0, 1.0]
    ensures OutOfRange([0.0, 1.0], 2) == []
  {
    ZeroOneNumeric();
    ZeroOneInRange();
    NoneOutOfRange([0.0, 1.0], 2);
  }

  lemma ZeroOneNumeric()
    ensures NumbersOf([Num(0.0), Num(1.0)]) == [Finite(0.0), Finite(1.0)]
  {
  }

  lemma ZeroOneInRange()
    ensures InRangeNumbers([Finite(0.0), Finite(1.0)], 2) == [0.0, 1.0]
  {
    var ns := [Finite(0.0), Finite(1.0)];
    assert InRangeNumbers(ns[1..], 2) == [1.0];
  }

  /** Normalisation of an object whose fields clean to the given values, with no index out of range. */
  lemma ValidatedFromFields(data: Value, lines: seq<string>, distractors: seq<string>, order: seq<real>)
    requires data.Obj?
    requires Get(data, "lines").Arr? && CleanStrings(Get(data, "lines").items) == lines && lines != []
    requires Get(data, "distractors").Arr? && CleanStrings(Get(data, "distractors").items) == distractors
    requires Get(data, "solutionOrder").Arr?
    requires InRangeNumbers(NumbersOf(Get(data, "solutionOrder").items), |lines|) == order && order != []
    requires OutOfRange(order, |lines|) == []
    ensures ValidateParsedData(data)
            == Ok(Candidate(lines, distractors, order, Or(Get(data, "problem"), Str("")), Or(Get(data, "hint"), Str(""))))
  {
  }

  /**
   * The regex fallback on a reply that names its fields without quotes:
   * the text is not JSON and holds no brace, so the JSON strategies fail,
   * and the fallback recovers the lines, the distractor and the order,
   * whether or not the parser accepts the bracketed item lists.
   */
  lemma RegexFallbackSample(raw: string, parse: JsonParser)
    requires raw == "lines: [\"x\",\"y\"], distractors: [\"z\"], solutionOrder: [0,1]"
    requires parse(raw).Err?
    requires parse("[\"x\",\"y\"]").Err? || parse("[\"x\",\"y\"]") == Ok(Arr([Str("x"), Str("y")]))
    requires parse("[\"z\"]").Err? || parse("[\"z\"]") == Ok(Arr([Str("z")]))
    ensures ParseLLMResponse(Str(raw), parse) == Ok(Candidate(["x", "y"], ["z"], [0.0, 1.0], Str(""), Str("")))
  {
    var a, b, c := "lines: [\"x\",\"y\"], ", "distractors: [\"z\"], ", "solutionOrder: [0,1]";
    SampleSplit(raw);
    SampleFallback(raw, a, b, c, parse);
  }

  /** The regex fallback's record for the sample. */
  lemma SampleRegexRecord(t: string, a: string, b: string, c: string, parse: JsonParser)
    requires a == "lines: [\"x\",\"y\"], " && b == "distractors: [\"z\"], " && c == "solutionOrder: [0,1]"
    requires t == a + b + c
    requires parse("[\"x\",\"y\"]").Err? || parse("[\"x\",\"y\"]") == Ok(Arr([Str("x"), Str("y")]))
    requires parse("[\"z\"]").Err? || parse("[\"z\"]") == Ok(Arr([Str("z")]))
    ensures RegexFallback(t, parse) == Ok(RegexRecord([Str("x"), Str("y")], [Str("z")], [Num(0.0), Num(1.0)]))
  {
    SampleLinesField(t, a, b, c);
    SampleDistractorsField(t, a, b, c);
    SampleOrderField(t, a, b, c);
    SampleLineItems("\"x\",\"y\"", parse);
    SampleDistractorItems("\"z\"", parse);
    SampleOrderNumbers("0,1");
    assert FieldItems(t, "lines", parse) == [Str("x"), Str("y")];
    assert FieldItems(t, "distractors", parse) == [Str("z")];
    assert OrderNumbers(t) == [Num(0.0), Num(1.0)];
  }

  lemma SampleFallback(t: string, a: string, b: string, c: string, parse: JsonParser)
    requires a == "lines: [\"x\",\"y\"], " && b == "distractors: [\"z\"], " && c == "solutionOrder: [0,1]"
    requires t == a + b + c
    requires parse(t).Err?
    requires parse("[\"x\",\"y\"]").Err? || parse("[\"x\",\"y\"]") == Ok(Arr([Str("x"), Str("y")]))
    requires parse("[\"z\"]").Err? || parse("[\"z\"]") == Ok(Arr([Str("z")]))
    ensures ParseLLMResponse(Str(t), parse) == Ok(Candidate(["x", "y"], ["z"], [0.0, 1.0], Str(""), Str("")))
  {
    SampleJsonFails(t, a, b, c, parse);
    SampleRegexRecord(t, a, b, c, parse);
    SampleRecordValidated();
    FallbackWins(t, parse, Candidate(["x", "y"], ["z"], [0.0, 1.0], Str(""), Str("")));
  }

  /** The record the fallback recovers from the sample normalises to lines x, y, distractor z and order 0, 1. */
  lemma SampleRecordValidated()
    ensures ValidateParsedData(RegexRecord([Str("x"), Str("y")], [Str("z")], [Num(0.0), Num(1.0)]))
            == Ok(Candidate(["x", "y"], ["z"], [0.0, 1.0], Str(""), Str("")))
  {
    TwoLineRecordValidated("x", "y", "z");
  }

  /** The sample holds no brace and no backtick, so with the whole text not JSON every JSON strategy fails. */
  lemma SampleJsonFails(t: string, a: string, b: string, c: string, parse: JsonParser)
    requires a == "lines: [\"x\",\"y\"], " && b == "distractors: [\"z\"], " && c == "solutionOrder: [0,1]"
    requires t == a + b + c
    requires parse(t).Err?
    ensures t != "" && Validated(ParseJsonResponse(t, parse)).Err?
  {
    SampleQuotes(t, a, b, c);
    TrimNoSpace(t);
    NoJsonStructure(t, parse);
  }

  /** When the JSON strategies fail and the regex record validates, the result is that record's candidate. */
  lemma FallbackWins(t: string, parse: JsonParser, cand: Candidate)
    requires t != "" && Validated(ParseJsonResponse(t, parse)).Err?
    requires Validated(RegexFallback(t, parse)) == Ok(cand)
    ensures ParseLLMResponse(Str(t), parse) == Ok(cand)
  {
  }

}

=== FILE: rate_limit.dfy ===
/**
 * The fixed-window rate limiter: one bucket per client key, counting the
 * requests of the current 60-second window and answering 429 beyond 100.
 * The clock is a parameter: `now` is the request's `Date.now()`.
 */
module RateLimit {
  import opened JsValues
  import opened ExpressRequest

  const WindowMs := 60 * 1000
  const MaxRequestsPerWindow := 100
  const LimitExceeded := "Rate limit exceeded. Try again later."

  // ---------------------------------------------------------------------
  // keyFromReq

  /** `s.split(',')[0]`: the text before the first comma. */
  function FirstField(s: string): (r: string)
    ensures |r| <= |s| && r == s[..|r|]
    ensures ',' !in r
    ensures |r| < |s| ==> s[|r|] == ','
  {
    if s == [] || s[0] == ',' then [] else [s[0]] + FirstField(s[1..])
  }

  /** `req.headers['x-forwarded-for']?.split(',')[0]?.trim() || req.ip` */
  function ClientIp(req: Request): (r: Value)
    ensures r == req.ip || (r.Str? && r.s != "" && ',' !in r.s && !IsSpace(r.s[0]))
    ensures !Header(req, "x-forwarded-for").Str? ==> r == req.ip
  {
    match Header(req, "x-forwarded-for")
    case Str(s) => TrimKeepsCharacters(FirstField(s)); Or(Str(Trim(FirstField(s))), req.ip)
    case _ => req.ip
  }

  /** keyFromReq: the user id when there is one, else the client address. */
  function KeyFromReq(req: Request): (key: string)
    ensures Truthy(UserId(req)) ==> key == "user:" + ToStr(UserId(req))
    ensures !Truthy(UserId(req)) ==> key == "ip:" + ToStr(ClientIp(req))
  {
    var userId := UserId(req);
    if Truthy(userId) then "user:" + ToStr(userId) else "ip:" + ToStr(ClientIp(req))
  }

  /** A user key and an address key never collide. */
  lemma UserAndIpKeysDiffer(a: Request, b: Request)
    requires Truthy(UserId(a)) && !Truthy(UserId(b))
    ensures KeyFromReq(a) != KeyFromReq(b)
  {
    assert KeyFromReq(a)[0] == 'u' && KeyFromReq(b)[0] == 'i';
  }

  /** The first entry of x-forwarded-for names the client, padding and later hops ignored. */
  lemma ForwardedClientFirst(req: Request, client: string, hops: string)
    requires !Truthy(UserId(req))
    requires "x-forwarded-for" in req.headers && req.headers["x-forwarded-for"] == " " + client + " ," + hops
    requires client != "" && ',' !in client && !IsSpace(client[0]) && !IsSpace(client[|client| - 1])
    ensures KeyFromReq(req) == "ip:" + client
  {
    var s := " " + client + " ," + hops;
    var f := FirstField(s);
    assert s[..|" " + client + " "|] == " " + client + " ";
    assert forall k :: 0 <= k < |" " + client + " "| ==> s[k] != ',';
    FirstFieldUpTo(s, |" " + client + " "|);
    TrimPadded(client);
  }

  lemma {:induction false} FirstFieldUpTo(s: string, n: nat)
    requires n < |s| && s[n] == ',' && forall k :: 0 <= k < n ==> s[k] != ','
    ensures FirstField(s) == s[..n]
    decreases n
  {
    if n > 0 {
      FirstFieldUpTo(s[1..], n - 1);
      assert s[..n] == [s[0]] + s[1..][..n - 1];
    }
  }

  // ---------------------------------------------------------------------
  // The bucket update

  datatype Bucket = Bucket(start: int, count: nat)

  /**
   * The bucket after one request at `now`: a missing bucket starts at
   * `now`, a bucket whose window has run out restarts, and the request is
   * counted either way.
   */
  function Counted(bucket: Option<Bucket>, now: int): (b: Bucket)
    ensures b.count >= 1
    ensures bucket.None? ==> b == Bucket(now, 1)
    ensures bucket.Some? && now - bucket.value.start >= WindowMs ==> b == Bucket(now, 1)
    ensures bucket.Some? && now - bucket.value.start < WindowMs ==>
              b == Bucket(bucket.value.start, bucket.value.count + 1)
  {
    var b := if bucket.Some? then bucket.value else Bucket(now, 0);
    var b' := if now - b.start >= WindowMs then Bucket(now, 0) else b;
    b'.(count := b'.count + 1)
  }

  /** The reply to a request whose bucket now holds `count` requests. */
  function Verdict(count: nat): (r: Reply)
    ensures r == CallNext <==> count <= MaxRequestsPerWindow
    ensures r != CallNext ==> r == Respond(429, LimitExceeded)
  {
    if count > MaxRequestsPerWindow then Respond(429, LimitExceeded) else CallNext
  }

  function Lookup(buckets: map<string, Bucket>, key: string): Option<Bucket> {
    if key in buckets then Some(buckets[key]) else None
  }

  /** The module-level bucket map and the middleware that updates it. */
  class RateLimiter {
    var buckets: map<string, Bucket>

    constructor ()
      ensures buckets == map[]
    {
      buckets := map[];
    }

    /** The middleware's handling of one request with key `key` at time `now`. */
    method Handle(key: string, now: int) returns (reply: Reply)
      modifies this
      ensures buckets == old(buckets)[key := Counted(Lookup(old(buckets), key), now)]
      ensures reply == Verdict(buckets[key].count)
    {
      var bucket := if key in buckets then buckets[key] else Bucket(now, 0);
      if now - bucket.start >= WindowMs {
        bucket := bucket.(start := now, count := 0);
      }
      bucket := bucket.(count := bucket.count + 1);
      buckets := buckets[key := bucket];
      if bucket.count > MaxRequestsPerWindow {
        return Respond(429, LimitExceeded);
      }
      return CallNext;
    }

    /** rateLimit()'s middleware: the request's key, then the bucket update. */
    method RateLimitRequest(req: Request, now: int) returns (reply: Reply)
      modifies this
      ensures buckets == old(buckets)[KeyFromReq(req) := Counted(Lookup(old(buckets), KeyFromReq(req)), now)]
      ensures forall key :: key != KeyFromReq(req) ==> Lookup(buckets, key) == Lookup(old(buckets), key)
      ensures reply == Verdict(buckets[KeyFromReq(req)].count)
    {
      reply := Handle(KeyFromReq(req), now);
    }
  }

  // ---------------------------------------------------------------------
  // Properties of a run of requests

  /** The replies to requests with one key at the given times, and the bucket they leave. */
  function Replay(bucket: Option<Bucket>, times: seq<int>): (r: (seq<Reply>, Option<Bucket>))
    ensures |r.0| == |times|
    ensures times != [] ==> r.1.Some?
    ensures times == [] ==> r.1 == bucket
    decreases |times|
  {
    if times == [] then ([], bucket)
    else
      var b := Counted(bucket, times[0]);
      var rest := Replay(Some(b), times[1..]);
      ([Verdict(b.count)] + rest.0, rest.1)
  }

  /** A run whose requests all fall inside the window opened at `start`. */
  predicate WithinWindow(times: seq<int>, start: int) {
    forall i :: 0 <= i < |times| ==> times[i] - start < WindowMs
  }

  /**
   * Inside one window, each request is counted on top of the `count`
   * already there: request i is answered as the (count + i + 1)-th.
   */
  lemma {:induction false} ReplayWithinWindow(start: int, count: nat, times: seq<int>)
    requires WithinWindow(times, start)
    ensures Replay(Some(Bucket(start, count)), times).1 ==
              (if times == [] then Some(Bucket(start, count)) else Some(Bucket(start, count + |times|)))
    ensures forall i :: 0 <= i < |times| ==>
              Replay(Some(Bucket(start, count)), times).0[i] == Verdict(count + i + 1)
    decreases |times|
  {
    if times != [] {
      var tail := times[1..];
      assert WithinWindow(tail, start) by {
        forall i | 0 <= i < |tail| ensures tail[i] - start < WindowMs {
          assert tail[i] == times[i + 1];
        }
      }
      ReplayWithinWindow(start, count + 1, tail);
    }
  }

  /**
   * With no bucket yet, 101 requests inside the window of the first one:
   * the first 100 are handed on and the 101st is refused with 429.
   */
  lemma HundredFirstRefused(times: seq<int>)
    requires |times| == MaxRequestsPerWindow + 1
    requires WithinWindow(times, times[0])
    ensures var replies := Replay(None, times).0;
            && (forall i :: 0 <= i < MaxRequestsPerWindow ==> replies[i] == CallNext)
            && replies[MaxRequestsPerWindow] == Respond(429, LimitExceeded)
  {
    var tail := times[1..];
    assert WithinWindow(tail, times[0]) by {
      forall i | 0 <= i < |tail| ensures tail[i] - times[0] < WindowMs {
        assert tail[i] == times[i + 1];
      }
    }
    ReplayWithinWindow(times[0], 1, tail);
    var replies := Replay(None, times).0;
    assert replies == [CallNext] + Replay(Some(Bucket(times[0], 1)), tail).0;
    forall i | 1 <= i <= MaxRequestsPerWindow ensures replies[i] == Verdict(i + 1) {
      assert replies[i] == Replay(Some(Bucket(times[0], 1)), tail).0[i - 1];
    }
  }

  /** A request after the window has run out is always handed on: its bucket restarts at one. */
  lemma ExpiredWindowRestarts(bucket: Bucket, now: int)
    requires now - bucket.start >= WindowMs
    ensures Counted(Some(bucket), now) == Bucket(now, 1)
    ensures Verdict(Counted(Some(bucket), now).count) == CallNext
  {
  }
}

=== FILE: sanitization.dfy ===
/**
 * The sanitizer applied to a generated puzzle before it is stored: a size
 * limit on the serialised record, truncation of the line and distractor
 * lists and of every string, and a re-filtered `solutionOrder` that keeps
 * only integer indices into the truncated lines.
 *
 * `Buffer.byteLength(JSON.stringify(data))` is a parameter.
 */
module Sanitization {
  import opened JsValues

  const MaxLines := 30
  const MaxDistractors := 10
  const MaxLineLength := 200
  const MaxTotalJsonSize := 64 * 1024

  const TooLarge := "LLM output too large"
  const InvalidOrder := "Invalid solutionOrder after sanitation"
  const InvalidLines := "Invalid lines after sanitation"

  /** The sanitized record: exactly these five fields survive. */
  datatype Sanitized = Sanitized(
    lines: seq<string>,
    distractors: seq<string>,
    solutionOrder: seq<int>,
    problem: string,
    hint: string)

  /** `String(s).slice(0, 200)`: at most 200 UTF-16 code units. */
  function Clip(v: Value): (r: string)
    ensures Utf16Length(r) <= MaxLineLength
    ensures StartsWith(ToStr(v), r)
    ensures Utf16Length(ToStr(v)) <= MaxLineLength ==> r == ToStr(v)
    ensures r != ToStr(v) ==> Utf16Length(r) + CodeUnits(ToStr(v)[|r|]) > MaxLineLength
  {
    UnitPrefix(ToStr(v), MaxLineLength)
  }

  function ClipAll(xs: seq<Value>): (r: seq<string>)
    ensures |r| == |xs|
    ensures forall i :: 0 <= i < |xs| ==> r[i] == Clip(xs[i])
  {
    seq(|xs|, i requires 0 <= i < |xs| => Clip(xs[i]))
  }

  /** An array field's elements, or no elements when the field is not an array. */
  function ArrayField(data: Value, key: string): seq<Value> {
    var v := Get(data, key);
    if v.Arr? then v.items else []
  }

  /** `.map(Number).filter(n => Number.isInteger(n) && n >= 0 && n < count)` */
  function IntegerIndices(xs: seq<Value>, count: nat): (r: seq<int>)
    ensures |r| <= |xs|
    ensures forall j :: 0 <= j < |r| ==> 0 <= r[j] < count
  {
    if xs == [] then []
    else
      var rest := IntegerIndices(xs[1..], count);
      var n := ToNumber(xs[0]);
      if n.Finite? && IsIntegral(n.r) && 0.0 <= n.r < count as real
      then [n.r.Floor] + rest
      else rest
  }

  /** The filter keeps the input order: it distributes over concatenation. */
  lemma {:induction false} IntegerIndicesAppend(a: seq<Value>, b: seq<Value>, count: nat)
    ensures IntegerIndices(a + b, count) == IntegerIndices(a, count) + IntegerIndices(b, count)
  {
    if a == [] {
      assert a + b == b;
    } else {
      assert (a + b)[1..] == a[1..] + b;
      IntegerIndicesAppend(a[1..], b, count);
    }
  }

  /** One element survives exactly when `Number` of it is an integer in range. */
  lemma IntegerIndicesSingle(x: Value, count: nat)
    ensures IntegerIndices([x], count)
            == if ToNumber(x).Finite? && IsIntegral(ToNumber(x).r) && 0.0 <= ToNumber(x).r < count as real
               then [ToNumber(x).r.Floor] else []
  {
    assert [x][1..] == [];
  }

  /** Nothing can index an empty list. */
  lemma {:induction false} NoIndicesIntoNothing(xs: seq<Value>)
    ensures IntegerIndices(xs, 0) == []
  {
    if xs != [] {
      NoIndicesIntoNothing(xs[1..]);
    }
  }

  /** sanitizePuzzleData; `jsonBytes` is the UTF-8 size of the record's JSON text. */
  function SanitizePuzzleData(data: Value, jsonBytes: nat): (r: Result<Sanitized>)
    ensures data.Undefined? ==> r == Err(TypeErrorMessage)
    ensures !data.Undefined? && jsonBytes > MaxTotalJsonSize ==> r == Err(TooLarge)
    ensures r.Ok? ==> jsonBytes <= MaxTotalJsonSize
    ensures r.Ok? ==> 0 < |r.value.lines| <= MaxLines && |r.value.distractors| <= MaxDistractors
    ensures r.Ok? ==> r.value.lines == ClipAll(Prefix(ArrayField(data, "lines"), MaxLines))
    ensures r.Ok? ==> r.value.distractors == ClipAll(Prefix(ArrayField(data, "distractors"), MaxDistractors))
    ensures r.Ok? ==> r.value.solutionOrder == IntegerIndices(ArrayField(data, "solutionOrder"), |r.value.lines|)
                      && |r.value.solutionOrder| > 0
    ensures r.Ok? ==> r.value.problem == Clip(Or(Get(data, "problem"), Str("")))
                      && r.value.hint == Clip(Or(Get(data, "hint"), Str("")))
  {
    if data.Undefined? then Err(TypeErrorMessage)
    else if jsonBytes > MaxTotalJsonSize then Err(TooLarge)
    else if data.Null? then Err(TypeErrorMessage)
    else
      var lines := ClipAll(Prefix(ArrayField(data, "lines"), MaxLines));
      var distractors := ClipAll(Prefix(ArrayField(data, "distractors"), MaxDistractors));
      var order := IntegerIndices(ArrayField(data, "solutionOrder"), |lines|);
      if |order| == 0 then Err(InvalidOrder)
      else if |lines| == 0 then
        NoIndicesIntoNothing(ArrayField(data, "solutionOrder"));
        assert false;
        Err(InvalidLines)
      else Ok(Sanitized(lines, distractors, order,
                        Clip(Or(Get(data, "problem"), Str(""))), Clip(Or(Get(data, "hint"), Str("")))))
  }

  /**
   * The empty-lines error can never be raised: with no lines no index
   * survives, so the solutionOrder check fails first.
   */
  lemma SanitizeErrors(data: Value, jsonBytes: nat)
    ensures SanitizePuzzleData(data, jsonBytes).Err? ==>
              SanitizePuzzleData(data, jsonBytes).message in {TypeErrorMessage, TooLarge, InvalidOrder}
  {
    NoIndicesIntoNothing(ArrayField(data, "solutionOrder"));
  }

  /** A record without an array of lines is always rejected. */
  lemma MissingLinesRejected(data: Value, jsonBytes: nat)
    requires !Get(data, "lines").Arr? || Get(data, "lines").items == []
    ensures SanitizePuzzleData(data, jsonBytes).Err?
  {
    NoIndicesIntoNothing(ArrayField(data, "solutionOrder"));
  }

  /** Every output string is at most 200 code units and a prefix of the input's string form. */
  lemma SanitizedStringsBounded(data: Value, jsonBytes: nat)
    requires SanitizePuzzleData(data, jsonBytes).Ok?
    ensures var s := SanitizePuzzleData(data, jsonBytes).value;
            && (forall i :: 0 <= i < |s.lines| ==>
                  Utf16Length(s.lines[i]) <= MaxLineLength && StartsWith(ToStr(ArrayField(data, "lines")[i]), s.lines[i]))
            && (forall i :: 0 <= i < |s.distractors| ==>
                  Utf16Length(s.distractors[i]) <= MaxLineLength
                  && StartsWith(ToStr(ArrayField(data, "distractors")[i]), s.distractors[i]))
            && Utf16Length(s.problem) <= MaxLineLength && Utf16Length(s.hint) <= MaxLineLength
  {
    var s := SanitizePuzzleData(data, jsonBytes).value;
    ClippedPrefixBounded(ArrayField(data, "lines"), MaxLines, s.lines);
    ClippedPrefixBounded(ArrayField(data, "distractors"), MaxDistractors, s.distractors);
  }

  /** Clipping the first `n` elements bounds each one and keeps it a prefix of its element's string. */
  lemma ClippedPrefixBounded(xs: seq<Value>, n: nat, r: seq<string>)
    requires r == ClipAll(Prefix(xs, n))
    ensures forall i :: 0 <= i < |r| ==> Utf16Length(r[i]) <= MaxLineLength && StartsWith(ToStr(xs[i]), r[i])
  {
    forall i | 0 <= i < |r|
      ensures Utf16Length(r[i]) <= MaxLineLength && StartsWith(ToStr(xs[i]), r[i])
    {
      assert Prefix(xs, n)[i] == xs[i];
    }
  }

  /** Every output index is an integer position in the truncated lines. */
  lemma SanitizedIndicesInRange(data: Value, jsonBytes: nat)
    requires SanitizePuzzleData(data, jsonBytes).Ok?
    ensures var s := SanitizePuzzleData(data, jsonBytes).value;
            forall j :: 0 <= j < |s.solutionOrder| ==> 0 <= s.solutionOrder[j] < |s.lines|
  {
  }

  /** The sanitized record written back as a value. */
  function AsValue(s: Sanitized): Value {
    Obj(map["lines" := Arr(StrValues(s.lines)),
            "distractors" := Arr(StrValues(s.distractors)),
            "solutionOrder" := Arr(IntValues(s.solutionOrder)),
            "problem" := Str(s.problem),
            "hint" := Str(s.hint)])
  }

  function StrValues(xs: seq<string>): (r: seq<Value>)
    ensures |r| == |xs| && forall i :: 0 <= i < |xs| ==> r[i] == Str(xs[i])
  {
    seq(|xs|, i requires 0 <= i < |xs| => Str(xs[i]))
  }

  /** A record within every bound: what the sanitizer can return. */
  predicate WithinBounds(s: Sanitized) {
    && 0 < |s.lines| <= MaxLines && |s.distractors| <= MaxDistractors
    && (forall i :: 0 <= i < |s.lines| ==> Utf16Length(s.lines[i]) <= MaxLineLength)
    && (forall i :: 0 <= i < |s.distractors| ==> Utf16Length(s.distractors[i]) <= MaxLineLength)
    && Utf16Length(s.problem) <= MaxLineLength && Utf16Length(s.hint) <= MaxLineLength
    && |s.solutionOrder| > 0
    && (forall j :: 0 <= j < |s.solutionOrder| ==> 0 <= s.solutionOrder[j] < |s.lines|)
  }

  lemma SanitizeIsBounded(data: Value, jsonBytes: nat)
    requires SanitizePuzzleData(data, jsonBytes).Ok?
    ensures WithinBounds(SanitizePuzzleData(data, jsonBytes).value)
  {
    var s := SanitizePuzzleData(data, jsonBytes).value;
    ClippedPrefixBounded(ArrayField(data, "lines"), MaxLines, s.lines);
    ClippedPrefixBounded(ArrayField(data, "distractors"), MaxDistractors, s.distractors);
  }

  lemma {:induction false} IntegerIndicesOfInts(xs: seq<int>, count: nat)
    requires forall j :: 0 <= j < |xs| ==> 0 <= xs[j] < count
    ensures IntegerIndices(IntValues(xs), count) == xs
  {
    if xs != [] {
      assert IntValues(xs)[1..] == IntValues(xs[1..]);
      IntegerIndicesOfInts(xs[1..], count);
    }
  }

  lemma ClipAllOfStrings(xs: seq<string>)
    requires forall i :: 0 <= i < |xs| ==> Utf16Length(xs[i]) <= MaxLineLength
    ensures ClipAll(StrValues(xs)) == xs
  {
  }

  lemma AsValueFields(s: Sanitized)
    ensures Get(AsValue(s), "lines") == Arr(StrValues(s.lines))
    ensures Get(AsValue(s), "distractors") == Arr(StrValues(s.distractors))
    ensures Get(AsValue(s), "solutionOrder") == Arr(IntValues(s.solutionOrder))
    ensures Get(AsValue(s), "problem") == Str(s.problem)
    ensures Get(AsValue(s), "hint") == Str(s.hint)
  {
  }

  /** Sanitizing is idempotent: a sanitized record passes through a second time unchanged. */
  lemma SanitizeIdempotent(s: Sanitized, jsonBytes: nat)
    requires WithinBounds(s) && jsonBytes <= MaxTotalJsonSize
    ensures SanitizePuzzleData(AsValue(s), jsonBytes) == Ok(s)
  {
    var data := AsValue(s);
    AsValueFields(s);
    ClipAllOfStrings(s.lines);
    ClipAllOfStrings(s.distractors);
    assert ClipAll(Prefix(ArrayField(data, "lines"), MaxLines)) == s.lines;
    assert ClipAll(Prefix(ArrayField(data, "distractors"), MaxDistractors)) == s.distractors;
    IntegerIndicesOfInts(s.solutionOrder, |s.lines|);
    assert Or(Str(s.problem), Str("")) == if s.problem == "" then Str("") else Str(s.problem);
    assert Or(Str(s.hint), Str("")) == if s.hint == "" then Str("") else Str(s.hint);
    SanitizedFromFields(data, jsonBytes, s);
  }

  /** A record within the size limit whose sanitized fields are those of `s` sanitizes to `s`. */
  lemma SanitizedFromFields(data: Value, jsonBytes: nat, s: Sanitized)
    requires data.Obj? && jsonBytes <= MaxTotalJsonSize
    requires ClipAll(Prefix(ArrayField(data, "lines"), MaxLines)) == s.lines
    requires ClipAll(Prefix(ArrayField(data, "distractors"), MaxDistractors)) == s.distractors
    requires IntegerIndices(ArrayField(data, "solutionOrder"), |s.lines|) == s.solutionOrder
    requires |s.solutionOrder| > 0 && |s.lines| > 0
    requires Clip(Or(Get(data, "problem"), Str(""))) == s.problem
    requires Clip(Or(Get(data, "hint"), Str(""))) == s.hint
    ensures SanitizePuzzleData(data, jsonBytes) == Ok(s)
  {
  }

  /** Long lists are cut to 30 lines and 10 distractors. */
  lemma LongListsTruncated(data: Value, jsonBytes: nat)
    requires SanitizePuzzleData(data, jsonBytes).Ok?
    requires |ArrayField(data, "lines")| == 50 && |ArrayField(data, "distractors")| == 20
    ensures |SanitizePuzzleData(data, jsonBytes).value.lines| == 30
    ensures |SanitizePuzzleData(data, jsonBytes).value.distractors| == 10
  {
  }

  /** An index written with an exponent is read by `Number` like any other: `"1e0"` names line 1. */
  lemma ExponentIndexKept(a: Value, b: Value, one: string, jsonBytes: nat)
    requires one == "1e0" && jsonBytes <= MaxTotalJsonSize
    ensures var r := SanitizePuzzleData(Obj(map["lines" := Arr([a, b]), "solutionOrder" := Arr([Str(one)])]), jsonBytes);
            r.Ok? && r.value.solutionOrder == [1]
  {
    var data := Obj(map["lines" := Arr([a, b]), "solutionOrder" := Arr([Str(one)])]);
    assert ArrayField(data, "lines") == [a, b];
    assert ArrayField(data, "solutionOrder") == [Str(one)];
    ExponentZero(one);
    IntegerIndicesSingle(Str(one), 2);
  }

  /** A line of 150 characters beyond the Basic Multilingual Plane is 300 code units, and is cut to 100 characters. */
  lemma AstralLineClipped(s: string)
    requires |s| == 150 && forall i :: 0 <= i < |s| ==> CodeUnits(s[i]) == 2
    ensures Clip(Str(s)) == s[..100]
  {
    UnitPrefixOfAstral(s, 100);
  }

  /** An index past the only line leaves no order, which is an error. */
  lemma IndexPastSingleLineRejected(line: Value, jsonBytes: nat)
    requires jsonBytes <= MaxTotalJsonSize
    ensures SanitizePuzzleData(Obj(map["lines" := Arr([line]), "solutionOrder" := Arr([Num(5.0)])]), jsonBytes)
            == Err(InvalidOrder)
  {
    var data := Obj(map["lines" := Arr([line]), "solutionOrder" := Arr([Num(5.0)])]);
    assert ArrayField(data, "lines") == [line];
    assert ArrayField(data, "solutionOrder") == [Num(5.0)];
    IntegerIndicesSingle(Num(5.0), 1);
  }
}

=== FILE: validation.dfy ===
/**
 * The request-payload middleware: each validator runs its guards in order
 * and answers 400 with the first failing guard's message, or hands the
 * request on.
 */
module Validation {
  import opened JsValues
  import opened ExpressRequest
  import RateLimit

  /**
   * isNonEmptyString: a string with something left after trimming, that
   * is, a string holding a non-blank character.
   */
  predicate IsNonEmptyString(v: Value): (b: bool)
    ensures b <==> v.Str? && exists i :: 0 <= i < |v.s| && !IsSpace(v.s[i])
  {
    if v.Str? then TrimEmptyIff(v.s); Trim(v.s) != "" else false
  }

  /** `String(v || '')` is non-blank */
  predicate NonBlank(v: Value) {
    IsNonEmptyString(Str(ToStr(Or(v, Str("")))))
  }

  /** A falsy value is always blank: `v || ''` is the empty string. */
  lemma FalsyIsBlank(v: Value)
    requires !Truthy(v)
    ensures !NonBlank(v)
  {
  }

  // ---------------------------------------------------------------------
  // Ordered guards

  /** A guard: whether the check passed, and the message sent when it did not. */
  datatype Guard = Guard(passed: bool, message: string)

  /** The reply of a guard chain: 400 with the first failed guard's message, else on to the next handler. */
  function FirstFailure(guards: seq<Guard>): (r: Reply)
    ensures r == CallNext <==> forall i :: 0 <= i < |guards| ==> guards[i].passed
    ensures r != CallNext ==>
              exists i :: 0 <= i < |guards| && !guards[i].passed && r == Respond(400, guards[i].message)
                          && forall j :: 0 <= j < i ==> guards[j].passed
    decreases |guards|
  {
    if guards == [] then CallNext
    else if !guards[0].passed then Respond(400, guards[0].message)
    else
      var r := FirstFailure(guards[1..]);
      assert forall i :: 0 < i < |guards| ==> guards[i] == guards[1..][i - 1];
      r
  }

  // ---------------------------------------------------------------------
  // validateGeneratePayload

  const TopicRequired := "Topic is required"
  const DifficultyInvalid := "Difficulty must be one of: easy, medium, hard"
  const Difficulties := ["easy", "medium", "hard"]

  /** `const {topic, difficulty} = req.body || {}` */
  function Field(body: Value, name: string): Value {
    Get(Or(body, Obj(map[])), name)
  }

  function GenerateGuards(body: Value): seq<Guard> {
    var difficulty := Field(body, "difficulty");
    [ Guard(IsNonEmptyString(Field(body, "topic")), TopicRequired),
      Guard(!Truthy(difficulty) || ToStr(difficulty) in Difficulties, DifficultyInvalid) ]
  }

  function ValidateGeneratePayload(body: Value): (r: Reply)
    ensures r == FirstFailure(GenerateGuards(body))
    ensures r == CallNext <==>
              && IsNonEmptyString(Field(body, "topic"))
              && (!Truthy(Field(body, "difficulty")) || ToStr(Field(body, "difficulty")) in Difficulties)
    ensures r != CallNext ==> r.status == 400 && r.error in {TopicRequired, DifficultyInvalid}
  {
    var topic := Field(body, "topic");
    var difficulty := Field(body, "difficulty");
    if !IsNonEmptyString(topic) then Respond(400, TopicRequired)
    else if Truthy(difficulty) && ToStr(difficulty) !in Difficulties then Respond(400, DifficultyInvalid)
    else CallNext
  }

  /** A body without a usable topic is refused for the topic, whatever its difficulty says. */
  lemma TopicCheckedFirst(body: Value)
    requires !IsNonEmptyString(Field(body, "topic"))
    ensures ValidateGeneratePayload(body) == Respond(400, TopicRequired)
  {
  }

  /**
   * The difficulty is compared through `String(...)`, so a one-element
   * array `["hard"]` passes as well as the string `"hard"`.
   */
  lemma WrappedDifficultyAccepted(topic: string, level: string)
    requires Trim(topic) != "" && level in Difficulties
    ensures ValidateGeneratePayload(Obj(map["topic" := Str(topic), "difficulty" := Arr([Str(level)])])) == CallNext
  {
    var body := Obj(map["topic" := Str(topic), "difficulty" := Arr([Str(level)])]);
    assert Field(body, "topic") == Str(topic);
    assert IsNonEmptyString(Str(topic));
    assert JoinValues([Str(level)], ",") == level;
    assert ToStr(Field(body, "difficulty")) in Difficulties;
  }

  // ---------------------------------------------------------------------
  // validateAttemptStartPayload

  const UserIdMissing := "Missing user_id"

  function ValidateAttemptStartPayload(req: Request): (r: Reply)
    ensures r == FirstFailure([Guard(NonBlank(UserId(req)), UserIdMissing)])
    ensures r == CallNext <==> NonBlank(UserId(req))
    ensures r != CallNext ==> r == Respond(400, UserIdMissing)
  {
    if !NonBlank(UserId(req)) then Respond(400, UserIdMissing) else CallNext
  }

  /** A non-blank `x-user-id` header is enough, whatever the body holds. */
  lemma HeaderUserIdSuffices(req: Request)
    requires "x-user-id" in req.headers && Trim(req.headers["x-user-id"]) != ""
    ensures ValidateAttemptStartPayload(req) == CallNext
  {
    assert req.headers["x-user-id"] != "";
  }

  /**
   * An attempt start that passes validation is rate-limited under its user
   * id: the validator and keyFromReq read the same id.
   */
  lemma StartedAttemptKeyedByUser(req: Request)
    requires ValidateAttemptStartPayload(req) == CallNext
    ensures RateLimit.KeyFromReq(req) == "user:" + ToStr(UserId(req))
  {
    if !Truthy(UserId(req)) {
      FalsyIsBlank(UserId(req));
      assert false;
    }
  }

  // ---------------------------------------------------------------------
  // validateSubmitPayload

  const OrderNotArray := "solution_order must be an array"
  const StartTimeMissing := "Missing start_time"
  const EndTimeInvalid := "Invalid end_time"
  const AttemptsNotNumber := "attempts_count must be a number"

  function SubmitGuards(body: Value): seq<Guard> {
    var endTime := Field(body, "end_time");
    var attempts := Field(body, "attempts_count");
    [ Guard(Field(body, "solution_order").Arr?, OrderNotArray),
      Guard(NonBlank(Field(body, "start_time")), StartTimeMissing),
      Guard(!Truthy(endTime) || IsNonEmptyString(Str(ToStr(endTime))), EndTimeInvalid),
      Guard(!Truthy(attempts) || attempts.Num?, AttemptsNotNumber) ]
  }

  function ValidateSubmitPayload(body: Value): (r: Reply)
    ensures !Field(body, "solution_order").Arr? ==> r == Respond(400, OrderNotArray)
    ensures r != CallNext ==>
              r.status == 400 && r.error in {OrderNotArray, StartTimeMissing, EndTimeInvalid, AttemptsNotNumber}
  {
    var solutionOrder := Field(body, "solution_order");
    var startTime := Field(body, "start_time");
    var endTime := Field(body, "end_time");
    var attempts := Field(body, "attempts_count");
    if !solutionOrder.Arr? then Respond(400, OrderNotArray)
    else if !NonBlank(startTime) then Respond(400, StartTimeMissing)
    else if Truthy(endTime) && !IsNonEmptyString(Str(ToStr(endTime))) then Respond(400, EndTimeInvalid)
    else if Truthy(attempts) && !attempts.Num? then Respond(400, AttemptsNotNumber)
    else CallNext
  }

  /** The submit validator answers as its guard chain does: the first failing check's message, in the order listed. */
  lemma SubmitChecksInOrder(body: Value)
    ensures ValidateSubmitPayload(body) == FirstFailure(SubmitGuards(body))
  {
    var guards := SubmitGuards(body);
    var r := ValidateSubmitPayload(body);
    if !guards[0].passed {
      assert r == Respond(400, guards[0].message);
      FirstFailureAt(guards, 0);
    } else if !guards[1].passed {
      assert r == Respond(400, guards[1].message);
      FirstFailureAt(guards, 1);
    } else if !guards[2].passed {
      assert r == Respond(400, guards[2].message);
      FirstFailureAt(guards, 2);
    } else if !guards[3].passed {
      assert r == Respond(400, guards[3].message);
      FirstFailureAt(guards, 3);
    } else {
      assert r == CallNext;
      assert forall i :: 0 <= i < |guards| ==> guards[i].passed;
    }
  }

  /** The least failing guard decides the reply. */
  lemma {:induction false} FirstFailureAt(guards: seq<Guard>, i: nat)
    requires i < |guards| && !guards[i].passed
    requires forall j :: 0 <= j < i ==> guards[j].passed
    ensures FirstFailure(guards) == Respond(400, guards[i].message)
    decreases i
  {
    if i > 0 {
      FirstFailureAt(guards[1..], i - 1);
    }
  }

  /** A submission passes exactly when its order is an array, its start time is present, and the optional fields are well-typed. */
  lemma SubmitPassesIff(body: Value)
    ensures ValidateSubmitPayload(body) == CallNext <==>
              && Field(body, "solution_order").Arr?
              && Truthy(Field(body, "start_time"))
              && NonBlank(Field(body, "start_time"))
              && (!Truthy(Field(body, "end_time")) || NonBlank(Field(body, "end_time")))
              && (!Truthy(Field(body, "attempts_count")) || Field(body, "attempts_count").Num?)
  {
    var guards := SubmitGuards(body);
    assert guards[0].passed && guards[1].passed ==> Truthy(Field(body, "start_time")) by {
      if !Truthy(Field(body, "start_time")) { FalsyIsBlank(Field(body, "start_time")); }
    }
  }

  /** Numeric times are accepted: `String(1700000000000)` is not blank. */
  lemma NumericStartTimeAccepted(start: nat)
    requires start > 0
    ensures ValidateSubmitPayload(Obj(map["solution_order" := Arr([]), "start_time" := Num(start as real)])) == CallNext
  {
    var body := Obj(map["solution_order" := Arr([]), "start_time" := Num(start as real)]);
    assert Field(body, "solution_order") == Arr([]) && Field(body, "start_time") == Num(start as real);
    assert Field(body, "end_time") == Undefined && Field(body, "attempts_count") == Undefined;
    PositiveNumberNonBlank(start);
  }

  /** A positive whole number stringifies to text that starts with a digit. */
  lemma PositiveNumberNonBlank(start: nat)
    requires start > 0
    ensures NonBlank(Num(start as real))
  {
    var s := NumToString(start as real);
    NatStringStartsWithDigit(start);
    assert ToStr(Or(Num(start as real), Str(""))) == s;
    assert IsNonEmptyString(Str(s)) by {
      assert 0 < |s| && !IsSpace(s[0]);
    }
  }
}
